=== FILE: README.md ===
# PreachLog core, modelled in Dafny

PreachLog organises a congregation's field service. There are territories split into blocks, and
preaching days ("activities") on the calendar, each with a leader, a territory and a status.
Members take part in a day (participations), log work sessions on blocks, and receive notifications.
This project models the core of the program in Dafny:

- the database schema: tables, enums, defaults on insert, and the primary-key and unique constraints;
- the storage layer: every query and update of `server/storage.ts`, on an in-memory database;
- the HTTP handlers of `server/routes.ts`: status codes, role checks, which bodies are validated, and what is stored;
- the client logic behind the screens:
  - the territories page (search, status filter, badges, progress colour);
  - the reports page (date presets, filtering, summary, per-territory and per-user statistics);
  - the calendar page (the week grid, day lookup, click, month navigation, activity dot);
  - the month-management dialog (server window, counts, ordering, labels);
  - the toast queue;
  - the bottom navigation and the header (active item, initials, role badge).

Modules, one per file:

| module | file | models |
|---|---|---|
| `Common` | common.dfy | Option/Result, filtering, counting, a stable insertion sort, lexicographic order on strings |
| `Text` | text.dfy | ASCII case mapping, `includes`, `startsWith`, `split`/`join`, decimal rendering of a counter |
| `Time` | time.dfy | instants in milliseconds, local days at a fixed UTC offset, the proleptic Gregorian calendar, month arithmetic (`addMonths`, `startOfMonth`, `endOfMonth`) |
| `Tables` | tables.dfy | a table as a sequence of rows; unique keys, insert/update/delete by id and their constraint checks |
| `Schema` | schema.dfy | the records, enums, insert payloads with their defaults, partial updates, and the database invariant `Valid` |
| `Storage` | storage.dfy | `DatabaseStorage`, as pure functions from database to result |
| `StorageLaws` | storage_laws.dfy | every write keeps `Valid`, plus write-then-read laws |
| `Routes` | routes.dfy | the route handlers as methods from (database, caller, request, clock/uuid) to (response, database) |
| `TerritoriesPage`, `ReportsPage`, `CalendarPage`, `MonthModal`, `Toasts`, `Layout` | one file each | the client components named above |

The clock, the local time zone and the uuid generator are parameters:
- `now` stands for both the database's `NOW()` and the client's `new Date()`;
- `offset` is the local zone's fixed distance from UTC;
- `freshId` is the id a new row receives.

The signed-in user is the `caller` id. A request body is modelled as already validated (`Parsed`) or rejected by its zod schema (`Invalid`).

## Model

| member | source | states |
|---|---|---|
| Schema.ParseRole | shared/schema.ts:29 | the role enum accepts exactly the four role names |
| Schema.ParseBlockStatus | shared/schema.ts:30 | the block-status enum accepts exactly its four names |
| Schema.ParseDayStatus | shared/schema.ts:31 | the day-status enum accepts exactly its five names |
| Schema.ParseNotificationType | shared/schema.ts:32 | the notification-type enum accepts exactly its five names |
| Schema.EnumLabelsRoundTrip | shared/schema.ts:29-32 | parsing the stored name of every enum value gives the value back |
| Schema.NewUser | shared/schema.ts:37-50 | a new user row gets the id, the creation time, role MEMBER and active unless given |
| Schema.NewTerritory | shared/schema.ts:53-66 | a new territory defaults to zero blocks, zero completed, rate 0, active |
| Schema.NewBlock | shared/schema.ts:69-80 | a new block defaults to PENDING and keeps its territory and number |
| Schema.NewPreachingDay | shared/schema.ts:83-94 | a new preaching day defaults to SCHEDULED and keeps date, leader and territory |
| Schema.NewParticipation | shared/schema.ts:97-108 | a new participation links the given user and day |
| Schema.NewWorkSession | shared/schema.ts:111-123 | a new work session starts now and counts zero houses, contacts and materials unless given |
| Schema.NewNotification | shared/schema.ts:126-135 | a new notification defaults to INFO and not global, and keeps its expiry |
| Schema.NewUserNotification | shared/schema.ts:138-146 | a new user-notification link keeps user, notification and read time |
| Schema.Merge | shared/schema.ts:255-300 | a partial update writes a field only when the payload carries it |
| Tables.Lookup | server/storage.ts:126-132 | a select by key finds a row with that key exactly when one exists |
| Tables.LookupUnique | server/storage.ts:126-132 | under a unique key the select finds that very row |
| Tables.InsertRow | server/storage.ts:134-140 | an insert succeeds exactly when neither the id nor the unique key is taken, and appends the row |
| Tables.InsertRowKeepsUnique | shared/schema.ts:53-66 | an accepted insert keeps the primary key and the unique column unique |
| Tables.UpdateWhere | server/storage.ts:142-149 | an update rewrites the selected rows and leaves every other row alone |
| Tables.UpdateById | server/storage.ts:142-149 | an update by id changes nothing for an unknown id, fails exactly on a clash with another row's unique key, and otherwise returns the patched row |
| Tables.UpdateByIdKeepsUnique | shared/schema.ts:69-80 | an accepted update by id keeps both keys unique |
| Tables.DeleteById | server/storage.ts:251-253 | a delete by id removes exactly the rows with that id, keeping the others in order |
| Tables.DeleteByIdKeepsUnique | server/storage.ts:251-253 | a delete keeps every unique key unique |
| Tables.FilterKeepsUnique | server/storage.ts:159-165 | the rows a query selects keep the table's unique keys |
| Tables.FilterOneKeyAtMostOne | server/storage.ts:216-232 | a filter on one value of a unique key returns at most one row |
| Tables.AppendThenLookup | server/storage.ts:134-140 | after appending a row with a fresh key, the lookup by that key finds it |
| Storage.GetUser | server/storage.ts:81-84 | the user with that id if there is one, none exactly when no row has the id |
| Storage.DisplayName | server/storage.ts:91-93 | the name is "first last" when both name claims are present and non-empty, else the e-mail claim when present and non-empty, else "Usuário"; an absent claim counts as empty; never empty |
| Storage.UpsertUser | server/storage.ts:86-107 | fails exactly when the e-mail the row ends up with is held by another user; a new id inserts a MEMBER row with the claims (null where a claim is absent); a known id overwrites only the claims present, keeps the columns of absent ones, rewrites the name from the claims and keeps role, activity, phone, avatar and creation time |
| Storage.CreateUser | server/storage.ts:109-115 | succeeds exactly when the id and e-mail are free, appending the new row |
| Storage.GetTerritories | server/storage.ts:118-124 | the active territories, each as often as stored, ascending by name |
| Storage.GetTerritory | server/storage.ts:126-132 | the territory with that id, none exactly when absent |
| Storage.CreateTerritory | server/storage.ts:134-140 | succeeds exactly when id and name are free; appends the row |
| Storage.UpdateTerritory | server/storage.ts:142-149 | unknown id: no change and no row; fails exactly on a name clash; otherwise patches that row only |
| Storage.DeleteTerritory | server/storage.ts:151-156 | a soft delete: the row is deactivated and stamped, nothing else changes |
| Storage.GetBlocks | server/storage.ts:159-165 | the territory's blocks, each as often as stored, by number |
| Storage.GetBlock | server/storage.ts:167-173 | the block with that id, none exactly when absent |
| Storage.CreateBlock | server/storage.ts:175-181 | succeeds exactly when the id and the (territory, number) pair are free |
| Storage.UpdateBlock | server/storage.ts:183-190 | unknown id: no change; fails exactly when the patched (territory, number) pair clashes; otherwise patches that row only |
| Storage.GetPreachingDays | server/storage.ts:193-206 | the days within [start, end], or all days unless both bounds are given, ascending by date |
| Storage.GetPreachingDay | server/storage.ts:208-214 | the day with that id, none exactly when absent |
| Storage.GetPreachingDayByDate | server/storage.ts:216-232 | a day on the same local day as the given instant, none exactly when there is none |
| Storage.CreatePreachingDay | server/storage.ts:234-240 | succeeds exactly when the id and the date are free |
| Storage.UpdatePreachingDay | server/storage.ts:242-249 | unknown id: no change; fails exactly on a date clash; otherwise patches that row only |
| Storage.DeletePreachingDay | server/storage.ts:251-253 | removes exactly the day with that id, keeping the rest in order |
| Storage.GetParticipations | server/storage.ts:256-262 | the day's participations, newest first |
| Storage.GetUserParticipations | server/storage.ts:264-270 | the user's participations, newest first |
| Storage.GetParticipation | server/storage.ts:280-287 | the participation with that id, none exactly when absent |
| Storage.CreateParticipation | server/storage.ts:272-278 | succeeds exactly when the id and the (user, day) pair are free |
| Storage.UpdateParticipation | server/storage.ts:280-287 | unknown id: no change; fails exactly on a (user, day) clash; otherwise patches that row only |
| Storage.DeleteParticipation | server/storage.ts:289-291 | removes exactly the participation with that id |
| Storage.GetWorkSessions | server/storage.ts:294-311 | sessions filtered on whichever non-empty ids are given, newest start first |
| Storage.GetWorkSession | server/storage.ts:321-328 | the session with that id, none exactly when absent |
| Storage.CreateWorkSession | server/storage.ts:313-319 | succeeds exactly when the id is free |
| Storage.UpdateWorkSession | server/storage.ts:321-328 | never fails; unknown id: no change; otherwise patches that row only |
| Storage.GetNotifications | server/storage.ts:331-370 | exactly the unexpired notifications that are global or linked to the user, newest first |
| Storage.JoinOneVisible | server/storage.ts:345-366 | the left join keeps one notification when a visible link exists, and once under the unique link key |
| Storage.JoinedVisibleMembers | server/storage.ts:345-366 | a notification survives the join exactly when it is listed and visible to the user |
| Storage.JoinedVisibleCounts | server/storage.ts:345-366 | under the unique link key each visible notification appears as often as stored |
| Storage.NotificationsExactlyOnce | server/storage.ts:331-370 | on a valid database every visible notification is listed once and no other |
| Storage.GetUserNotifications | server/storage.ts:372-378 | the user's links, newest first |
| Storage.CreateNotification | server/storage.ts:380-386 | succeeds exactly when the id is free |
| Storage.CreateUserNotification | server/storage.ts:388-394 | succeeds exactly when the id and the (user, notification) pair are free |
| Storage.MarkNotificationAsRead | server/storage.ts:396-406 | stamps the read time on the matching links only; nothing else changes |
| StorageLaws.UpsertUserKeepsValid | server/storage.ts:86-107 | an accepted sign-in upsert keeps every key unique |
| StorageLaws.UpsertUserThenGet | server/storage.ts:86-107 | after the upsert, reading the user returns the upserted row |
| StorageLaws.CreateUserKeepsValid | server/storage.ts:109-115 | an accepted user insert keeps the database valid |
| StorageLaws.CreateTerritoryKeepsValid | server/storage.ts:134-140 | an accepted territory insert keeps the database valid |
| StorageLaws.CreateTerritoryThenGet | server/storage.ts:134-140 | the new territory is found by id, and listed when active |
| StorageLaws.UpdateTerritoryKeepsValid | server/storage.ts:142-149 | an accepted territory update keeps the database valid |
| StorageLaws.UpdateTerritoryThenGet | server/storage.ts:142-149 | reading the territory after the update returns what the update returned |
| StorageLaws.DeleteTerritoryKeepsValid | server/storage.ts:151-156 | the soft delete keeps the database valid |
| StorageLaws.DeleteTerritoryThenGet | server/storage.ts:151-156 | a deleted territory can still be read by id, now inactive |
| StorageLaws.DeleteTerritoryUnlists | server/storage.ts:118-124 | a deleted territory is no longer listed |
| StorageLaws.CreateBlockKeepsValid | server/storage.ts:175-181 | an accepted block insert keeps the database valid |
| StorageLaws.UpdateBlockKeepsValid | server/storage.ts:183-190 | an accepted block update keeps the database valid |
| StorageLaws.CreatePreachingDayKeepsValid | server/storage.ts:234-240 | an accepted day insert keeps the database valid |
| StorageLaws.CreatePreachingDayThenGet | server/storage.ts:216-240 | the new day is found by id and by its date |
| StorageLaws.UpdatePreachingDayKeepsValid | server/storage.ts:242-249 | an accepted day update keeps the database valid |
| StorageLaws.DeletePreachingDayKeepsValid | server/storage.ts:251-253 | a day delete keeps the database valid |
| StorageLaws.CreateParticipationKeepsValid | server/storage.ts:272-278 | an accepted participation insert keeps the database valid |
| StorageLaws.CreateParticipationThenList | server/storage.ts:256-278 | the new participation is listed for its day and for its user |
| StorageLaws.UpdateParticipationKeepsValid | server/storage.ts:280-287 | an accepted participation update keeps the database valid |
| StorageLaws.DeleteParticipationKeepsValid | server/storage.ts:289-291 | a participation delete keeps the database valid |
| StorageLaws.CreateWorkSessionKeepsValid | server/storage.ts:313-319 | an accepted session insert keeps the database valid |
| StorageLaws.UpdateWorkSessionKeepsValid | server/storage.ts:321-328 | a session update keeps the database valid |
| StorageLaws.CreateNotificationKeepsValid | server/storage.ts:380-386 | an accepted notification insert keeps the database valid |
| StorageLaws.CreateUserNotificationKeepsValid | server/storage.ts:388-394 | an accepted link insert keeps the database valid |
| StorageLaws.CreateUserNotificationMakesVisible | server/storage.ts:331-394 | linking an unexpired notification to a user makes it visible to that user |
| StorageLaws.MarkNotificationAsReadKeepsValid | server/storage.ts:396-406 | marking read keeps the database valid |
| StorageLaws.MarkNotificationAsReadLaws | server/storage.ts:396-406 | marking read is idempotent and does not change which notifications are listed |
| Routes.CallerRole | server/routes.ts:225-226 | the caller's role exists exactly when the caller has a user row, and is that row's role |
| Routes.Created | server/routes.ts:56-68 | a create answers 201 with the row, or 500 with nothing stored |
| Routes.Updated | server/routes.ts:70-82 | an update answers 200 with the row, 200 without a body for an unknown id, or 500 with nothing stored |
| Routes.AuthUserRoute | server/routes.ts:21-30 | 200 with the caller's own row, no body exactly when the caller has none |
| Routes.ListTerritoriesRoute | server/routes.ts:33-41 | 200 with exactly the active territories, each as often as stored, ascending by name |
| Routes.GetTerritoryRoute | server/routes.ts:43-54 | 404 exactly when no territory has the id, else 200 with it |
| Routes.PostTerritoryRoute | server/routes.ts:56-68 | 400 exactly for an invalid body; 201 exactly when the insert is accepted; 500 otherwise, storing nothing |
| Routes.PutTerritoryRoute | server/routes.ts:70-82 | 400 for an invalid body; 200 without a body and nothing changed for an unknown id; 500 exactly on a name clash; otherwise 200 with the patched row, which is stored in place of the old one, other rows unchanged |
| Routes.DeleteTerritoryRoute | server/routes.ts:84-92 | 204; the territory with the id gets `isActive` false and `updatedAt` now, every other column and row unchanged |
| Routes.ListBlocksRoute | server/routes.ts:95-103 | 200 with exactly the territory's blocks, each as often as stored, ascending by number |
| Routes.PostBlockRoute | server/routes.ts:105-117 | 400 for an invalid body; 201 exactly when the (territory, number) pair is free; else 500 |
| Routes.PutBlockRoute | server/routes.ts:119-131 | 400 for an invalid body; 200 without a body for an unknown id; 500 exactly on a (territory, number) clash; otherwise 200 with the patched block, which is stored, other rows unchanged |
| Routes.ListPreachingDaysRoute | server/routes.ts:134-145 | 200 with exactly the stored days in the requested range, each as often as stored, ascending by date |
| Routes.TodayRoute | server/routes.ts:147-156 | 200 with a day on today's local date, or null exactly when there is none |
| Routes.GetPreachingDayRoute | server/routes.ts:158-169 | 404 exactly when no day has the id, else 200 with it |
| Routes.PostPreachingDayRoute | server/routes.ts:171-183 | 400 for an invalid body; 201 exactly when the date is free; else 500 |
| Routes.PutPreachingDayRoute | server/routes.ts:185-197 | 400 for an invalid body; 200 without a body for an unknown id; 500 exactly on a date clash; otherwise 200 with the patched day, which is stored, other rows unchanged |
| Routes.DeletePreachingDayRoute | server/routes.ts:199-207 | 204; exactly the day with the id is gone |
| Routes.ListDayParticipationsRoute | server/routes.ts:210-218 | 200 with exactly the day's participations, each as often as stored, newest first |
| Routes.UserParticipationsRoute | server/routes.ts:220-237 | 403 exactly when the caller asks for another user's participations and is not ADMIN (or has no user row); else 200 with that user's participations, each as often as stored, newest first |
| Routes.PostParticipationRoute | server/routes.ts:239-259 | 400 for an invalid body; 403 exactly when registering another user without being ADMIN, COORDINATOR or LEADER; otherwise 201, storing the participation, exactly when the id and the (user, day) pair are free, and 500 with nothing stored when not |
| Routes.PutParticipationRoute | server/routes.ts:261-273 | 400 for an invalid body; 200 without a body for an unknown id; 500 exactly when the patched (user, day) pair is another row's; otherwise 200 with the patched participation, which is stored, other rows unchanged |
| Routes.DeleteParticipationRoute | server/routes.ts:275-283 | 204; exactly the participation with the id is gone |
| Routes.ListWorkSessionsRoute | server/routes.ts:286-298 | 200 with exactly the sessions matching the query, each as often as stored, latest start first |
| Routes.PostWorkSessionRoute | server/routes.ts:300-312 | 400 for an invalid body; 201 exactly when the id is free; else 500 |
| Routes.PutWorkSessionRoute | server/routes.ts:314-326 | 200 exactly for a valid body, with the patched session, which is stored, other rows unchanged; 400 otherwise |
| Routes.ListNotificationsRoute | server/routes.ts:329-338 | 200 with exactly the notifications visible to the caller now, newest first; on a valid database each is listed once |
| Routes.UserNotificationsRoute | server/routes.ts:340-357 | 403 exactly when another user's links are asked for by a caller who is not ADMIN; else 200 with that user's links, each as often as stored, newest first |
| Routes.PostNotificationRoute | server/routes.ts:359-377 | 403 exactly when the caller is neither ADMIN nor COORDINATOR, checked before the body; 201, storing the notification, exactly for an authorised caller with a valid body and a free id; 500 with nothing stored otherwise |
| Routes.PostUserNotificationRoute | server/routes.ts:379-391 | 400 for an invalid body; 201 exactly when the id and (user, notification) pair are free; else 500 |
| Routes.MarkReadRoute | server/routes.ts:393-403 | 204; each of the caller's links to that notification gets `readAt` = now and every other link row is unchanged; no other table changes |
| Routes.Handle | server/routes.ts:19-407 | every request gets a known status; reads and refusals store nothing; creates answer 201/400/403/500; deletes answer 204; only the two by-id lookups answer 404; only the four role-checked routes answer 403 |
| Text.Lower | client/src/pages/territories.tsx:26 | lower-casing keeps the length and maps each letter A-Z to a-z |
| Text.Contains | client/src/pages/territories.tsx:26 | `includes` holds exactly when the term occurs at some position |
| Text.Split | client/src/components/layout/header.tsx:14 | one piece more than separators, and no piece contains the separator |
| Text.JoinSplit | client/src/components/layout/header.tsx:14 | joining the pieces of a split gives the string back |
| Text.NatToStringInjective | client/src/components/ui/toast-container.tsx:18 | different counters render differently |
| Time.StartOfDay | server/storage.ts:217-218 | local midnight: on the same local day and at most a day earlier |
| Time.EndOfDay | server/storage.ts:219-220 | the last millisecond of the same local day |
| Time.SubDays | client/src/pages/reports.tsx:40 | moves the local day back by exactly n days |
| Time.AddMonths | client/src/pages/calendar.tsx:30-36 | moves the month index by n, clamping the day to the month's length |
| Time.AddMonthsBack | client/src/pages/calendar.tsx:30-36 | adding then subtracting n months returns to the same month |
| Time.MonthRange | client/src/components/modals/month-management-modal.tsx:23-24 | an instant lies in [startOfMonth, endOfMonth] exactly when its local day is in that month |
| TerritoriesPage.FilterTerritories | client/src/pages/territories.tsx:25-44 | keeps, in order, exactly the territories matching both the search and the status filter |
| TerritoriesPage.SearchLaws | client/src/pages/territories.tsx:26 | the empty search matches everything; the search ignores case |
| TerritoriesPage.NoFilterShowsAll | client/src/pages/territories.tsx:25-44 | the empty search with "all" shows every territory |
| TerritoriesPage.StatusBadge | client/src/pages/territories.tsx:46-54 | PENDENTE exactly at rate 0, CONCLUÍDO exactly at 100, EM PROGRESSO otherwise |
| TerritoriesPage.ProgressColor | client/src/pages/territories.tsx:56-60 | grey exactly at 0, green exactly at 100, otherwise yellow |
| TerritoriesPage.RemainingBlocks | client/src/pages/territories.tsx:188 | remaining plus completed is the total; negative exactly when more are completed than exist |
| TerritoriesPage.ActionLabel | client/src/pages/territories.tsx:198 | "Iniciar" exactly at rate 0, else "Atualizar" |
| TerritoriesPage.StatusFiltersPartition | client/src/pages/territories.tsx:28-60 | for a rate in 0..100 exactly one status filter matches, the one naming the badge; the badge's style (the `secondary` variant, light yellow or light green classes) is in the same colour family as the progress bar; the button says "Iniciar" exactly for pending territories |
| TerritoriesPage.OutOfRangeRate | client/src/pages/territories.tsx:28-54 | a rate outside 0..100 matches no status filter and is badged as in progress |
| ReportsPage.PrevMonth | client/src/pages/reports.tsx:45-47 | the month before, across year ends |
| ReportsPage.LastDays | client/src/pages/reports.tsx:39-42 | a window ending now and starting n days earlier |
| ReportsPage.DateRangeFilter | client/src/pages/reports.tsx:36-53 | each preset's window: last 7 or 30 days, this or last local month, or the custom bounds with their fallbacks |
| ReportsPage.PresetWindows | client/src/pages/reports.tsx:36-53 | every preset but "lastMonth" and "custom" includes now; last month ends before now |
| ReportsPage.FilterDays | client/src/pages/reports.tsx:57-62 | keeps, in order, exactly the days inside the window and in the selected territory |
| ReportsPage.SumParticipationsConcat | client/src/pages/reports.tsx:67 | the participation total of two lists is the sum of their totals |
| ReportsPage.ServerRowsSumToZero | client/src/pages/reports.tsx:67 | rows without a `participations` field add up to zero participations |
| ReportsPage.ServerDaysSumToZero | client/src/pages/reports.tsx:67 | on the days exactly as `GET /api/preaching-days` returns them, the page's participation total is 0 |
| ReportsPage.Percent | client/src/pages/reports.tsx:68 | for a non-empty whole, the value times the whole is the part times 100; 0 for an empty whole; always in 0..100, 100 exactly for a full whole and 0 exactly for an empty part |
| ReportsPage.Summarize | client/src/pages/reports.tsx:65-68 | the total is the number of filtered days and the completed figure the number of COMPLETED ones (never above the total); the participation total sums the days' arrays; the rate is `Percent` of completed over total, so 0 with no days and 100 exactly when all are completed |
| ReportsPage.TerritoryStatOf | client/src/pages/reports.tsx:71-80 | the activities are the filtered days of that territory, the completed figure the COMPLETED days of that territory (never above the activities), and the rate is `Percent` of completed over activities |
| ReportsPage.TerritoryStats | client/src/pages/reports.tsx:71-80 | one statistic per territory, in territory order |
| ReportsPage.SelectedTerritoryStats | client/src/pages/reports.tsx:57-80 | with one territory selected, only that territory has activities, all of the filtered days |
| ReportsPage.UserStats | client/src/pages/reports.tsx:83-92 | one statistic per user, a permutation of the per-user counts, by participations descending |
| ReportsPage.ServerRowsKeepUserOrder | client/src/pages/reports.tsx:83-92 | on server rows every count is 0, so the stable sort keeps the users' order |
| Time.Weekday | client/src/pages/calendar.tsx:74 | `getDay`: 0 for Sunday through 6 for Saturday, 4 (Thursday) on 1970-01-01 and one more, modulo 7, on each later day |
| CalendarPage.GridStart | client/src/pages/calendar.tsx:73-74 | the Sunday on or before the 1st of the month |
| CalendarPage.GridEnd | client/src/pages/calendar.tsx:76-77 | the Saturday on or after the month's last day |
| CalendarPage.DaysFrom | client/src/pages/calendar.tsx:79 | every day from start to end, both included |
| CalendarPage.Grid | client/src/pages/calendar.tsx:72-79 | whole weeks, 4 to 6 of them, covering the month, Sunday first in every row |
| CalendarPage.DayActivity | client/src/pages/calendar.tsx:49-53 | the first activity on that local day, none exactly when there is none |
| CalendarPage.DayClick | client/src/pages/calendar.tsx:38-47 | a day with an activity opens it; a day without one changes nothing |
| CalendarPage.ClickOpensShownActivity | client/src/pages/calendar.tsx:38-53 | the click opens an activity of the clicked day, taken from the list |
| CalendarPage.PrevMonthDate | client/src/pages/calendar.tsx:30-32 | the month before |
| CalendarPage.NextMonthDate | client/src/pages/calendar.tsx:34-36 | the month after |
| CalendarPage.NextThenPrev | client/src/pages/calendar.tsx:30-36 | next then previous returns to the same month |
| CalendarPage.StatusColor | client/src/pages/calendar.tsx:55-70 | an unknown status is grey |
| CalendarPage.StatusColorsDistinct | client/src/pages/calendar.tsx:55-70 | each of the five statuses has its own dot colour, none of them grey |
| CalendarPage.Dot | client/src/pages/calendar.tsx:150-152 | a dot exactly on days of the displayed month that have an activity, coloured by its status |
| CalendarPage.NoDotOutsideMonth | client/src/pages/calendar.tsx:72-79 | padding cells from neighbouring months never show a dot |
| MonthModal.QueryWindow | client/src/components/modals/month-management-modal.tsx:23-33 | the query bounds are the month's first and last instant, and contain exactly its days |
| MonthModal.ServerListIsTheMonth | client/src/components/modals/month-management-modal.tsx:24-32 | `GET /api/preaching-days` with `startDate`/`endDate` set to the dialog's month bounds answers exactly the stored days whose local date lies in the selected month |
| MonthModal.Summarize | client/src/components/modals/month-management-modal.tsx:105-116 | total, completed, and scheduled-or-confirmed counts, the latter two never above the total |
| MonthModal.ScheduledSplits | client/src/components/modals/month-management-modal.tsx:116 | "Agendadas" is the SCHEDULED count plus the CONFIRMED count |
| MonthModal.SummaryAddsUp | client/src/components/modals/month-management-modal.tsx:105-116 | the two counts add up to the total exactly when no day is in progress or cancelled |
| MonthModal.ByDate | client/src/components/modals/month-management-modal.tsx:137-138 | a permutation of the days in ascending date order |
| MonthModal.ServerOrderKept | client/src/components/modals/month-management-modal.tsx:137-138 | the server's list is already in date order, so sorting leaves it as it is |
| MonthModal.StatusLabel | client/src/components/modals/month-management-modal.tsx:80-89 | a known status gets its Portuguese label; anything else is shown as it came |
| MonthModal.StatusLabelLaws | client/src/components/modals/month-management-modal.tsx:80-89 | a status is shown unchanged exactly when unknown; the five labels differ |
| Toasts.ToastIdInjective | client/src/components/ui/toast-container.tsx:18 | different counter values give different toast ids |
| Toasts.Show | client/src/components/ui/toast-container.tsx:17-31 | bumps the counter, appends a toast with the next id and the defaults, and arms a timer exactly for a positive duration |
| Toasts.Remove | client/src/components/ui/toast-container.tsx:33-36 | keeps, in order, exactly the toasts with another id; nothing changes when no toast has it |
| Toasts.RemoveIdempotent | client/src/components/ui/toast-container.tsx:33-36 | removing twice is removing once |
| Toasts.FreshId | client/src/components/ui/toast-container.tsx:13-18 | the next id is on no toast already shown |
| Toasts.ShowKeepsWellFormed | client/src/components/ui/toast-container.tsx:17-31 | showing keeps the ids distinct and issued |
| Toasts.RemoveKeepsWellFormed | client/src/components/ui/toast-container.tsx:33-36 | removing keeps the ids distinct and issued |
| Toasts.ShowThenRemove | client/src/components/ui/toast-container.tsx:17-36 | when a toast's timer fires, the list is what it was before the toast was shown |
| Layout.ActiveExamples | client/src/components/layout/bottom-navigation.tsx:16-21 | the prefix test is on characters: "/settingsx" lights settings, "/" lights only home |
| Layout.AtMostOneActive | client/src/components/layout/bottom-navigation.tsx:9-21 | no two navigation items are active at once |
| Layout.ActiveItem | client/src/components/layout/bottom-navigation.tsx:9-21 | the one highlighted item, or none exactly when no item matches |
| Layout.Initials | client/src/components/layout/header.tsx:13-15 | never empty; at most one letter per piece; "U" without a name |
| Layout.HeadsAreWordStarts | client/src/components/layout/header.tsx:14 | the first characters of the pieces are the characters that start a word |
| Layout.InitialsLaws | client/src/components/layout/header.tsx:13-15 | the initials are the upper-cased word starts, "U" when there are none |
| Layout.GetRoleLabel | client/src/components/layout/header.tsx:17-25 | a known role gets its short label; anything else is shown as it came |
| Layout.RoleLabelLaws | client/src/components/layout/header.tsx:17-25 | each role has its own badge; a role is shown unchanged exactly when unknown or ADMIN |

## Left out

- `index.js`, the compiled bundle, is not part of this model. It duplicates the sources above.
- Authentication: the OIDC login, sessions, and the 401 of `isAuthenticated` are not modelled. Every request has a signed-in caller id.
- The database engine and ORM are not modelled: SQL, drizzle, connection failures, `gen_random_uuid` (a parameter), and `NOW()` (a parameter).
- Concurrency is not modelled: each request runs alone against one database value. The transaction and race behaviour of PostgreSQL is not modelled.
- Foreign keys are not modelled because the schema declares none, only relations for the ORM's query builder. Dangling ids are therefore allowed, as in the database.
- Time zones are a fixed offset from UTC. Daylight saving changes are not modelled.
- Invalid `Date` values, such as an unparsable query string, are not modelled.
- Percentages use exact real arithmetic, not IEEE doubles. `ReportsPage.Percent` is therefore exact where the source rounds.
- Case mapping covers ASCII letters only. `toLowerCase`/`toUpperCase` on other Unicode characters is not modelled.
- Text.Lower: states the ASCII mapping only, weaker than JavaScript's full Unicode lower-casing.
- Lexicographic order compares UTF-16 code units as characters. Database collation is not modelled: PostgreSQL `ORDER BY name` can use a locale collation.
- The zod error list that the source sends with a 400 (`errors: error.errors`) is not modelled. The model's 400 carries only the message.
- The toast listeners and `setTimeout` are not modelled. A timer is returned as data, and its firing is the explicit call `Remove`.
- React rendering, react-query caching, the forms, and `isToday` highlighting are not modelled.
- The other dialogs, the home and settings pages, and the month dialog's delete mutation and `getStatusColor` are not modelled.
- JavaScript object-prototype keys in the label maps are not modelled. For example, `labels["constructor"]` returns a function in the source; the model treats every key outside the enum as unknown.
- The `/api/users` list that the reports page requests is not modelled: no server route serves it. `ReportsPage.UserStats` takes the user list as a parameter.
- The `participations` field that the reports page reads on each preaching day is modelled as optional. Server rows never carry it; `ReportsPage.ServerRowsSumToZero` and `ReportsPage.ServerRowsKeepUserOrder` state the consequence.
- MonthModal.ServerListIsTheMonth: assumes the bounds reach the server as `startDate`/`endDate` query parameters. The dialog puts them in an object inside the react-query key, and the query function that turns a key into a URL (client/src/lib/queryClient.ts) is not part of this model.
- Routes.PostPreachingDayRoute and Routes.PutPreachingDayRoute: which JSON bodies the schema accepts is not modelled; the request's `Body` is already `Parsed` or `Invalid`. In the source the `date` column is a timestamp, so the generated schema expects a `Date` value; a JSON body carries the date as a string, which that schema rejects with 400. The model does not promise that rejection.

=== FILE: calendar_page.dfy ===
/** The calendar page: the grid of whole weeks around the displayed month,
    looking up the preaching day shown on a cell, opening it on a click,
    moving between months and colouring the activity dot. Days are local day
    numbers at a fixed offset from UTC. */
module CalendarPage {
  import opened Common
  import opened Time
  import opened Schema

  // ---------------------------------------------------------------------------
  // Grid

  /** Adding whole weeks does not change a weekday. */
  lemma WeekdayPlus(q: int, i: int)
    ensures (7 * q + i) % 7 == i % 7
  {
  }

  /** The number of whole weeks before `d`, counted from a Sunday. */
  function Weeks(d: DayNumber): (q: int)
    ensures d + 4 == 7 * q + Weekday(d)
  {
    (d + 4) / 7
  }

  /** The first cell: the 1st of the month moved back by its weekday. */
  function GridStart(y: int, m: int): (d: DayNumber)
    requires 1 <= m <= 12
    ensures Weekday(d) == 0
    ensures MonthFirstDay(y, m) - 6 <= d <= MonthFirstDay(y, m)
  {
    var first := MonthFirstDay(y, m);
    var q := Weeks(first);
    WeekdayPlus(q, 0);
    first - Weekday(first)
  }

  /** The last cell: the month's last day moved forward to the Saturday. */
  function GridEnd(y: int, m: int): (d: DayNumber)
    requires 1 <= m <= 12
    ensures Weekday(d) == 6
    ensures MonthLastDay(y, m) <= d <= MonthLastDay(y, m) + 6
  {
    var last := MonthLastDay(y, m);
    var q := Weeks(last);
    WeekdayPlus(q, 6);
    last + (6 - Weekday(last))
  }

  /** `eachDayOfInterval({ start, end })`: every day from `start` to `end`,
      both included. */
  function DaysFrom(start: DayNumber, end: DayNumber): (r: seq<DayNumber>)
    ensures |r| == if start <= end then end - start + 1 else 0
    ensures forall i :: 0 <= i < |r| ==> r[i] == start + i
  {
    if start <= end then seq(end - start + 1, i requires 0 <= i <= end - start => start + i) else []
  }

  /** The cells of the month view. */
  function Grid(y: int, m: int): (cells: seq<DayNumber>)
    requires 1 <= m <= 12
    ensures forall d :: d in cells <==> GridStart(y, m) <= d <= GridEnd(y, m)
    ensures forall d :: InMonth(d, y, m) ==> d in cells
    ensures |cells| % 7 == 0 && 28 <= |cells| <= 42
    ensures forall i :: 0 <= i < |cells| ==> Weekday(cells[i]) == i % 7
  {
    var start, end := GridStart(y, m), GridEnd(y, m);
    var cells := DaysFrom(start, end);
    assert forall d :: start <= d <= end ==> d in cells by {
      forall d | start <= d <= end ensures d in cells {
        assert cells[d - start] == d;
      }
    }
    var q0 := Weeks(start);
    var q1 := Weeks(end);
    assert |cells| == 7 * (q1 - q0 + 1);
    WeekdayPlus(q1 - q0 + 1, 0);
    assert forall i :: 0 <= i < |cells| ==> Weekday(cells[i]) == i % 7 by {
      forall i | 0 <= i < |cells| ensures Weekday(cells[i]) == i % 7 {
        assert cells[i] + 4 == 7 * q0 + i;
        WeekdayPlus(q0, i);
      }
    }
    cells
  }

  // ---------------------------------------------------------------------------
  // Activity lookup

  function OnDay(day: DayNumber, offset: int): PreachingDay -> bool {
    (pd: PreachingDay) => LocalDay(pd.date, offset) == day
  }

  /** `getDayActivity`: the first preaching day of the list on the given local
      day, if any. Several can share a day; the list order decides. */
  function DayActivity(days: seq<PreachingDay>, day: DayNumber, offset: int): (r: Option<PreachingDay>)
    ensures r.None? <==> forall i :: 0 <= i < |days| ==> LocalDay(days[i].date, offset) != day
    ensures r.Some? ==> exists k :: 0 <= k < |days| && days[k] == r.value && LocalDay(days[k].date, offset) == day
                          && forall i :: 0 <= i < k ==> LocalDay(days[i].date, offset) != day
  {
    Find(days, OnDay(day, offset))
  }

  /** The page state a click can change. */
  datatype View = View(selected: Option<PreachingDay>, showDetails: bool)

  /** `handleDayClick`: opens the details of the day's activity; a day without
      one leaves the page as it was. */
  function DayClick(v: View, days: seq<PreachingDay>, day: DayNumber, offset: int): (r: View)
    ensures DayActivity(days, day, offset).None? ==> r == v
    ensures DayActivity(days, day, offset).Some? ==>
      r.showDetails && r.selected == DayActivity(days, day, offset)
  {
    match DayActivity(days, day, offset)
    case Some(pd) => View(Some(pd), true)
    case None => v
  }

  /** A click on a day that has an activity opens that activity and no other:
      the one that `getDayActivity` shows on the cell, whose local day is the
      clicked day. */
  lemma ClickOpensShownActivity(v: View, days: seq<PreachingDay>, day: DayNumber, offset: int)
    requires exists i :: 0 <= i < |days| && LocalDay(days[i].date, offset) == day
    ensures DayClick(v, days, day, offset).showDetails
    ensures DayClick(v, days, day, offset).selected.Some?
    ensures LocalDay(DayClick(v, days, day, offset).selected.value.date, offset) == day
    ensures DayClick(v, days, day, offset).selected.value in days
  {
    var r := DayActivity(days, day, offset);
    assert r.Some?;
    var k :| 0 <= k < |days| && days[k] == r.value && LocalDay(days[k].date, offset) == day;
  }

  // ---------------------------------------------------------------------------
  // Month navigation

  /** `handlePrevMonth` / `handleNextMonth`: date-fns `subMonths`/`addMonths`
      by one. */
  function PrevMonthDate(d: Date): (r: Date)
    requires ValidDate(d)
    ensures ValidDate(r)
    ensures MonthIndex(r.year, r.month) == MonthIndex(d.year, d.month) - 1
  {
    AddMonths(d, -1)
  }

  function NextMonthDate(d: Date): (r: Date)
    requires ValidDate(d)
    ensures ValidDate(r)
    ensures MonthIndex(r.year, r.month) == MonthIndex(d.year, d.month) + 1
    ensures (r.year, r.month) == NextMonth(d.year, d.month)
  {
    var r := AddMonths(d, 1);
    var (ny, nm) := NextMonth(d.year, d.month);
    MonthIndexInjective(r.year, r.month, ny, nm);
    r
  }

  /** Next then previous shows the same month again. The day of the month can
      have been clamped (31 January, next, previous gives 28 or 29 January),
      which the month view does not show. */
  lemma NextThenPrev(d: Date)
    requires ValidDate(d)
    ensures PrevMonthDate(NextMonthDate(d)).year == d.year
    ensures PrevMonthDate(NextMonthDate(d)).month == d.month
    ensures PrevMonthDate(NextMonthDate(d)).day <= d.day
  {
    AddMonthsBack(d, 1);
  }

  // ---------------------------------------------------------------------------
  // Activity dot

  /** The calendar's `getStatusColor`, on the status as sent in JSON. */
  function StatusColor(status: string): (c: string)
    ensures ParseDayStatus(status).None? ==> c == "bg-gray-500"
  {
    if status == "CONFIRMED" then "bg-green-500"
    else if status == "SCHEDULED" then "bg-blue-500"
    else if status == "IN_PROGRESS" then "bg-yellow-500"
    else if status == "COMPLETED" then "bg-purple-500"
    else if status == "CANCELLED" then "bg-red-500"
    else "bg-gray-500"
  }

  /** The dot colours tell the statuses apart: each status has its own colour
      and none of them is the fallback grey. */
  lemma StatusColorsDistinct(a: DayStatus, b: DayStatus)
    ensures StatusColor(DayStatusName(a)) != "bg-gray-500"
    ensures StatusColor(DayStatusName(a)) == StatusColor(DayStatusName(b)) ==> a == b
  {
  }

  /** A cell shows a dot when its day has an activity and lies in the displayed
      month; the dot has the colour of that activity's status. */
  function Dot(days: seq<PreachingDay>, day: DayNumber, current: Date, offset: int): (r: Option<string>)
    requires ValidDate(current)
    ensures r.Some? <==> (exists i :: 0 <= i < |days| && LocalDay(days[i].date, offset) == day)
                         && InMonth(day, current.year, current.month)
    ensures r.Some? ==> r.value == StatusColor(DayStatusName(DayActivity(days, day, offset).value.status))
  {
    match DayActivity(days, day, offset)
    case Some(pd) =>
      if InMonth(day, current.year, current.month) then Some(StatusColor(DayStatusName(pd.status))) else None
    case None => None
  }

  /** Padding cells from the neighbouring months never show a dot. */
  lemma NoDotOutsideMonth(days: seq<PreachingDay>, current: Date, offset: int, i: int)
    requires ValidDate(current)
    requires 0 <= i < |Grid(current.year, current.month)|
    requires !InMonth(Grid(current.year, current.month)[i], current.year, current.month)
    ensures Dot(days, Grid(current.year, current.month)[i], current, offset).None?
  {
  }
}

=== FILE: common.dfy ===
/** Shared vocabulary of the model: optional values, order-preserving filtering,
    counting, lexicographic order on strings, and a stable insertion sort with
    its correctness lemmas. Every query of the store and every list shown by the
    client is built from these pieces. */
module Common {

  /** A value that may be absent (TypeScript's `undefined`/`null`). */
  datatype Option<+T> = None | Some(value: T) {
    function GetOr(default: T): T {
      match this
      case Some(v) => v
      case None => default
    }
  }

  /** JavaScript truthiness of an optional string: present and non-empty. */
  predicate Truthy(s: Option<string>) {
    s.Some? && s.value != ""
  }

  // ---------------------------------------------------------------------------
  // Filtering and counting

  /** `a` is an order-preserving subsequence of `b`. */
  predicate IsSubsequence<T(==)>(a: seq<T>, b: seq<T>)
    decreases |b|
  {
    if a == [] then true
    else if b == [] then false
    else if a[0] == b[0] then IsSubsequence(a[1..], b[1..])
    else IsSubsequence(a, b[1..])
  }

  /** `Array.prototype.filter` / a SQL `where` clause without `orderBy`. */
  function Filter<T>(s: seq<T>, p: T -> bool): (r: seq<T>)
    ensures |r| <= |s|
    ensures forall x :: x in r ==> x in s && p(x)
    ensures forall i :: 0 <= i < |s| && p(s[i]) ==> s[i] in r
  {
    if s == [] then []
    else if p(s[0]) then [s[0]] + Filter(s[1..], p)
    else Filter(s[1..], p)
  }

  lemma {:induction false} FilterIsSubsequence<T>(s: seq<T>, p: T -> bool)
    ensures IsSubsequence(Filter(s, p), s)
  {
    if s != [] {
      FilterIsSubsequence(s[1..], p);
      if !p(s[0]) {
        SubsequenceOfTail(Filter(s[1..], p), s);
      }
    }
  }

  lemma {:induction false} SubsequenceOfTail<T>(a: seq<T>, b: seq<T>)
    requires b != []
    requires IsSubsequence(a, b[1..])
    ensures IsSubsequence(a, b)
    decreases |b|, 0
  {
    if a != [] && a[0] == b[0] {
      // a[1..] is a subsequence of b[1..] because a is one of b[1..]
      DropHeadOfSubsequence(a, b[1..]);
    }
  }

  lemma {:induction false} DropHeadOfSubsequence<T>(a: seq<T>, b: seq<T>)
    requires a != []
    requires IsSubsequence(a, b)
    ensures IsSubsequence(a[1..], b)
    decreases |b|, 1
  {
    if b == [] {
    } else if a[0] == b[0] {
      if a[1..] != [] {
        SubsequenceOfTail(a[1..], b);
      }
    } else {
      DropHeadOfSubsequence(a, b[1..]);
      if a[1..] != [] {
        SubsequenceOfTail(a[1..], b);
      }
    }
  }

  /** Filtering keeps the multiset of the elements that pass the test. */
  lemma {:induction false} FilterMultiset<T>(s: seq<T>, p: T -> bool, x: T)
    ensures multiset(Filter(s, p))[x] == if p(x) then multiset(s)[x] else 0
  {
    if s != [] {
      FilterMultiset(s[1..], p, x);
      assert s == [s[0]] + s[1..];
    }
  }

  lemma FilterMultisetAll<T>(s: seq<T>, p: T -> bool)
    ensures forall x :: multiset(Filter(s, p))[x] == if p(x) then multiset(s)[x] else 0
  {
    forall x ensures multiset(Filter(s, p))[x] == if p(x) then multiset(s)[x] else 0 {
      FilterMultiset(s, p, x);
    }
  }

  /** Filtering distributes over concatenation. */
  lemma {:induction false} FilterConcat<T>(a: seq<T>, b: seq<T>, p: T -> bool)
    ensures Filter(a + b, p) == Filter(a, p) + Filter(b, p)
  {
    if a == [] {
      assert a + b == b;
    } else {
      assert (a + b)[0] == a[0] && (a + b)[1..] == a[1..] + b;
      FilterConcat(a[1..], b, p);
    }
  }

  /** Mapping distributes over concatenation. */
  lemma {:induction false} MapConcat<T, U>(a: seq<T>, b: seq<T>, f: T -> U)
    ensures Map(a + b, f) == Map(a, f) + Map(b, f)
  {
    if a == [] {
      assert a + b == b;
    } else {
      assert (a + b)[0] == a[0] && (a + b)[1..] == a[1..] + b;
      MapConcat(a[1..], b, f);
    }
  }

  /** Filtering by a predicate that holds everywhere on `s` changes nothing. */
  lemma {:induction false} FilterAll<T>(s: seq<T>, p: T -> bool)
    requires forall i :: 0 <= i < |s| ==> p(s[i])
    ensures Filter(s, p) == s
  {
    if s != [] {
      FilterAll(s[1..], p);
    }
  }

  /** Filtering by a predicate that holds nowhere on `s` leaves nothing. */
  lemma {:induction false} FilterNone<T>(s: seq<T>, p: T -> bool)
    requires forall i :: 0 <= i < |s| ==> !p(s[i])
    ensures Filter(s, p) == []
  {
    if s != [] {
      FilterNone(s[1..], p);
    }
  }

  /** Two filters in a row are one filter by the conjunction. */
  lemma {:induction false} FilterFilter<T>(s: seq<T>, p: T -> bool, q: T -> bool)
    ensures Filter(Filter(s, p), q) == Filter(s, x => p(x) && q(x))
  {
    if s != [] {
      FilterFilter(s[1..], p, q);
    }
  }

  /** Filtering by `p` and then by `q` is filtering by any `r` that agrees with
      their conjunction on `s`. */
  lemma {:induction false} FilterThenFilter<T>(s: seq<T>, p: T -> bool, q: T -> bool, r: T -> bool)
    requires forall i :: 0 <= i < |s| ==> r(s[i]) == (p(s[i]) && q(s[i]))
    ensures Filter(Filter(s, p), q) == Filter(s, r)
  {
    if s != [] {
      FilterThenFilter(s[1..], p, q, r);
    }
  }

  /** Number of elements satisfying `p` (`.filter(p).length`). */
  function Count<T>(s: seq<T>, p: T -> bool): (n: nat)
    ensures n <= |s|
    ensures n == |Filter(s, p)|
  {
    |Filter(s, p)|
  }

  /** A count under a weaker predicate is at least the count under a stronger one. */
  lemma {:induction false} CountMonotone<T>(s: seq<T>, p: T -> bool, q: T -> bool)
    requires forall i :: 0 <= i < |s| && p(s[i]) ==> q(s[i])
    ensures Count(s, p) <= Count(s, q)
  {
    if s != [] {
      CountMonotone(s[1..], p, q);
    }
  }

  /** Counts of two disjoint predicates add up to at most the length. */
  lemma {:induction false} CountDisjoint<T>(s: seq<T>, p: T -> bool, q: T -> bool)
    requires forall i :: 0 <= i < |s| ==> !(p(s[i]) && q(s[i]))
    ensures Count(s, p) + Count(s, q) <= |s|
  {
    if s != [] {
      CountDisjoint(s[1..], p, q);
    }
  }

  /** Elementwise map (`Array.prototype.map`). */
  function Map<T, U>(s: seq<T>, f: T -> U): (r: seq<U>)
    ensures |r| == |s|
    ensures forall i :: 0 <= i < |s| ==> r[i] == f(s[i])
  {
    if s == [] then [] else [f(s[0])] + Map(s[1..], f)
  }

  /** First element satisfying `p` (`Array.prototype.find`). */
  function Find<T>(s: seq<T>, p: T -> bool): (r: Option<T>)
    ensures r.None? <==> forall i :: 0 <= i < |s| ==> !p(s[i])
    ensures r.Some? ==> exists k :: 0 <= k < |s| && s[k] == r.value && p(s[k])
                          && forall i :: 0 <= i < k ==> !p(s[i])
  {
    if s == [] then None
    else if p(s[0]) then Some(s[0])
    else
      var r := Find(s[1..], p);
      assert r.Some? ==> exists k :: 0 <= k < |s| - 1 && s[1..][k] == r.value && p(s[1..][k])
                           && forall i :: 0 <= i < k ==> !p(s[1..][i]);
      r
  }

  /** No value occurs twice in `s`. */
  predicate NoDuplicates<T(==)>(s: seq<T>) {
    forall i, j :: 0 <= i < j < |s| ==> s[i] != s[j]
  }

  // ---------------------------------------------------------------------------
  // Lexicographic order on strings (code-unit order)

  /** `a <= b` in code-unit lexicographic order. */
  predicate LexLe(a: string, b: string)
    decreases |a|
  {
    a == [] || (b != [] && (a[0] < b[0] || (a[0] == b[0] && LexLe(a[1..], b[1..]))))
  }

  lemma {:induction false} LexTotal(a: string, b: string)
    ensures LexLe(a, b) || LexLe(b, a)
    decreases |a|
  {
    if a != [] && b != [] && a[0] == b[0] {
      LexTotal(a[1..], b[1..]);
    }
  }

  lemma {:induction false} LexTransitive(a: string, b: string, c: string)
    requires LexLe(a, b) && LexLe(b, c)
    ensures LexLe(a, c)
    decreases |a|
  {
    if a != [] && b != [] && c != [] && a[0] == b[0] && b[0] == c[0] {
      LexTransitive(a[1..], b[1..], c[1..]);
    }
  }

  lemma {:induction false} LexAntisymmetric(a: string, b: string)
    requires LexLe(a, b) && LexLe(b, a)
    ensures a == b
    decreases |a|
  {
    if a != [] && b != [] {
      LexAntisymmetric(a[1..], b[1..]);
      assert a == [a[0]] + a[1..] && b == [b[0]] + b[1..];
    }
  }

  // ---------------------------------------------------------------------------
  // Stable insertion sort by a total preorder

  ghost predicate TotalPreorder<T(!new)>(le: (T, T) -> bool) {
    && (forall a, b :: le(a, b) || le(b, a))
    && (forall a, b, c :: le(a, b) && le(b, c) ==> le(a, c))
  }

  /** Every earlier element is `le` every later one. */
  predicate SortedBy<T>(s: seq<T>, le: (T, T) -> bool) {
    forall i, j :: 0 <= i < j < |s| ==> le(s[i], s[j])
  }

  /** Inserts `x` before the first element it is `le` to. */
  function Insert<T>(x: T, s: seq<T>, le: (T, T) -> bool): (r: seq<T>)
    ensures multiset(r) == multiset(s) + multiset{x}
    ensures |r| == |s| + 1
  {
    if s == [] || le(x, s[0]) then [x] + s
    else
      var t := Insert(x, s[1..], le);
      assert s == [s[0]] + s[1..];
      [s[0]] + t
  }

  lemma {:induction false} InsertSorted<T(!new)>(x: T, s: seq<T>, le: (T, T) -> bool)
    requires TotalPreorder(le)
    requires SortedBy(s, le)
    ensures SortedBy(Insert(x, s, le), le)
  {
    if s == [] || le(x, s[0]) {
      var r := [x] + s;
      forall i, j | 0 <= i < j < |r| ensures le(r[i], r[j]) {
        if i == 0 && j > 1 {
          assert le(x, s[0]) && le(s[0], s[j - 1]);
        }
      }
    } else {
      var t := Insert(x, s[1..], le);
      InsertSorted(x, s[1..], le);
      var r := [s[0]] + t;
      assert le(s[0], x);
      forall k | 0 <= k < |t| ensures le(s[0], t[k]) {
        assert t[k] in multiset(t);
        assert t[k] in multiset(s[1..]) + multiset{x};
        if t[k] != x {
          assert t[k] in s[1..];
          var m :| 0 <= m < |s[1..]| && s[1..][m] == t[k];
          assert s[m + 1] == t[k];
        }
      }
      forall i, j | 0 <= i < j < |r| ensures le(r[i], r[j]) {
        if i == 0 {
          assert r[j] == t[j - 1];
        } else {
          assert r[i] == t[i - 1] && r[j] == t[j - 1];
        }
      }
    }
  }

  /** Stable insertion sort: the model of SQL `orderBy` and of `Array.prototype.sort`. */
  function SortBy<T>(s: seq<T>, le: (T, T) -> bool): (r: seq<T>)
    ensures multiset(r) == multiset(s)
    ensures |r| == |s|
  {
    if s == [] then []
    else
      assert s == [s[0]] + s[1..];
      Insert(s[0], SortBy(s[1..], le), le)
  }

  lemma {:induction false} SortBySorted<T(!new)>(s: seq<T>, le: (T, T) -> bool)
    requires TotalPreorder(le)
    ensures SortedBy(SortBy(s, le), le)
  {
    if s != [] {
      SortBySorted(s[1..], le);
      InsertSorted(s[0], SortBy(s[1..], le), le);
    }
  }

  /** Sorting a sequence that is already in order returns it unchanged. */
  lemma {:induction false} SortByKeepsSorted<T>(s: seq<T>, le: (T, T) -> bool)
    requires SortedBy(s, le)
    ensures SortBy(s, le) == s
  {
    if s != [] {
      assert SortedBy(s[1..], le) by {
        forall i, j | 0 <= i < j < |s| - 1 ensures le(s[1..][i], s[1..][j]) {
          assert s[1..][i] == s[i + 1] && s[1..][j] == s[j + 1];
        }
      }
      SortByKeepsSorted(s[1..], le);
      assert s == [s[0]] + s[1..];
      if |s| > 1 {
        assert le(s[0], s[1]);
      }
    }
  }

  /** `select ... where p order by le`: the rows passing `p`, each as often as
      in the table, arranged in `le` order. */
  function Select<T(!new)>(s: seq<T>, p: T -> bool, le: (T, T) -> bool): (r: seq<T>)
    requires TotalPreorder(le)
    ensures forall x :: multiset(r)[x] == if p(x) then multiset(s)[x] else 0
    ensures forall x :: x in r <==> x in s && p(x)
    ensures SortedBy(r, le)
  {
    var f := Filter(s, p);
    FilterMultisetAll(s, p);
    SortBySorted(f, le);
    SameMembers(SortBy(f, le), f);
    SortBy(f, le)
  }

  /** Membership is preserved by a multiset-preserving rearrangement. */
  lemma SameMembers<T>(a: seq<T>, b: seq<T>)
    requires multiset(a) == multiset(b)
    ensures forall x :: x in a <==> x in b
  {
    forall x ensures x in a <==> x in b {
      assert x in a <==> x in multiset(a);
      assert x in b <==> x in multiset(b);
    }
  }

  // ---------------------------------------------------------------------------
  // Orders by a key (SQL `asc(col)` / `desc(col)`)

  /** Ascending by an integer key. */
  function AscBy<T>(key: T -> int): (T, T) -> bool {
    (a: T, b: T) => key(a) <= key(b)
  }

  /** Descending by an integer key. */
  function DescBy<T>(key: T -> int): (T, T) -> bool {
    (a: T, b: T) => key(a) >= key(b)
  }

  /** Ascending by a string key in code-unit order. */
  function LexBy<T>(key: T -> string): (T, T) -> bool {
    (a: T, b: T) => LexLe(key(a), key(b))
  }

  lemma AscByIsPreorder<T(!new)>(key: T -> int)
    ensures TotalPreorder(AscBy(key))
  {
  }

  lemma DescByIsPreorder<T(!new)>(key: T -> int)
    ensures TotalPreorder(DescBy(key))
  {
  }

  lemma LexByIsPreorder<T(!new)>(key: T -> string)
    ensures TotalPreorder(LexBy(key))
  {
    forall a: T, b: T ensures LexLe(key(a), key(b)) || LexLe(key(b), key(a)) {
      LexTotal(key(a), key(b));
    }
    forall a: T, b: T, c: T | LexLe(key(a), key(b)) && LexLe(key(b), key(c))
      ensures LexLe(key(a), key(c))
    {
      LexTransitive(key(a), key(b), key(c));
    }
  }

  /** Sortedness by a key order, stated on the keys. */
  lemma SortedAsc<T>(s: seq<T>, key: T -> int)
    requires SortedBy(s, AscBy(key))
    ensures forall i, j :: 0 <= i < j < |s| ==> key(s[i]) <= key(s[j])
  {
    forall i, j | 0 <= i < j < |s| ensures key(s[i]) <= key(s[j]) {
      assert AscBy(key)(s[i], s[j]);
    }
  }

  lemma SortedDesc<T>(s: seq<T>, key: T -> int)
    requires SortedBy(s, DescBy(key))
    ensures forall i, j :: 0 <= i < j < |s| ==> key(s[i]) >= key(s[j])
  {
    forall i, j | 0 <= i < j < |s| ensures key(s[i]) >= key(s[j]) {
      assert DescBy(key)(s[i], s[j]);
    }
  }

  lemma SortedLex<T>(s: seq<T>, key: T -> string)
    requires SortedBy(s, LexBy(key))
    ensures forall i, j :: 0 <= i < j < |s| ==> LexLe(key(s[i]), key(s[j]))
  {
    forall i, j | 0 <= i < j < |s| ensures LexLe(key(s[i]), key(s[j])) {
      assert LexBy(key)(s[i], s[j]);
    }
  }

  // ---------------------------------------------------------------------------
  // Duplicates and multiplicities

  /** A sequence without duplicates holds each value at most once. */
  lemma {:induction false} NoDuplicatesCounts<T>(s: seq<T>)
    requires NoDuplicates(s)
    ensures forall x :: multiset(s)[x] <= 1
  {
    if s != [] {
      var t := s[1..];
      assert s == [s[0]] + t;
      assert NoDuplicates(t) by {
        forall i, j | 0 <= i < j < |t| ensures t[i] != t[j] {
          assert t[i] == s[i + 1] && t[j] == s[j + 1];
        }
      }
      NoDuplicatesCounts(t);
      forall k | 0 <= k < |t| ensures t[k] != s[0] {
        assert t[k] == s[k + 1];
      }
      assert s[0] !in t;
      assert multiset(s) == multiset{s[0]} + multiset(t);
    }
  }

  /** A sequence holding each value at most once has no duplicates. */
  lemma CountsNoDuplicates<T>(s: seq<T>)
    requires forall x :: multiset(s)[x] <= 1
    ensures NoDuplicates(s)
  {
    forall i, j | 0 <= i < j < |s| ensures s[i] != s[j] {
      var a, b := s[..j], s[j..];
      assert s == a + b;
      assert a[i] == s[i] && b[0] == s[j];
      assert multiset(s)[s[j]] == multiset(a)[s[j]] + multiset(b)[s[j]];
      assert multiset(a)[s[i]] >= 1 && multiset(b)[s[j]] >= 1;
    }
  }
}

=== FILE: layout.dfy ===
/** The page frame: the bottom navigation bar and the header's avatar initials
    and role badge. */
module Layout {
  import opened Common
  import opened Text
  import opened Schema

  // ---------------------------------------------------------------------------
  // Bottom navigation

  datatype NavItem = NavItem(href: string, caption: string)

  /** `navItems`, in display order. */
  const NavItems: seq<NavItem> := [
    NavItem("/", "Home"),
    NavItem("/calendar", "Calendário"),
    NavItem("/territories", "Mapas"),
    NavItem("/settings", "Config")
  ]

  /** `isActive(href)`: the home item only on "/" itself, any other item on
      every location that starts with its href, as raw text. */
  predicate IsActive(href: string, location: string) {
    if href == "/" then location == "/" else StartsWith(location, href)
  }

  /** The prefix test is on characters, not path segments: "/settingsx" still
      lights the settings item, and "/" lights only the home item. */
  lemma ActiveExamples()
    ensures IsActive("/settings", "/settingsx")
    ensures IsActive("/calendar", "/calendar/2024")
    ensures !IsActive("/", "/calendar")
    ensures IsActive("/", "/") && !IsActive("/calendar", "/")
  {
    assert "/settingsx"[..|"/settings"|] == "/settings";
    assert "/calendar/2024"[..|"/calendar"|] == "/calendar";
  }

  /** Two different nav items are never both active. */
  lemma AtMostOneActive(location: string, i: int, j: int)
    requires 0 <= i < j < |NavItems|
    ensures !(IsActive(NavItems[i].href, location) && IsActive(NavItems[j].href, location))
  {
    var a, b := NavItems[i].href, NavItems[j].href;
    assert |b| > 1 && b != "/";
    if i > 0 {
      assert |a| > 1 && a != "/" && a[1] != b[1];
      assert StartsWith(location, a) ==> location[1] == a[1];
    }
  }

  /** The index of the highlighted item, if any. */
  function ActiveItem(location: string): (r: Option<nat>)
    ensures r.Some? ==> r.value < |NavItems| && IsActive(NavItems[r.value].href, location)
    ensures r.Some? ==> forall k :: 0 <= k < |NavItems| && k != r.value ==> !IsActive(NavItems[k].href, location)
    ensures r.None? <==> forall k :: 0 <= k < |NavItems| ==> !IsActive(NavItems[k].href, location)
  {
    var r := ActiveFrom(location, 0);
    if r.Some? then
      assert forall k :: 0 <= k < |NavItems| && k != r.value ==> !IsActive(NavItems[k].href, location) by {
        forall k | 0 <= k < |NavItems| && k != r.value ensures !IsActive(NavItems[k].href, location) {
          if k < r.value {
            AtMostOneActive(location, k, r.value);
          } else {
            AtMostOneActive(location, r.value, k);
          }
        }
      }
      r
    else r
  }

  /** The first active item at index `from` or later. */
  function ActiveFrom(location: string, from: nat): (r: Option<nat>)
    requires from <= |NavItems|
    ensures r.Some? ==> from <= r.value < |NavItems| && IsActive(NavItems[r.value].href, location)
    ensures r.None? <==> forall k :: from <= k < |NavItems| ==> !IsActive(NavItems[k].href, location)
    decreases |NavItems| - from
  {
    if from == |NavItems| then None
    else if IsActive(NavItems[from].href, location) then Some(from)
    else ActiveFrom(location, from + 1)
  }

  // ---------------------------------------------------------------------------
  // Initials

  /** `n[0]` for each piece, where the `undefined` of an empty piece joins as
      nothing. */
  function Heads(pieces: seq<string>): (r: string)
    ensures |r| <= |pieces|
  {
    if pieces == [] then ""
    else (if pieces[0] == "" then "" else [pieces[0][0]]) + Heads(pieces[1..])
  }

  /** `getInitials(name)`: the first character of each space-separated piece,
      upper-cased, or "U" when that leaves nothing (or there is no name). */
  function Initials(name: Option<string>): (r: string)
    ensures r != ""
    ensures name.Some? ==> |r| <= |Split(name.value, ' ')|
    ensures name.None? ==> r == "U"
  {
    match name
    case None => "U"
    case Some(s) =>
      var r := Upper(Heads(Split(s, ' ')));
      if r == "" then "U" else r
  }

  /** The characters that start a word: not a space, and first in the string
      or right after a space. `afterSpace` says whether the character before
      `s` was a space (or there was none). */
  function WordStarts(s: string, afterSpace: bool): string {
    if s == [] then ""
    else (if s[0] != ' ' && afterSpace then [s[0]] else "") + WordStarts(s[1..], s[0] == ' ')
  }

  /** Taking the first character of every piece of the split is taking the
      characters that start a word. */
  lemma {:induction false} HeadsAreWordStarts(s: string)
    ensures Heads(Split(s, ' ')) == WordStarts(s, true)
    ensures Heads(Split(s, ' ')[1..]) == WordStarts(s, false)
    decreases |s|
  {
    if s != [] {
      HeadsAreWordStarts(s[1..]);
      var rest := Split(s[1..], ' ');
      if s[0] == ' ' {
        assert Split(s, ' ') == [""] + rest;
        assert Split(s, ' ')[1..] == rest;
      } else {
        var r := Split(s, ' ');
        assert r == [[s[0]] + rest[0]] + rest[1..];
        assert r[1..] == rest[1..];
        assert Heads(r) == [s[0]] + Heads(rest[1..]);
      }
    }
  }

  /** The initials are the upper-cased word starts, and "U" exactly when the
      name has none and is not itself an initial "u". A name of spaces only, or
      an empty one, gives "U". */
  lemma InitialsLaws(s: string)
    ensures WordStarts(s, true) != "" ==> Initials(Some(s)) == Upper(WordStarts(s, true))
    ensures WordStarts(s, true) == "" ==> Initials(Some(s)) == "U"
    ensures (forall i :: 0 <= i < |s| ==> s[i] == ' ') ==> Initials(Some(s)) == "U"
  {
    HeadsAreWordStarts(s);
    NoWordStartsInSpaces(s, true);
  }

  lemma {:induction false} NoWordStartsInSpaces(s: string, afterSpace: bool)
    ensures (forall i :: 0 <= i < |s| ==> s[i] == ' ') ==> WordStarts(s, afterSpace) == ""
    decreases |s|
  {
    if s != [] {
      NoWordStartsInSpaces(s[1..], s[0] == ' ');
      if forall i :: 0 <= i < |s| ==> s[i] == ' ' {
        assert forall i :: 0 <= i < |s[1..]| ==> s[1..][i] == ' ' by {
          forall i | 0 <= i < |s[1..]| ensures s[1..][i] == ' ' {
            assert s[1..][i] == s[i + 1];
          }
        }
      }
    }
  }

  // ---------------------------------------------------------------------------
  // Role badge

  function RoleLabel(r: Role): string {
    match r
    case ADMIN => "ADMIN"
    case COORDINATOR => "COORD"
    case LEADER => "LÍDER"
    case MEMBER => "MEMBRO"
  }

  /** `getRoleLabel(role)`: the short label of a known role; anything else is
      shown as it came. */
  function GetRoleLabel(role: string): (r: string)
    ensures ParseRole(role).Some? ==> r == RoleLabel(ParseRole(role).value)
    ensures ParseRole(role).None? ==> r == role
  {
    match ParseRole(role)
    case Some(x) => RoleLabel(x)
    case None => role
  }

  /** Each role gets its own badge, and a role is shown unchanged only when it
      is not one of the four or is ADMIN, whose label is its name. */
  lemma RoleLabelLaws(role: string, a: Role, b: Role)
    ensures GetRoleLabel(RoleName(a)) == RoleLabel(a)
    ensures RoleLabel(a) == RoleLabel(b) ==> a == b
    ensures GetRoleLabel(role) == role <==> ParseRole(role).None? || role == "ADMIN"
  {
    EnumLabelsRoundTrip(a, PENDING, DayStatus.SCHEDULED, INFO);
  }
}

=== FILE: month_modal.dfy ===
/** The month-management dialog: the window it asks the server for, the three
    summary counts, the date-ordered list of the month's preaching days and
    the status labels shown on them. */
module MonthModal {
  import opened Common
  import opened Time
  import opened Schema
  import Storage

  /** `[startOfMonth(selectedMonth), endOfMonth(selectedMonth)]`. */
  function QueryWindow(selected: Date, offset: int): (w: Window)
    requires ValidDate(selected)
    ensures w.start == StartOfMonth(selected.year, selected.month, offset)
    ensures w.end == EndOfMonth(selected.year, selected.month, offset)
    ensures forall t :: InWindow(t, w) <==> InMonth(LocalDay(t, offset), selected.year, selected.month)
  {
    MonthRange(selected.year, selected.month, offset)
  }

  /** The days the server returns for that window are exactly the stored days
      that fall in the selected local month. */
  lemma ServerListIsTheMonth(db: Db, selected: Date, offset: int)
    requires ValidDate(selected)
    ensures var w := QueryWindow(selected, offset);
      forall d :: d in Storage.GetPreachingDays(db, Some(w.start), Some(w.end))
                  <==> d in db.days && InMonth(LocalDay(d.date, offset), selected.year, selected.month)
  {
    var w := QueryWindow(selected, offset);
    var r := Storage.GetPreachingDays(db, Some(w.start), Some(w.end));
    forall d ensures d in r <==> d in db.days && InMonth(LocalDay(d.date, offset), selected.year, selected.month) {
      assert d in r <==> d in multiset(r);
      assert d in db.days <==> d in multiset(db.days);
      assert InWindow(d.date, w) <==> InMonth(LocalDay(d.date, offset), selected.year, selected.month);
    }
  }

  // ---------------------------------------------------------------------------
  // Summary counts

  predicate IsCompletedDay(d: PreachingDay) {
    d.status == DayStatus.COMPLETED
  }

  /** "Agendadas": scheduled or already confirmed. */
  predicate IsScheduledDay(d: PreachingDay) {
    d.status == DayStatus.SCHEDULED || d.status == DayStatus.CONFIRMED
  }

  predicate HasStatus(s: DayStatus, d: PreachingDay) {
    d.status == s
  }

  function StatusIs(s: DayStatus): PreachingDay -> bool {
    (d: PreachingDay) => HasStatus(s, d)
  }

  datatype MonthSummary = MonthSummary(total: nat, completed: nat, scheduled: nat)

  /** The three figures at the top of the dialog. */
  function Summarize(days: seq<PreachingDay>): (s: MonthSummary)
    ensures s.total == |days|
    ensures s.completed == Count(days, IsCompletedDay)
    ensures s.scheduled == Count(days, StatusIs(DayStatus.SCHEDULED)) + Count(days, StatusIs(DayStatus.CONFIRMED))
    ensures s.completed + s.scheduled <= s.total
  {
    CountDisjoint(days, IsCompletedDay, IsScheduledDay);
    ScheduledSplits(days);
    MonthSummary(|days|, Count(days, IsCompletedDay), Count(days, IsScheduledDay))
  }

  /** The "scheduled" figure is the number of SCHEDULED days plus the number of
      CONFIRMED ones. */
  lemma {:induction false} ScheduledSplits(days: seq<PreachingDay>)
    ensures Count(days, IsScheduledDay)
            == Count(days, StatusIs(DayStatus.SCHEDULED)) + Count(days, StatusIs(DayStatus.CONFIRMED))
  {
    if days != [] {
      ScheduledSplits(days[1..]);
    }
  }

  /** The figures add up to the total exactly when every day of the month is
      completed, scheduled or confirmed (none in progress or cancelled). */
  lemma {:induction false} SummaryAddsUp(days: seq<PreachingDay>)
    ensures Summarize(days).completed + Summarize(days).scheduled == |days|
            <==> forall i :: 0 <= i < |days| ==> IsCompletedDay(days[i]) || IsScheduledDay(days[i])
  {
    if days != [] {
      SummaryAddsUp(days[1..]);
      CountDisjoint(days[1..], IsCompletedDay, IsScheduledDay);
      var s, t := Summarize(days), Summarize(days[1..]);
      if IsCompletedDay(days[0]) || IsScheduledDay(days[0]) {
        assert s.completed + s.scheduled == t.completed + t.scheduled + 1;
        assert (forall i :: 0 <= i < |days| ==> IsCompletedDay(days[i]) || IsScheduledDay(days[i]))
               <==> (forall i :: 0 <= i < |days| - 1 ==> IsCompletedDay(days[1..][i]) || IsScheduledDay(days[1..][i]));
      } else {
        assert s.completed + s.scheduled == t.completed + t.scheduled;
      }
    }
  }

  // ---------------------------------------------------------------------------
  // The list

  /** The list under the summary: the days sorted by date. */
  function ByDate(days: seq<PreachingDay>): (r: seq<PreachingDay>)
    ensures multiset(r) == multiset(days)
    ensures forall i, j :: 0 <= i < j < |r| ==> r[i].date <= r[j].date
  {
    AscByIsPreorder(DayDate);
    SortBySorted(days, AscBy(DayDate));
    SortedAsc(SortBy(days, AscBy(DayDate)), DayDate);
    SortBy(days, AscBy(DayDate))
  }

  /** The server already sends the days in date order, so the dialog's sort
      leaves its list as it came. */
  lemma ServerOrderKept(db: Db, w: Window)
    ensures var r := Storage.GetPreachingDays(db, Some(w.start), Some(w.end));
      ByDate(r) == r
  {
    var r := Storage.GetPreachingDays(db, Some(w.start), Some(w.end));
    forall i, j | 0 <= i < j < |r| ensures AscBy(DayDate)(r[i], r[j]) {
      assert DayDate(r[i]) <= DayDate(r[j]);
    }
    SortByKeepsSorted(r, AscBy(DayDate));
  }

  // ---------------------------------------------------------------------------
  // Labels

  function Label(s: DayStatus): string {
    match s
    case CONFIRMED => "Confirmado"
    case SCHEDULED => "Agendado"
    case IN_PROGRESS => "Em Andamento"
    case COMPLETED => "Concluído"
    case CANCELLED => "Cancelado"
  }

  /** `getStatusLabel`: the Portuguese label of a known status; anything else
      is shown as it came. */
  function StatusLabel(status: string): (r: string)
    ensures ParseDayStatus(status).Some? ==> r == Label(ParseDayStatus(status).value)
    ensures ParseDayStatus(status).None? ==> r == status
  {
    match ParseDayStatus(status)
    case Some(s) => Label(s)
    case None => status
  }

  /** A status is shown unchanged exactly when it is not one of the five, and
      the five labels are pairwise different. */
  lemma StatusLabelLaws(status: string, a: DayStatus, b: DayStatus)
    ensures StatusLabel(status) == status <==> ParseDayStatus(status).None?
    ensures StatusLabel(DayStatusName(a)) == Label(a)
    ensures Label(a) == Label(b) ==> a == b
  {
    EnumLabelsRoundTrip(ADMIN, PENDING, a, INFO);
    if ParseDayStatus(status).Some? {
      var s := ParseDayStatus(status).value;
      EnumLabelsRoundTrip(ADMIN, PENDING, s, INFO);
    }
  }
}

=== FILE: reports_page.dfy ===
/** The reports page: the date-range presets, the filter over preaching days,
    and the activity, territory and user statistics computed from the days
    that pass it. Percentages are exact rationals here (`real`); the page uses
    floating point. */
module ReportsPage {
  import opened Common
  import opened Time
  import opened Schema

  /** A preaching day as the page reads it: the row, plus the `participations`
      array the statistics look for on it. The rows the server sends for
      `GET /api/preaching-days` carry no such array (`ServerRow`). */
  datatype DayRow = DayRow(day: PreachingDay, participations: Option<seq<Participation>>)

  function ServerRow(d: PreachingDay): DayRow {
    DayRow(d, None)
  }

  // ---------------------------------------------------------------------------
  // Date range

  /** The month before (y, m). */
  function PrevMonth(y: int, m: int): (r: (int, int))
    requires 1 <= m <= 12
    ensures 1 <= r.1 <= 12
    ensures MonthIndex(r.0, r.1) == MonthIndex(y, m) - 1
  {
    if m == 1 then (y - 1, 12) else (y, m - 1)
  }

  /** The `n` days up to the current instant. */
  function LastDays(now: Instant, n: int): (w: Window)
    ensures w.end == now && w.end - w.start == n * DayMs
    ensures forall offset :: LocalDay(w.start, offset) == LocalDay(now, offset) - n
  {
    Window(SubDays(now, n), now)
  }

  /** The selected preset's window. `today` is the local clock reading when the
      page renders; "custom" takes whichever bounds the user picked and falls
      back to the last 30 days' bounds for a missing one; an unknown preset
      behaves as "last30". */
  function DateRangeFilter(preset: string, today: LocalDateTime, offset: int,
                           customStart: Option<Instant>, customEnd: Option<Instant>): (w: Window)
    requires ValidDateTime(today)
    ensures preset == "last7" ==> w == LastDays(ToInstant(today, offset), 7)
    ensures preset == "thisMonth" ==>
      forall t :: InWindow(t, w) <==> InMonth(LocalDay(t, offset), today.date.year, today.date.month)
    ensures preset == "lastMonth" ==>
      var (y, m) := PrevMonth(today.date.year, today.date.month);
      forall t :: InWindow(t, w) <==> InMonth(LocalDay(t, offset), y, m)
    ensures preset == "custom" ==>
      && w.start == customStart.GetOr(LastDays(ToInstant(today, offset), 30).start)
      && w.end == customEnd.GetOr(ToInstant(today, offset))
    ensures preset !in {"last7", "thisMonth", "lastMonth", "custom"} ==>
      w == LastDays(ToInstant(today, offset), 30)
  {
    var now := ToInstant(today, offset);
    if preset == "last7" then LastDays(now, 7)
    else if preset == "last30" then LastDays(now, 30)
    else if preset == "thisMonth" then MonthRange(today.date.year, today.date.month, offset)
    else if preset == "lastMonth" then
      var last := AddMonths(today.date, -1);
      var (y, m) := PrevMonth(today.date.year, today.date.month);
      MonthIndexInjective(last.year, last.month, y, m);
      MonthRange(last.year, last.month, offset)
    else if preset == "custom" then
      Window(customStart.GetOr(SubDays(now, 30)), customEnd.GetOr(now))
    else LastDays(now, 30)
  }

  /** Every preset except "custom" and "lastMonth" gives a window that contains
      the current instant; "lastMonth" ends before it. (A custom window is empty
      when the user picks a start after the end.) */
  lemma PresetWindows(preset: string, today: LocalDateTime, offset: int,
                      customStart: Option<Instant>, customEnd: Option<Instant>)
    requires ValidDateTime(today)
    requires preset != "custom"
    ensures preset != "lastMonth" ==>
      InWindow(ToInstant(today, offset), DateRangeFilter(preset, today, offset, customStart, customEnd))
    ensures preset == "lastMonth" ==>
      DateRangeFilter(preset, today, offset, customStart, customEnd).end < ToInstant(today, offset)
  {
    var now := ToInstant(today, offset);
    var w := DateRangeFilter(preset, today, offset, customStart, customEnd);
    DateInItsMonth(today.date);
    if preset == "thisMonth" {
      assert InMonth(LocalDay(now, offset), today.date.year, today.date.month);
    } else if preset == "lastMonth" {
      var (y, m) := PrevMonth(today.date.year, today.date.month);
      var (ny, nm) := NextMonth(y, m);
      MonthIndexInjective(ny, nm, today.date.year, today.date.month);
      assert MonthLastDay(y, m) < LocalDay(now, offset);
      if now <= w.end {
        assert InWindow(w.end, w);
        LocalDayMonotone(now, w.end, offset);
      }
    }
  }

  /** Local days do not go backwards in time. */
  lemma LocalDayMonotone(a: Instant, b: Instant, offset: int)
    requires a <= b
    ensures LocalDay(a, offset) <= LocalDay(b, offset)
  {
  }

  // ---------------------------------------------------------------------------
  // Filter

  /** The territory drop-down: "all", or the id of one territory. A day with
      no territory matches only "all". */
  predicate InTerritory(d: PreachingDay, selected: string) {
    selected == "all" || d.territoryId == Some(selected)
  }

  predicate Kept(r: DayRow, w: Window, selected: string) {
    InWindow(r.day.date, w) && InTerritory(r.day, selected)
  }

  function KeptBy(w: Window, selected: string): DayRow -> bool {
    (r: DayRow) => Kept(r, w, selected)
  }

  /** `filteredPreachingDays`: the days in the window and the territory, in the
      order the server sent them. */
  function FilterDays(rows: seq<DayRow>, w: Window, selected: string): (r: seq<DayRow>)
    ensures IsSubsequence(r, rows)
    ensures forall x :: x in r <==> x in rows && InWindow(x.day.date, w) && InTerritory(x.day, selected)
    ensures forall x :: multiset(r)[x] == if Kept(x, w, selected) then multiset(rows)[x] else 0
  {
    FilterIsSubsequence(rows, KeptBy(w, selected));
    FilterMultisetAll(rows, KeptBy(w, selected));
    Filter(rows, KeptBy(w, selected))
  }

  // ---------------------------------------------------------------------------
  // Activity statistics

  predicate IsCompleted(r: DayRow) {
    r.day.status == DayStatus.COMPLETED
  }

  /** `day.participations?.length || 0`. */
  function ParticipationCount(r: DayRow): nat {
    match r.participations
    case Some(ps) => |ps|
    case None => 0
  }

  /** The `reduce` over the filtered days. */
  function SumParticipations(rows: seq<DayRow>): nat {
    if rows == [] then 0 else ParticipationCount(rows[0]) + SumParticipations(rows[1..])
  }

  /** The reduction is additive over concatenation, so it does not depend on
      how the rows are grouped. */
  lemma {:induction false} SumParticipationsConcat(a: seq<DayRow>, b: seq<DayRow>)
    ensures SumParticipations(a + b) == SumParticipations(a) + SumParticipations(b)
  {
    if a == [] {
      assert a + b == b;
    } else {
      assert (a + b)[0] == a[0] && (a + b)[1..] == a[1..] + b;
      SumParticipationsConcat(a[1..], b);
    }
  }

  /** Rows without a `participations` array add nothing: on the rows the server
      sends, the page always reports zero participations. */
  lemma {:induction false} ServerRowsSumToZero(rows: seq<DayRow>)
    requires forall i :: 0 <= i < |rows| ==> rows[i].participations.None?
    ensures SumParticipations(rows) == 0
  {
    if rows != [] {
      ServerRowsSumToZero(rows[1..]);
    }
  }

  /** The page's participation total over the days exactly as the server
      sends them is zero. */
  lemma ServerDaysSumToZero(days: seq<PreachingDay>)
    ensures SumParticipations(Map(days, ServerRow)) == 0
  {
    ServerRowsSumToZero(Map(days, ServerRow));
  }

  /** `(part / whole) * 100`, and 0 for an empty whole. */
  function Percent(part: nat, whole: nat): (p: real)
    requires part <= whole
    ensures 0.0 <= p <= 100.0
    ensures whole == 0 ==> p == 0.0
    ensures p == 100.0 <==> whole > 0 && part == whole
    ensures p == 0.0 <==> part == 0
    ensures whole > 0 ==> p * whole as real == part as real * 100.0
  {
    if whole > 0 then
      var q := part as real / whole as real;
      assert q * whole as real == part as real;
      assert q <= 1.0 by {
        assert (1.0 - q) * whole as real == whole as real - part as real >= 0.0;
      }
      assert q == 1.0 ==> part == whole;
      q * 100.0
    else 0.0
  }

  datatype Summary = Summary(totalActivities: nat, completedActivities: nat,
                             totalParticipations: nat, completionRate: real)

  /** The four headline figures of the filtered days. */
  function Summarize(rows: seq<DayRow>): (s: Summary)
    ensures s.totalActivities == |rows|
    ensures s.completedActivities == |Filter(rows, IsCompleted)|
    ensures s.completedActivities <= s.totalActivities
    ensures s.totalActivities == 0 ==> s.completionRate == 0.0
    ensures 0.0 <= s.completionRate <= 100.0
    ensures s.completionRate == 100.0 <==> s.totalActivities > 0 && s.completedActivities == s.totalActivities
    ensures s.completionRate == Percent(s.completedActivities, s.totalActivities)
    ensures s.totalParticipations == SumParticipations(rows)
  {
    var completed := Count(rows, IsCompleted);
    var rate := Percent(completed, |rows|);
    Summary(|rows|, completed, SumParticipations(rows), rate)
  }

  // ---------------------------------------------------------------------------
  // Territory statistics

  function OfTerritory(id: Id): DayRow -> bool {
    (r: DayRow) => r.day.territoryId == Some(id)
  }

  function CompletedOfTerritory(id: Id): DayRow -> bool {
    (r: DayRow) => r.day.territoryId == Some(id) && r.day.status == DayStatus.COMPLETED
  }

  datatype TerritoryStat = TerritoryStat(territory: Territory, activities: nat, completed: nat, rate: real)

  /** A territory's entry: its days among the filtered ones, how many of those
      are completed, and the completed share in percent. */
  function TerritoryStatOf(rows: seq<DayRow>, t: Territory): (s: TerritoryStat)
    ensures s.territory == t
    ensures s.activities == Count(rows, OfTerritory(t.id))
    ensures s.completed == Count(rows, CompletedOfTerritory(t.id))
    ensures s.completed <= s.activities
    ensures s.activities == 0 ==> s.rate == 0.0
    ensures 0.0 <= s.rate <= 100.0
    ensures s.rate == Percent(s.completed, s.activities)
  {
    var mine := Filter(rows, OfTerritory(t.id));
    var completed := Count(mine, IsCompleted);
    assert completed == Count(rows, CompletedOfTerritory(t.id)) by {
      FilterThenFilter(rows, OfTerritory(t.id), IsCompleted, CompletedOfTerritory(t.id));
    }
    TerritoryStat(t, |mine|, completed, Percent(completed, |mine|))
  }

  /** `territoryStats`: one entry per territory, in the territories' order. */
  function TerritoryStats(territories: seq<Territory>, rows: seq<DayRow>): (r: seq<TerritoryStat>)
    ensures |r| == |territories|
    ensures forall i :: 0 <= i < |r| ==> r[i] == TerritoryStatOf(rows, territories[i])
  {
    if territories == [] then []
    else [TerritoryStatOf(rows, territories[0])] + TerritoryStats(territories[1..], rows)
  }

  /** With one territory selected, that territory's entry counts every filtered
      day and every other territory's entry counts none. */
  lemma SelectedTerritoryStats(rows: seq<DayRow>, w: Window, selected: Id, t: Territory)
    requires selected != "all"
    ensures t.id == selected ==>
      TerritoryStatOf(FilterDays(rows, w, selected), t).activities == |FilterDays(rows, w, selected)|
    ensures t.id != selected ==>
      TerritoryStatOf(FilterDays(rows, w, selected), t).activities == 0
  {
    var f := FilterDays(rows, w, selected);
    if t.id == selected {
      FilterAll(f, OfTerritory(t.id));
    } else {
      FilterNone(f, OfTerritory(t.id));
    }
  }

  // ---------------------------------------------------------------------------
  // User statistics

  /** The day lists a participation by the user. */
  function AttendedBy(id: Id): DayRow -> bool {
    (r: DayRow) => r.participations.Some?
                   && exists k :: 0 <= k < |r.participations.value| && r.participations.value[k].userId == id
  }

  function LedBy(id: Id): DayRow -> bool {
    (r: DayRow) => r.day.leaderId == id
  }

  datatype UserStat = UserStat(user: User, participations: nat, leadership: nat)

  function UserStatOf(rows: seq<DayRow>): User -> UserStat {
    (u: User) => UserStat(u, Count(rows, AttendedBy(u.id)), Count(rows, LedBy(u.id)))
  }

  /** The figures of `x` are those of its user over `rows`. */
  predicate CountsFor(rows: seq<DayRow>, x: UserStat) {
    x.participations == Count(rows, AttendedBy(x.user.id)) && x.leadership == Count(rows, LedBy(x.user.id))
  }

  function StatParticipations(s: UserStat): int {
    s.participations
  }

  /** `userStats`: each user with the number of filtered days they took part in
      and led, most active first. */
  function UserStats(users: seq<User>, rows: seq<DayRow>): (r: seq<UserStat>)
    ensures |r| == |users|
    ensures multiset(r) == multiset(Map(users, UserStatOf(rows)))
    ensures forall i, j :: 0 <= i < j < |r| ==> r[i].participations >= r[j].participations
    ensures forall x :: x in r ==> CountsFor(rows, x)
  {
    var stats := Map(users, UserStatOf(rows));
    var r := SortBy(stats, DescBy(StatParticipations));
    DescByIsPreorder(StatParticipations);
    SortBySorted(stats, DescBy(StatParticipations));
    SortedDesc(r, StatParticipations);
    SameMembers(r, stats);
    assert forall x :: x in stats ==> CountsFor(rows, x) by {
      forall x | x in stats ensures CountsFor(rows, x) {
        var k :| 0 <= k < |stats| && stats[k] == x;
      }
    }
    r
  }

  /** On the rows the server sends every user has zero participations, so the
      sort is a no-op and the users appear in their original order. */
  lemma ServerRowsKeepUserOrder(users: seq<User>, rows: seq<DayRow>)
    requires forall i :: 0 <= i < |rows| ==> rows[i].participations.None?
    ensures UserStats(users, rows) == Map(users, UserStatOf(rows))
  {
    var stats := Map(users, UserStatOf(rows));
    forall i, j | 0 <= i < j < |stats|
      ensures DescBy(StatParticipations)(stats[i], stats[j])
    {
      FilterNone(rows, AttendedBy(users[i].id));
      FilterNone(rows, AttendedBy(users[j].id));
      assert stats[i].participations == Count(rows, AttendedBy(users[i].id)) == 0;
      assert stats[j].participations == Count(rows, AttendedBy(users[j].id)) == 0;
      assert StatParticipations(stats[i]) >= StatParticipations(stats[j]);
    }
    SortByKeepsSorted(stats, DescBy(StatParticipations));
  }
}

=== FILE: routes.dfy ===
/** The HTTP handlers of the API (`registerRoutes`): for each authenticated
    request, the response (status and payload) and the new store state, as a
    function of the store, the caller's id (the OIDC subject) and the request.
    The caller's role is read from the caller's user row, as the handlers do;
    a caller without a row has no role. Request bodies arrive already parsed
    by the zod insert schemas: a body is either the parsed payload or a
    validation failure. */
module Routes {
  import opened Common
  import opened Time
  import opened Tables
  import opened Schema
  import opened Storage
  import opened StorageLaws

  /** The outcome of `schema.parse(req.body)`. */
  datatype Body<T> = Parsed(data: T) | Invalid

  /** One request per handler, with its path parameters, its query parameters
      (already converted; an empty query string counts as absent) and its body. */
  datatype Request =
    | GetAuthUser
    | ListTerritories
    | GetTerritoryById(id: Id)
    | PostTerritory(territory: Body<InsertTerritory>)
    | PutTerritory(id: Id, territoryPatch: Body<TerritoryPatch>)
    | DeleteTerritoryById(id: Id)
    | ListBlocks(territoryId: Id)
    | PostBlock(block: Body<InsertBlock>)
    | PutBlock(id: Id, blockPatch: Body<BlockPatch>)
    | ListPreachingDays(startDate: Option<Instant>, endDate: Option<Instant>)
    | GetTodayPreachingDay
    | GetPreachingDayById(id: Id)
    | PostPreachingDay(day: Body<InsertPreachingDay>)
    | PutPreachingDay(id: Id, dayPatch: Body<PreachingDayPatch>)
    | DeletePreachingDayById(id: Id)
    | ListDayParticipations(id: Id)
    | ListUserParticipations(userId: Id)
    | PostParticipation(participation: Body<InsertParticipation>)
    | PutParticipation(id: Id, participationPatch: Body<ParticipationPatch>)
    | DeleteParticipationById(id: Id)
    | ListWorkSessions(preachingDayId: Option<Id>, blockId: Option<Id>)
    | PostWorkSession(session: Body<InsertWorkSession>)
    | PutWorkSession(id: Id, sessionPatch: Body<WorkSessionPatch>)
    | ListNotifications
    | ListUserNotifications(userId: Id)
    | PostNotification(notification: Body<InsertNotification>)
    | PostUserNotification(link: Body<InsertUserNotification>)
    | PutNotificationRead(notificationId: Id)

  /** What a response carries. `NoBody` is `res.json(undefined)` or
      `send()`; `Null` is `res.json(null)`. */
  datatype Payload =
    | NoBody
    | Null
    | Message(text: string)
    | UserJson(user: User)
    | TerritoriesJson(territories: seq<Territory>)
    | TerritoryJson(territory: Territory)
    | BlocksJson(blocks: seq<Block>)
    | BlockJson(block: Block)
    | DaysJson(days: seq<PreachingDay>)
    | DayJson(day: PreachingDay)
    | ParticipationsJson(participations: seq<Participation>)
    | ParticipationJson(participation: Participation)
    | SessionsJson(sessions: seq<WorkSession>)
    | SessionJson(session: WorkSession)
    | NotificationsJson(notifications: seq<Notification>)
    | NotificationJson(notification: Notification)
    | UserNotificationsJson(links: seq<UserNotification>)
    | UserNotificationJson(link: UserNotification)

  datatype Response = Response(status: int, payload: Payload)

  datatype Outcome = Outcome(response: Response, db: Db)

  /** What a handler reads besides the store: the clock (`new Date()` and SQL
      `NOW()` are taken as the same instant), the server's zone offset and the
      id `gen_random_uuid()` would produce for an insert. */
  datatype Env = Env(now: Instant, offset: int, freshId: Id)

  const Forbidden: Response := Response(403, Message("Forbidden"))
  const InvalidData: Response := Response(400, Message("Invalid data"))

  /** The catch-all answer of a handler whose storage call threw. */
  function Failed(what: string): Response {
    Response(500, Message("Failed to " + what))
  }

  /** The status codes the API can answer. */
  predicate KnownStatus(s: int) {
    s == 200 || s == 201 || s == 204 || s == 400 || s == 403 || s == 404 || s == 500
  }

  // ---------------------------------------------------------------------------
  // Roles

  /** The caller's role, read from the caller's user row. */
  function CallerRole(db: Db, caller: Id): (r: Option<Role>)
    ensures r.Some? <==> exists i :: 0 <= i < |db.users| && db.users[i].id == caller
    ensures r.Some? ==> exists i :: 0 <= i < |db.users| && db.users[i].id == caller && db.users[i].role == r.value
  {
    match GetUser(db, caller)
    case None => None
    case Some(u) => Some(u.role)
  }

  predicate IsAdmin(db: Db, caller: Id) {
    CallerRole(db, caller) == Some(ADMIN)
  }

  /** `['ADMIN', 'COORDINATOR', 'LEADER'].includes(currentUser.role)`. */
  predicate MayActForOthers(db: Db, caller: Id) {
    CallerRole(db, caller).Some? && CallerRole(db, caller).value in {ADMIN, COORDINATOR, LEADER}
  }

  /** `['ADMIN', 'COORDINATOR'].includes(currentUser.role)`. */
  predicate MayNotify(db: Db, caller: Id) {
    CallerRole(db, caller).Some? && CallerRole(db, caller).value in {ADMIN, COORDINATOR}
  }

  // ---------------------------------------------------------------------------
  // Shared response shapes

  /** A create: 201 with the new row, or 500 (nothing stored) when the insert
      is rejected. */
  function Created<T>(r: Result<(Db, T)>, wrap: T -> Payload, db: Db, what: string): (out: Outcome)
    ensures r.Ok? ==> out == Outcome(Response(201, wrap(r.value.1)), r.value.0)
    ensures r.Err? ==> out == Outcome(Failed(what), db)
  {
    match r
    case Ok((after, x)) => Outcome(Response(201, wrap(x)), after)
    case Err(_) => Outcome(Failed(what), db)
  }

  /** An update: 200 with the updated row, or 200 without a body for an unknown
      id, or 500 (nothing stored) when the update is rejected. */
  function Updated<T>(r: Result<(Db, Option<T>)>, wrap: T -> Payload, db: Db, what: string): (out: Outcome)
    ensures r.Ok? ==> out.response.status == 200 && out.db == r.value.0
    ensures r.Ok? && r.value.1.Some? ==> out.response.payload == wrap(r.value.1.value)
    ensures r.Ok? && r.value.1.None? ==> out.response.payload == NoBody
    ensures r.Err? ==> out == Outcome(Failed(what), db)
  {
    match r
    case Ok((after, Some(x))) => Outcome(Response(200, wrap(x)), after)
    case Ok((after, None)) => Outcome(Response(200, NoBody), after)
    case Err(_) => Outcome(Failed(what), db)
  }

  // ---------------------------------------------------------------------------
  // Auth and territories

  /** `GET /api/auth/user`: the caller's own row, or no body when the caller
      has none. */
  method AuthUserRoute(db: Db, caller: Id) returns (out: Outcome)
    ensures out.db == db && out.response.status == 200
    ensures out.response.payload == NoBody <==> forall i :: 0 <= i < |db.users| ==> db.users[i].id != caller
    ensures out.response.payload != NoBody ==>
              out.response.payload.UserJson? && out.response.payload.user in db.users
              && out.response.payload.user.id == caller
  {
    match GetUser(db, caller) {
      case Some(u) => out := Outcome(Response(200, UserJson(u)), db);
      case None => out := Outcome(Response(200, NoBody), db);
    }
  }

  /** `GET /api/territories`: the active territories, each as often as stored,
      ascending by name. */
  method ListTerritoriesRoute(db: Db) returns (out: Outcome)
    ensures out.db == db && out.response.status == 200 && out.response.payload.TerritoriesJson?
    ensures forall t :: t in out.response.payload.territories <==> t in db.territories && t.isActive
    ensures forall t :: multiset(out.response.payload.territories)[t]
                        == if t.isActive then multiset(db.territories)[t] else 0
    ensures forall i, j :: 0 <= i < j < |out.response.payload.territories| ==>
              LexLe(out.response.payload.territories[i].name, out.response.payload.territories[j].name)
  {
    out := Outcome(Response(200, TerritoriesJson(GetTerritories(db))), db);
  }

  /** `GET /api/territories/:id`: 404 exactly when no row has the id. */
  method GetTerritoryRoute(db: Db, id: Id) returns (out: Outcome)
    ensures out.db == db
    ensures out.response.status == 200 || out.response.status == 404
    ensures out.response.status == 404 <==> forall i :: 0 <= i < |db.territories| ==> db.territories[i].id != id
    ensures out.response.status == 200 ==>
              out.response.payload.TerritoryJson? && out.response.payload.territory in db.territories
              && out.response.payload.territory.id == id
  {
    match GetTerritory(db, id) {
      case None => out := Outcome(Response(404, Message("Territory not found")), db);
      case Some(t) => out := Outcome(Response(200, TerritoryJson(t)), db);
    }
  }

  /** `POST /api/territories`: 400 for a body the insert schema rejects; 500
      when the name (or the generated id) is taken; otherwise 201 with the
      stored row. */
  method PostTerritoryRoute(db: Db, body: Body<InsertTerritory>, env: Env) returns (out: Outcome)
    ensures Valid(db) ==> Valid(out.db)
    ensures body.Invalid? ==> out == Outcome(InvalidData, db)
    ensures out.response.status == 400 <==> body.Invalid?
    ensures out.response.status == 201 || out.response.status == 400 || out.response.status == 500
    ensures out.response.status == 201 <==>
              body.Parsed? && forall i :: 0 <= i < |db.territories| ==>
                                db.territories[i].id != env.freshId && db.territories[i].name != body.data.name
    ensures out.response.status == 500 ==> out == Outcome(Failed("create territory"), db)
    ensures out.response.status == 201 ==>
              var t := NewTerritory(env.freshId, body.data, env.now);
              out == Outcome(Response(201, TerritoryJson(t)), db.(territories := db.territories + [t]))
  {
    match body {
      case Invalid => out := Outcome(InvalidData, db);
      case Parsed(d) =>
        out := Created(CreateTerritory(db, d, env.freshId, env.now), x => TerritoryJson(x), db, "create territory");
        if Valid(db) && out.response.status == 201 {
          CreateTerritoryKeepsValid(db, d, env.freshId, env.now);
        }
    }
  }

  /** `PUT /api/territories/:id`: 400 for a body the partial schema rejects; 200
      with no body for an unknown id (nothing changes); 500 when the new name is
      another row's; otherwise 200 with the patched row, which is then the
      stored row. */
  method PutTerritoryRoute(db: Db, id: Id, body: Body<TerritoryPatch>, env: Env) returns (out: Outcome)
    ensures Valid(db) ==> Valid(out.db)
    ensures body.Invalid? ==> out == Outcome(InvalidData, db)
    ensures out.response.status == 400 <==> body.Invalid?
    ensures out.response.status == 200 || out.response.status == 400 || out.response.status == 500
    ensures body.Parsed? && GetTerritory(db, id).None? ==> out == Outcome(Response(200, NoBody), db)
    ensures out.response.status == 500 <==>
              body.Parsed? && GetTerritory(db, id).Some?
              && exists j :: 0 <= j < |db.territories| && db.territories[j].id != id
                             && db.territories[j].name == Merge(body.data.name, GetTerritory(db, id).value.name)
    ensures out.response.status == 500 ==> out == Outcome(Failed("update territory"), db)
    ensures out.response.status == 200 && GetTerritory(db, id).Some? ==>
              && out.response.payload == TerritoryJson(PatchTerritory(GetTerritory(db, id).value, body.data, env.now))
              && out.db == db.(territories := out.db.territories)
              && |out.db.territories| == |db.territories|
              && forall i :: 0 <= i < |db.territories| ==>
                   out.db.territories[i] == if db.territories[i].id == id
                                            then PatchTerritory(db.territories[i], body.data, env.now)
                                            else db.territories[i]
  {
    match body {
      case Invalid => out := Outcome(InvalidData, db);
      case Parsed(p) =>
        out := Updated(UpdateTerritory(db, id, p, env.now), x => TerritoryJson(x), db, "update territory");
        if Valid(db) && out.response.status == 200 {
          UpdateTerritoryKeepsValid(db, id, p, env.now);
        }
    }
  }

  /** `DELETE /api/territories/:id`: 204 with no body; the territory is
      deactivated, never removed. */
  method DeleteTerritoryRoute(db: Db, id: Id, env: Env) returns (out: Outcome)
    ensures Valid(db) ==> Valid(out.db)
    ensures out.response == Response(204, NoBody)
    ensures out.db == db.(territories := out.db.territories)
    ensures |out.db.territories| == |db.territories|
    ensures forall i :: 0 <= i < |db.territories| ==>
              out.db.territories[i] == if db.territories[i].id == id
                                       then db.territories[i].(isActive := false, updatedAt := env.now)
                                       else db.territories[i]
  {
    out := Outcome(Response(204, NoBody), DeleteTerritory(db, id, env.now));
    if Valid(db) {
      DeleteTerritoryKeepsValid(db, id, env.now);
    }
  }

  /** `GET /api/territories/:territoryId/blocks`: that territory's blocks, by number. */
  method ListBlocksRoute(db: Db, territoryId: Id) returns (out: Outcome)
    ensures out.db == db && out.response.status == 200 && out.response.payload.BlocksJson?
    ensures forall b :: b in out.response.payload.blocks <==> b in db.blocks && b.territoryId == territoryId
    ensures forall b :: multiset(out.response.payload.blocks)[b]
                        == if b.territoryId == territoryId then multiset(db.blocks)[b] else 0
    ensures forall i, j :: 0 <= i < j < |out.response.payload.blocks| ==>
              LexLe(out.response.payload.blocks[i].number, out.response.payload.blocks[j].number)
  {
    var r := GetBlocks(db, territoryId);
    assert forall b :: b in r <==> b in multiset(r);
    out := Outcome(Response(200, BlocksJson(r)), db);
  }

  /** `POST /api/blocks`: 201 unless the body is invalid (400) or the territory
      already has a block with that number (500). */
  method PostBlockRoute(db: Db, body: Body<InsertBlock>, env: Env) returns (out: Outcome)
    ensures Valid(db) ==> Valid(out.db)
    ensures body.Invalid? ==> out == Outcome(InvalidData, db)
    ensures out.response.status == 400 <==> body.Invalid?
    ensures out.response.status == 201 || out.response.status == 400 || out.response.status == 500
    ensures out.response.status == 201 <==>
              body.Parsed? && forall i :: 0 <= i < |db.blocks| ==>
                                db.blocks[i].id != env.freshId
                                && (db.blocks[i].territoryId, db.blocks[i].number) != (body.data.territoryId, body.data.number)
    ensures out.response.status == 500 ==> out == Outcome(Failed("create block"), db)
    ensures out.response.status == 201 ==>
              var b := NewBlock(env.freshId, body.data, env.now);
              out == Outcome(Response(201, BlockJson(b)), db.(blocks := db.blocks + [b]))
  {
    match body {
      case Invalid => out := Outcome(InvalidData, db);
      case Parsed(d) =>
        out := Created(CreateBlock(db, d, env.freshId, env.now), x => BlockJson(x), db, "create block");
        if Valid(db) && out.response.status == 201 {
          CreateBlockKeepsValid(db, d, env.freshId, env.now);
        }
    }
  }

  /** `PUT /api/blocks/:id`. */
  method PutBlockRoute(db: Db, id: Id, body: Body<BlockPatch>, env: Env) returns (out: Outcome)
    ensures Valid(db) ==> Valid(out.db)
    ensures body.Invalid? ==> out == Outcome(InvalidData, db)
    ensures out.response.status == 400 <==> body.Invalid?
    ensures out.response.status == 200 || out.response.status == 400 || out.response.status == 500
    ensures body.Parsed? && GetBlock(db, id).None? ==> out == Outcome(Response(200, NoBody), db)
    ensures out.response.status == 500 <==>
              body.Parsed? && GetBlock(db, id).Some?
              && exists j :: 0 <= j < |db.blocks| && db.blocks[j].id != id
                             && BlockKey(db.blocks[j]) == BlockKey(PatchBlock(GetBlock(db, id).value, body.data, env.now))
    ensures out.response.status == 500 ==> out == Outcome(Failed("update block"), db)
    ensures out.response.status == 200 && GetBlock(db, id).Some? ==>
              && out.response.payload == BlockJson(PatchBlock(GetBlock(db, id).value, body.data, env.now))
              && out.db == db.(blocks := out.db.blocks)
              && |out.db.blocks| == |db.blocks|
              && forall i :: 0 <= i < |db.blocks| ==>
                   out.db.blocks[i] == if db.blocks[i].id == id
                                       then PatchBlock(db.blocks[i], body.data, env.now) else db.blocks[i]
  {
    match body {
      case Invalid => out := Outcome(InvalidData, db);
      case Parsed(p) =>
        out := Updated(UpdateBlock(db, id, p, env.now), x => BlockJson(x), db, "update block");
        if Valid(db) && out.response.status == 200 {
          UpdateBlockKeepsValid(db, id, p, env.now);
        }
    }
  }

  // ---------------------------------------------------------------------------
  // Preaching days

  /** `GET /api/preaching-days?startDate&endDate`: the days in the range when
      both bounds are given, all days otherwise, ascending by date. */
  method ListPreachingDaysRoute(db: Db, start: Option<Instant>, end: Option<Instant>) returns (out: Outcome)
    ensures out.db == db && out.response.status == 200 && out.response.payload.DaysJson?
    ensures forall d :: d in out.response.payload.days <==>
              d in db.days && (start.Some? && end.Some? ==> start.value <= d.date <= end.value)
    ensures forall d :: multiset(out.response.payload.days)[d]
                        == if InDateRange(d.date, start, end) then multiset(db.days)[d] else 0
    ensures forall i, j :: 0 <= i < j < |out.response.payload.days| ==>
              out.response.payload.days[i].date <= out.response.payload.days[j].date
  {
    var r := GetPreachingDays(db, start, end);
    forall d ensures d in r <==> d in db.days && InDateRange(d.date, start, end) {
      assert d in r <==> d in multiset(r);
      assert d in db.days <==> d in multiset(db.days);
    }
    out := Outcome(Response(200, DaysJson(r)), db);
  }

  /** `GET /api/preaching-days/today`: always 200; `null` when no day falls on
      today's local calendar day. */
  method TodayRoute(db: Db, env: Env) returns (out: Outcome)
    ensures out.db == db
    ensures out.response.status == 200
    ensures out.response.payload == Null <==>
              forall i :: 0 <= i < |db.days| ==> LocalDay(db.days[i].date, env.offset) != LocalDay(env.now, env.offset)
    ensures out.response.payload != Null ==>
              out.response.payload.DayJson? && out.response.payload.day in db.days
              && LocalDay(out.response.payload.day.date, env.offset) == LocalDay(env.now, env.offset)
  {
    match GetPreachingDayByDate(db, env.now, env.offset) {
      case None => out := Outcome(Response(200, Null), db);
      case Some(d) => out := Outcome(Response(200, DayJson(d)), db);
    }
  }

  /** `GET /api/preaching-days/:id`: 404 exactly when no row has the id. */
  method GetPreachingDayRoute(db: Db, id: Id) returns (out: Outcome)
    ensures out.db == db
    ensures out.response.status == 200 || out.response.status == 404
    ensures out.response.status == 404 <==> forall i :: 0 <= i < |db.days| ==> db.days[i].id != id
    ensures out.response.status == 200 ==>
              out.response.payload.DayJson? && out.response.payload.day in db.days
              && out.response.payload.day.id == id
  {
    match GetPreachingDay(db, id) {
      case None => out := Outcome(Response(404, Message("Preaching day not found")), db);
      case Some(d) => out := Outcome(Response(200, DayJson(d)), db);
    }
  }

  /** `POST /api/preaching-days`: 201 unless the body is invalid (400) or a
      day with the same date exists (500). */
  method PostPreachingDayRoute(db: Db, body: Body<InsertPreachingDay>, env: Env) returns (out: Outcome)
    ensures Valid(db) ==> Valid(out.db)
    ensures body.Invalid? ==> out == Outcome(InvalidData, db)
    ensures out.response.status == 400 <==> body.Invalid?
    ensures out.response.status == 201 || out.response.status == 400 || out.response.status == 500
    ensures out.response.status == 201 <==>
              body.Parsed? && forall i :: 0 <= i < |db.days| ==>
                                db.days[i].id != env.freshId && db.days[i].date != body.data.date
    ensures out.response.status == 500 ==> out == Outcome(Failed("create preaching day"), db)
    ensures out.response.status == 201 ==>
              var d := NewPreachingDay(env.freshId, body.data, env.now);
              out == Outcome(Response(201, DayJson(d)), db.(days := db.days + [d]))
  {
    match body {
      case Invalid => out := Outcome(InvalidData, db);
      case Parsed(d) =>
        out := Created(CreatePreachingDay(db, d, env.freshId, env.now), x => DayJson(x), db, "create preaching day");
        if Valid(db) && out.response.status == 201 {
          CreatePreachingDayKeepsValid(db, d, env.freshId, env.now);
        }
    }
  }

  /** `PUT /api/preaching-days/:id`. */
  method PutPreachingDayRoute(db: Db, id: Id, body: Body<PreachingDayPatch>, env: Env) returns (out: Outcome)
    ensures Valid(db) ==> Valid(out.db)
    ensures body.Invalid? ==> out == Outcome(InvalidData, db)
    ensures out.response.status == 400 <==> body.Invalid?
    ensures out.response.status == 200 || out.response.status == 400 || out.response.status == 500
    ensures body.Parsed? && GetPreachingDay(db, id).None? ==> out == Outcome(Response(200, NoBody), db)
    ensures out.response.status == 500 <==>
              body.Parsed? && GetPreachingDay(db, id).Some?
              && exists j :: 0 <= j < |db.days| && db.days[j].id != id
                             && db.days[j].date == Merge(body.data.date, GetPreachingDay(db, id).value.date)
    ensures out.response.status == 500 ==> out == Outcome(Failed("update preaching day"), db)
    ensures out.response.status == 200 && GetPreachingDay(db, id).Some? ==>
              && out.response.payload == DayJson(PatchPreachingDay(GetPreachingDay(db, id).value, body.data, env.now))
              && out.db == db.(days := out.db.days)
              && |out.db.days| == |db.days|
              && forall i :: 0 <= i < |db.days| ==>
                   out.db.days[i] == if db.days[i].id == id
                                     then PatchPreachingDay(db.days[i], body.data, env.now) else db.days[i]
  {
    match body {
      case Invalid => out := Outcome(InvalidData, db);
      case Parsed(p) =>
        out := Updated(UpdatePreachingDay(db, id, p, env.now), x => DayJson(x), db, "update preaching day");
        if Valid(db) && out.response.status == 200 {
          UpdatePreachingDayKeepsValid(db, id, p, env.now);
        }
    }
  }

  /** `DELETE /api/preaching-days/:id`: 204; the day is removed, the rest kept. */
  method DeletePreachingDayRoute(db: Db, id: Id) returns (out: Outcome)
    ensures Valid(db) ==> Valid(out.db)
    ensures out.response == Response(204, NoBody)
    ensures out.db == db.(days := out.db.days)
    ensures forall d :: d in out.db.days <==> d in db.days && d.id != id
  {
    out := Outcome(Response(204, NoBody), DeletePreachingDay(db, id));
    if Valid(db) {
      DeletePreachingDayKeepsValid(db, id);
    }
  }

  // ---------------------------------------------------------------------------
  // Participations

  /** `GET /api/preaching-days/:id/participations`: the day's participations, newest first. */
  method ListDayParticipationsRoute(db: Db, dayId: Id) returns (out: Outcome)
    ensures out.db == db && out.response.status == 200 && out.response.payload.ParticipationsJson?
    ensures forall p :: p in out.response.payload.participations <==> p in db.participations && p.preachingDayId == dayId
    ensures forall p :: multiset(out.response.payload.participations)[p]
                        == if p.preachingDayId == dayId then multiset(db.participations)[p] else 0
    ensures forall i, j :: 0 <= i < j < |out.response.payload.participations| ==>
              out.response.payload.participations[i].createdAt >= out.response.payload.participations[j].createdAt
  {
    var r := GetParticipations(db, dayId);
    assert forall p :: p in r <==> p in multiset(r);
    out := Outcome(Response(200, ParticipationsJson(r)), db);
  }

  /** `GET /api/users/:userId/participations`: callers read their own
      participations; reading another user's needs the ADMIN role. A refused
      caller gets 403 and nothing is read. */
  method UserParticipationsRoute(db: Db, caller: Id, userId: Id) returns (out: Outcome)
    ensures out.db == db
    ensures out.response.status == 403 <==>
              userId != caller && !(GetUser(db, caller).Some? && GetUser(db, caller).value.role == ADMIN)
    ensures out.response.status == 403 ==> out.response == Forbidden
    ensures out.response.status != 403 ==>
              out.response.status == 200 && out.response.payload.ParticipationsJson?
              && (forall p :: p in out.response.payload.participations <==> p in db.participations && p.userId == userId)
              && (forall p :: multiset(out.response.payload.participations)[p]
                              == if p.userId == userId then multiset(db.participations)[p] else 0)
              && forall i, j :: 0 <= i < j < |out.response.payload.participations| ==>
                   out.response.payload.participations[i].createdAt >= out.response.payload.participations[j].createdAt
  {
    if userId != caller && !IsAdmin(db, caller) {
      out := Outcome(Forbidden, db);
    } else {
      var r := GetUserParticipations(db, userId);
      assert forall p :: p in r <==> p in multiset(r);
      out := Outcome(Response(200, ParticipationsJson(r)), db);
    }
  }

  /** `POST /api/participations`: the body is validated first (400 before any
      role check); a participation for somebody else needs ADMIN, COORDINATOR
      or LEADER (403, nothing stored); a second participation of the same user
      on the same day is rejected (500); otherwise the row is inserted (201). */
  method PostParticipationRoute(db: Db, caller: Id, body: Body<InsertParticipation>, env: Env) returns (out: Outcome)
    ensures Valid(db) ==> Valid(out.db)
    ensures body.Invalid? ==> out == Outcome(InvalidData, db)
    ensures out.response.status == 400 <==> body.Invalid?
    ensures out.response.status == 201 || out.response.status == 400
            || out.response.status == 403 || out.response.status == 500
    ensures out.response.status == 403 <==>
              body.Parsed? && body.data.userId != caller
              && !(GetUser(db, caller).Some? && GetUser(db, caller).value.role in {ADMIN, COORDINATOR, LEADER})
    ensures out.response.status == 403 ==> out.response == Forbidden
    ensures out.response.status == 201 <==>
              body.Parsed? && out.response.status != 403
              && forall i :: 0 <= i < |db.participations| ==>
                   db.participations[i].id != env.freshId
                   && ParticipationKey(db.participations[i]) != (body.data.userId, body.data.preachingDayId)
    ensures out.response.status == 500 ==> out == Outcome(Failed("create participation"), db)
    ensures out.response.status == 201 ==>
              body.Parsed?
              && (forall i :: 0 <= i < |db.participations| ==>
                    (db.participations[i].userId, db.participations[i].preachingDayId)
                    != (body.data.userId, body.data.preachingDayId))
              && var p := NewParticipation(env.freshId, body.data, env.now);
                 out == Outcome(Response(201, ParticipationJson(p)), db.(participations := db.participations + [p]))
    ensures out.response.status != 201 ==> out.db == db
  {
    match body {
      case Invalid => out := Outcome(InvalidData, db);
      case Parsed(d) =>
        if d.userId != caller && !MayActForOthers(db, caller) {
          out := Outcome(Forbidden, db);
        } else {
          out := Created(CreateParticipation(db, d, env.freshId, env.now), x => ParticipationJson(x), db,
                         "create participation");
          if Valid(db) && out.response.status == 201 {
            CreateParticipationKeepsValid(db, d, env.freshId, env.now);
          }
        }
    }
  }

  /** `PUT /api/participations/:id`: no role check; 500 when the patched
      (user, day) pair is another row's. */
  method PutParticipationRoute(db: Db, id: Id, body: Body<ParticipationPatch>, env: Env) returns (out: Outcome)
    ensures Valid(db) ==> Valid(out.db)
    ensures body.Invalid? ==> out == Outcome(InvalidData, db)
    ensures out.response.status == 400 <==> body.Invalid?
    ensures out.response.status == 200 || out.response.status == 400 || out.response.status == 500
    ensures body.Parsed? && GetParticipation(db, id).None? ==> out == Outcome(Response(200, NoBody), db)
    ensures out.response.status == 500 <==>
              body.Parsed? && GetParticipation(db, id).Some?
              && exists j :: 0 <= j < |db.participations| && db.participations[j].id != id
                             && ParticipationKey(db.participations[j])
                                == ParticipationKey(PatchParticipation(GetParticipation(db, id).value, body.data, env.now))
    ensures out.response.status == 500 ==> out == Outcome(Failed("update participation"), db)
    ensures out.response.status == 200 && GetParticipation(db, id).Some? ==>
              && out.response.payload
                 == ParticipationJson(PatchParticipation(GetParticipation(db, id).value, body.data, env.now))
              && out.db == db.(participations := out.db.participations)
              && |out.db.participations| == |db.participations|
              && forall i :: 0 <= i < |db.participations| ==>
                   out.db.participations[i] == if db.participations[i].id == id
                                               then PatchParticipation(db.participations[i], body.data, env.now)
                                               else db.participations[i]
  {
    match body {
      case Invalid => out := Outcome(InvalidData, db);
      case Parsed(p) =>
        out := Updated(UpdateParticipation(db, id, p, env.now), x => ParticipationJson(x), db, "update participation");
        if Valid(db) && out.response.status == 200 {
          UpdateParticipationKeepsValid(db, id, p, env.now);
        }
    }
  }

  /** `DELETE /api/participations/:id`: 204; no role check. */
  method DeleteParticipationRoute(db: Db, id: Id) returns (out: Outcome)
    ensures Valid(db) ==> Valid(out.db)
    ensures out.response == Response(204, NoBody)
    ensures out.db == db.(participations := out.db.participations)
    ensures forall p :: p in out.db.participations <==> p in db.participations && p.id != id
  {
    out := Outcome(Response(204, NoBody), DeleteParticipation(db, id));
    if Valid(db) {
      DeleteParticipationKeepsValid(db, id);
    }
  }

  // ---------------------------------------------------------------------------
  // Work sessions

  /** `GET /api/work-sessions?preachingDayId&blockId`: the matching sessions,
      latest start first. */
  method ListWorkSessionsRoute(db: Db, dayId: Option<Id>, blockId: Option<Id>) returns (out: Outcome)
    ensures out.db == db && out.response.status == 200 && out.response.payload.SessionsJson?
    ensures forall w :: w in out.response.payload.sessions <==> w in db.sessions && SessionMatches(w, dayId, blockId)
    ensures forall w :: multiset(out.response.payload.sessions)[w]
                        == if SessionMatches(w, dayId, blockId) then multiset(db.sessions)[w] else 0
    ensures forall i, j :: 0 <= i < j < |out.response.payload.sessions| ==>
              out.response.payload.sessions[i].startedAt >= out.response.payload.sessions[j].startedAt
  {
    var r := GetWorkSessions(db, dayId, blockId);
    assert forall w :: w in r <==> w in multiset(r);
    out := Outcome(Response(200, SessionsJson(r)), db);
  }

  /** `POST /api/work-sessions`: only the generated id can clash. */
  method PostWorkSessionRoute(db: Db, body: Body<InsertWorkSession>, env: Env) returns (out: Outcome)
    ensures Valid(db) ==> Valid(out.db)
    ensures body.Invalid? ==> out == Outcome(InvalidData, db)
    ensures out.response.status == 400 <==> body.Invalid?
    ensures out.response.status == 201 || out.response.status == 400 || out.response.status == 500
    ensures out.response.status == 201 <==>
              body.Parsed? && forall i :: 0 <= i < |db.sessions| ==> db.sessions[i].id != env.freshId
    ensures out.response.status == 500 ==> out == Outcome(Failed("create work session"), db)
    ensures out.response.status == 201 ==>
              var w := NewWorkSession(env.freshId, body.data, env.now);
              out == Outcome(Response(201, SessionJson(w)), db.(sessions := db.sessions + [w]))
  {
    match body {
      case Invalid => out := Outcome(InvalidData, db);
      case Parsed(d) =>
        out := Created(CreateWorkSession(db, d, env.freshId, env.now), x => SessionJson(x), db, "create work session");
        if Valid(db) && out.response.status == 201 {
          CreateWorkSessionKeepsValid(db, d, env.freshId, env.now);
        }
    }
  }

  /** `PUT /api/work-sessions/:id`: never 500, as nothing besides the id is unique. */
  method PutWorkSessionRoute(db: Db, id: Id, body: Body<WorkSessionPatch>, env: Env) returns (out: Outcome)
    ensures Valid(db) ==> Valid(out.db)
    ensures body.Invalid? ==> out == Outcome(InvalidData, db)
    ensures body.Parsed? <==> out.response.status == 200
    ensures out.response.status == 200 || out.response.status == 400
    ensures body.Parsed? && GetWorkSession(db, id).None? ==> out == Outcome(Response(200, NoBody), db)
    ensures body.Parsed? && GetWorkSession(db, id).Some? ==>
              && out.response.payload == SessionJson(PatchWorkSession(GetWorkSession(db, id).value, body.data, env.now))
              && out.db == db.(sessions := out.db.sessions)
              && |out.db.sessions| == |db.sessions|
              && forall i :: 0 <= i < |db.sessions| ==>
                   out.db.sessions[i] == if db.sessions[i].id == id
                                         then PatchWorkSession(db.sessions[i], body.data, env.now) else db.sessions[i]
  {
    match body {
      case Invalid => out := Outcome(InvalidData, db);
      case Parsed(p) =>
        out := Updated(UpdateWorkSession(db, id, p, env.now), x => SessionJson(x), db, "update work session");
        if Valid(db) && out.response.status == 200 {
          UpdateWorkSessionKeepsValid(db, id, p, env.now);
        }
    }
  }

  // ---------------------------------------------------------------------------
  // Notifications

  /** `GET /api/notifications`: what the caller may see, newest first; on a
      valid database each such notification is listed once. */
  method ListNotificationsRoute(db: Db, caller: Id, env: Env) returns (out: Outcome)
    ensures out.db == db && out.response.status == 200 && out.response.payload.NotificationsJson?
    ensures forall n :: n in out.response.payload.notifications <==>
              n in db.notifications && VisibleTo(n, Some(caller), db.userNotifications, env.now)
    ensures forall i, j :: 0 <= i < j < |out.response.payload.notifications| ==>
              out.response.payload.notifications[i].createdAt >= out.response.payload.notifications[j].createdAt
    ensures Valid(db) ==>
              && NoDuplicates(out.response.payload.notifications)
              && forall n :: multiset(out.response.payload.notifications)[n]
                             == if VisibleTo(n, Some(caller), db.userNotifications, env.now)
                                then multiset(db.notifications)[n] else 0
  {
    out := Outcome(Response(200, NotificationsJson(GetNotifications(db, Some(caller), env.now))), db);
    if Valid(db) {
      NotificationsExactlyOnce(db, Some(caller), env.now);
    }
  }

  /** `GET /api/users/:userId/notifications`: the self-or-ADMIN rule over the
      link rows. */
  method UserNotificationsRoute(db: Db, caller: Id, userId: Id) returns (out: Outcome)
    ensures out.db == db
    ensures out.response.status == 403 <==>
              userId != caller && !(GetUser(db, caller).Some? && GetUser(db, caller).value.role == ADMIN)
    ensures out.response.status == 403 ==> out.response == Forbidden
    ensures out.response.status != 403 ==>
              out.response.status == 200 && out.response.payload.UserNotificationsJson?
              && (forall l :: l in out.response.payload.links <==> l in db.userNotifications && l.userId == userId)
              && (forall l :: multiset(out.response.payload.links)[l]
                              == if l.userId == userId then multiset(db.userNotifications)[l] else 0)
              && forall i, j :: 0 <= i < j < |out.response.payload.links| ==>
                   out.response.payload.links[i].createdAt >= out.response.payload.links[j].createdAt
  {
    if userId != caller && !IsAdmin(db, caller) {
      out := Outcome(Forbidden, db);
    } else {
      var r := GetUserNotifications(db, userId);
      assert forall l :: l in r <==> l in multiset(r);
      out := Outcome(Response(200, UserNotificationsJson(r)), db);
    }
  }

  /** `POST /api/notifications`: the role is checked before the body, so a
      caller who is not ADMIN or COORDINATOR (or has no user row) gets 403 even
      for an invalid body; only an authorised caller can get 400. */
  method PostNotificationRoute(db: Db, caller: Id, body: Body<InsertNotification>, env: Env) returns (out: Outcome)
    ensures Valid(db) ==> Valid(out.db)
    ensures out.response.status == 201 || out.response.status == 400
            || out.response.status == 403 || out.response.status == 500
    ensures out.response.status == 403 <==>
              !(GetUser(db, caller).Some? && GetUser(db, caller).value.role in {ADMIN, COORDINATOR})
    ensures out.response.status == 403 ==> out.response == Forbidden
    ensures out.response.status == 400 <==> out.response.status != 403 && body.Invalid?
    ensures out.response.status == 201 <==>
              GetUser(db, caller).Some? && GetUser(db, caller).value.role in {ADMIN, COORDINATOR}
              && body.Parsed? && forall i :: 0 <= i < |db.notifications| ==> db.notifications[i].id != env.freshId
    ensures out.response.status == 500 ==> out == Outcome(Failed("create notification"), db)
    ensures out.response.status == 201 ==>
              body.Parsed?
              && var n := NewNotification(env.freshId, body.data, env.now);
                 out == Outcome(Response(201, NotificationJson(n)), db.(notifications := db.notifications + [n]))
    ensures out.response.status != 201 ==> out.db == db
  {
    if !MayNotify(db, caller) {
      out := Outcome(Forbidden, db);
    } else {
      match body {
        case Invalid => out := Outcome(InvalidData, db);
        case Parsed(d) =>
          out := Created(CreateNotification(db, d, env.freshId, env.now), x => NotificationJson(x), db,
                         "create notification");
          if Valid(db) && out.response.status == 201 {
            CreateNotificationKeepsValid(db, d, env.freshId, env.now);
          }
      }
    }
  }

  /** `POST /api/user-notifications`: no role check; a second link of the same
      user to the same notification is rejected (500). */
  method PostUserNotificationRoute(db: Db, body: Body<InsertUserNotification>, env: Env) returns (out: Outcome)
    ensures Valid(db) ==> Valid(out.db)
    ensures body.Invalid? ==> out == Outcome(InvalidData, db)
    ensures out.response.status == 400 <==> body.Invalid?
    ensures out.response.status == 201 || out.response.status == 400 || out.response.status == 500
    ensures out.response.status == 201 <==>
              body.Parsed? && forall i :: 0 <= i < |db.userNotifications| ==>
                                db.userNotifications[i].id != env.freshId
                                && UserNotificationKey(db.userNotifications[i]) != (body.data.userId, body.data.notificationId)
    ensures out.response.status == 500 ==> out == Outcome(Failed("create user notification"), db)
    ensures out.response.status == 201 ==>
              var l := NewUserNotification(env.freshId, body.data, env.now);
              out == Outcome(Response(201, UserNotificationJson(l)), db.(userNotifications := db.userNotifications + [l]))
  {
    match body {
      case Invalid => out := Outcome(InvalidData, db);
      case Parsed(d) =>
        out := Created(CreateUserNotification(db, d, env.freshId, env.now), x => UserNotificationJson(x), db,
                       "create user notification");
        if Valid(db) && out.response.status == 201 {
          CreateUserNotificationKeepsValid(db, d, env.freshId, env.now);
        }
    }
  }

  /** `PUT /api/notifications/:notificationId/read`: marks the caller's own link
      row only; another user's read state is never touched. Always 204. */
  method MarkReadRoute(db: Db, caller: Id, notificationId: Id, env: Env) returns (out: Outcome)
    ensures Valid(db) ==> Valid(out.db)
    ensures out.response == Response(204, NoBody)
    ensures out.db == db.(userNotifications := out.db.userNotifications)
    ensures |out.db.userNotifications| == |db.userNotifications|
    ensures forall i :: 0 <= i < |db.userNotifications| ==>
              out.db.userNotifications[i]
              == if db.userNotifications[i].userId == caller
                    && db.userNotifications[i].notificationId == notificationId
                 then db.userNotifications[i].(readAt := Some(env.now))
                 else db.userNotifications[i]
  {
    out := Outcome(Response(204, NoBody), MarkNotificationAsRead(db, caller, notificationId, env.now));
    if Valid(db) {
      MarkNotificationAsReadKeepsValid(db, caller, notificationId, env.now);
    }
  }

  // ---------------------------------------------------------------------------
  // All handlers

  /** Requests that only read. */
  predicate IsRead(req: Request) {
    req.GetAuthUser? || req.ListTerritories? || req.GetTerritoryById? || req.ListBlocks?
    || req.ListPreachingDays? || req.GetTodayPreachingDay? || req.GetPreachingDayById?
    || req.ListDayParticipations? || req.ListUserParticipations? || req.ListWorkSessions?
    || req.ListNotifications? || req.ListUserNotifications?
  }

  predicate IsCreate(req: Request) {
    req.PostTerritory? || req.PostBlock? || req.PostPreachingDay? || req.PostParticipation?
    || req.PostWorkSession? || req.PostNotification? || req.PostUserNotification?
  }

  predicate IsDelete(req: Request) {
    req.DeleteTerritoryById? || req.DeletePreachingDayById? || req.DeleteParticipationById?
  }

  /** What every handler guarantees: a known status; reads leave the store
      alone; a refused or failed request stores nothing; creates answer 201 or
      an error; deletes and mark-read answer 204 with no body; only the two
      by-id lookups answer 404; only the four role-checked routes answer 403. */
  predicate RouteContract(req: Request, db: Db, out: Outcome) {
    && KnownStatus(out.response.status)
    && (IsRead(req) ==> out.db == db)
    && (out.response.status >= 400 ==> out.db == db)
    && (IsCreate(req) ==> out.response.status == 201 || out.response.status == 400
                          || out.response.status == 403 || out.response.status == 500)
    && (IsDelete(req) || req.PutNotificationRead? ==> out.response == Response(204, NoBody))
    && (out.response.status == 404 ==> req.GetTerritoryById? || req.GetPreachingDayById?)
    && (out.response.status == 403 ==>
          req.ListUserParticipations? || req.ListUserNotifications? || req.PostParticipation? || req.PostNotification?)
  }

  predicate AccountAndTerritoryQuery(req: Request) {
    req.GetAuthUser?
    || req.ListTerritories?
    || req.GetTerritoryById?
    || req.ListBlocks?
  }

  predicate TerritoryCommand(req: Request) {
    req.PostTerritory?
    || req.PutTerritory?
  }

  predicate BlockCommand(req: Request) {
    req.PostBlock?
    || req.PutBlock?
  }

  predicate DayQuery(req: Request) {
    req.ListPreachingDays?
    || req.GetTodayPreachingDay?
    || req.GetPreachingDayById?
  }

  predicate DayCommand(req: Request) {
    req.PostPreachingDay?
    || req.PutPreachingDay?
  }

  predicate ActivityQuery(req: Request) {
    req.ListDayParticipations?
    || req.ListUserParticipations?
    || req.ListWorkSessions?
  }

  predicate ParticipationCommand(req: Request) {
    req.PostParticipation?
    || req.PutParticipation?
  }

  predicate SessionCommand(req: Request) {
    req.PostWorkSession?
    || req.PutWorkSession?
  }

  predicate NotificationQuery(req: Request) {
    req.ListNotifications?
    || req.ListUserNotifications?
  }

  predicate NotificationCommand(req: Request) {
    req.PostNotification?
    || req.PostUserNotification?
    || req.PutNotificationRead?
  }

  predicate Removal(req: Request) {
    req.DeleteTerritoryById?
    || req.DeletePreachingDayById?
    || req.DeleteParticipationById?
  }

  /** The routes for reading the signed-in user, territories and blocks. */
  method AccountAndTerritoryQueries(db: Db, caller: Id, req: Request, env: Env) returns (out: Outcome)
    requires AccountAndTerritoryQuery(req)
    ensures RouteContract(req, db, out)
  {
    match req {
      case GetAuthUser => out := AuthUserRoute(db, caller);
      case ListTerritories => out := ListTerritoriesRoute(db);
      case GetTerritoryById(id) => out := GetTerritoryRoute(db, id);
      case ListBlocks(territoryId) => out := ListBlocksRoute(db, territoryId);
    }
  }

  /** The routes for creating and editing territories. */
  method TerritoryCommands(db: Db, caller: Id, req: Request, env: Env) returns (out: Outcome)
    requires TerritoryCommand(req)
    ensures RouteContract(req, db, out)
  {
    match req {
      case PostTerritory(body) => out := PostTerritoryRoute(db, body, env);
      case PutTerritory(id, body) => out := PutTerritoryRoute(db, id, body, env);
    }
  }

  /** The routes for creating and editing blocks. */
  method BlockCommands(db: Db, caller: Id, req: Request, env: Env) returns (out: Outcome)
    requires BlockCommand(req)
    ensures RouteContract(req, db, out)
  {
    match req {
      case PostBlock(body) => out := PostBlockRoute(db, body, env);
      case PutBlock(id, body) => out := PutBlockRoute(db, id, body, env);
    }
  }

  /** The routes for reading preaching days. */
  method DayQueries(db: Db, caller: Id, req: Request, env: Env) returns (out: Outcome)
    requires DayQuery(req)
    ensures RouteContract(req, db, out)
  {
    match req {
      case ListPreachingDays(start, end) => out := ListPreachingDaysRoute(db, start, end);
      case GetTodayPreachingDay => out := TodayRoute(db, env);
      case GetPreachingDayById(id) => out := GetPreachingDayRoute(db, id);
    }
  }

  /** The routes for creating and editing preaching days. */
  method DayCommands(db: Db, caller: Id, req: Request, env: Env) returns (out: Outcome)
    requires DayCommand(req)
    ensures RouteContract(req, db, out)
  {
    match req {
      case PostPreachingDay(body) => out := PostPreachingDayRoute(db, body, env);
      case PutPreachingDay(id, body) => out := PutPreachingDayRoute(db, id, body, env);
    }
  }

  /** The routes for reading participations and work sessions. */
  method ActivityQueries(db: Db, caller: Id, req: Request, env: Env) returns (out: Outcome)
    requires ActivityQuery(req)
    ensures RouteContract(req, db, out)
  {
    match req {
      case ListDayParticipations(id) => out := ListDayParticipationsRoute(db, id);
      case ListUserParticipations(userId) => out := UserParticipationsRoute(db, caller, userId);
      case ListWorkSessions(dayId, blockId) => out := ListWorkSessionsRoute(db, dayId, blockId);
    }
  }

  /** The routes for creating and editing participations. */
  method ParticipationCommands(db: Db, caller: Id, req: Request, env: Env) returns (out: Outcome)
    requires ParticipationCommand(req)
    ensures RouteContract(req, db, out)
  {
    match req {
      case PostParticipation(body) => out := PostParticipationRoute(db, caller, body, env);
      case PutParticipation(id, body) => out := PutParticipationRoute(db, id, body, env);
    }
  }

  /** The routes for creating and editing work sessions. */
  method SessionCommands(db: Db, caller: Id, req: Request, env: Env) returns (out: Outcome)
    requires SessionCommand(req)
    ensures RouteContract(req, db, out)
  {
    match req {
      case PostWorkSession(body) => out := PostWorkSessionRoute(db, body, env);
      case PutWorkSession(id, body) => out := PutWorkSessionRoute(db, id, body, env);
    }
  }

  /** The routes for reading notifications. */
  method NotificationQueries(db: Db, caller: Id, req: Request, env: Env) returns (out: Outcome)
    requires NotificationQuery(req)
    ensures RouteContract(req, db, out)
  {
    match req {
      case ListNotifications => out := ListNotificationsRoute(db, caller, env);
      case ListUserNotifications(userId) => out := UserNotificationsRoute(db, caller, userId);
    }
  }

  /** The routes for creating notifications and marking them read. */
  method NotificationCommands(db: Db, caller: Id, req: Request, env: Env) returns (out: Outcome)
    requires NotificationCommand(req)
    ensures RouteContract(req, db, out)
  {
    match req {
      case PostNotification(body) => out := PostNotificationRoute(db, caller, body, env);
      case PostUserNotification(body) => out := PostUserNotificationRoute(db, body, env);
      case PutNotificationRead(notificationId) => out := MarkReadRoute(db, caller, notificationId, env);
    }
  }

  /** The routes for deleting territories, preaching days and participations. */
  method Removals(db: Db, caller: Id, req: Request, env: Env) returns (out: Outcome)
    requires Removal(req)
    ensures RouteContract(req, db, out)
  {
    match req {
      case DeleteTerritoryById(id) => out := DeleteTerritoryRoute(db, id, env);
      case DeletePreachingDayById(id) => out := DeletePreachingDayRoute(db, id);
      case DeleteParticipationById(id) => out := DeleteParticipationRoute(db, id);
    }
  }

  /** The handler registered for each request (`registerRoutes`). */
  method Handle(db: Db, caller: Id, req: Request, env: Env) returns (out: Outcome)
    ensures KnownStatus(out.response.status)
    ensures IsRead(req) ==> out.db == db
    ensures out.response.status >= 400 ==> out.db == db
    ensures IsCreate(req) ==> out.response.status == 201 || out.response.status == 400
                              || out.response.status == 403 || out.response.status == 500
    ensures IsDelete(req) || req.PutNotificationRead? ==> out.response == Response(204, NoBody)
    ensures out.response.status == 404 ==> req.GetTerritoryById? || req.GetPreachingDayById?
    ensures out.response.status == 403 ==>
              req.ListUserParticipations? || req.ListUserNotifications? || req.PostParticipation? || req.PostNotification?
  {
    if AccountAndTerritoryQuery(req) {
      out := AccountAndTerritoryQueries(db, caller, req, env);
    } else if TerritoryCommand(req) {
      out := TerritoryCommands(db, caller, req, env);
    } else if BlockCommand(req) {
      out := BlockCommands(db, caller, req, env);
    } else if DayQuery(req) {
      out := DayQueries(db, caller, req, env);
    } else if DayCommand(req) {
      out := DayCommands(db, caller, req, env);
    } else if ActivityQuery(req) {
      out := ActivityQueries(db, caller, req, env);
    } else if ParticipationCommand(req) {
      out := ParticipationCommands(db, caller, req, env);
    } else if SessionCommand(req) {
      out := SessionCommands(db, caller, req, env);
    } else if NotificationQuery(req) {
      out := NotificationQueries(db, caller, req, env);
    } else if NotificationCommand(req) {
      out := NotificationCommands(db, caller, req, env);
    } else {
      out := Removals(db, caller, req, env);
    }
  }
}

=== FILE: schema.dfy ===
/** The data model of the store: the four enums, one row type per table, the
    insert payloads (which never carry the server-assigned `id`, `createdAt` and
    `updatedAt`), the partial-update payloads, the column defaults applied on
    insert, and the uniqueness constraints that the store state keeps. */
module Schema {
  import opened Common
  import opened Time
  import opened Tables

  type Id = string

  // ---------------------------------------------------------------------------
  // Enums (PostgreSQL enum types: closed sets of labels)

  datatype Role = ADMIN | COORDINATOR | LEADER | MEMBER
  datatype BlockStatus = PENDING | IN_PROGRESS | COMPLETED | REVISIT
  datatype DayStatus = SCHEDULED | CONFIRMED | IN_PROGRESS | COMPLETED | CANCELLED
  datatype NotificationType = INFO | WARNING | SUCCESS | ERROR | REMINDER

  function RoleName(r: Role): string {
    match r
    case ADMIN => "ADMIN"
    case COORDINATOR => "COORDINATOR"
    case LEADER => "LEADER"
    case MEMBER => "MEMBER"
  }

  /** The database accepts a role label only if it is one of the four. */
  function ParseRole(s: string): (r: Option<Role>)
    ensures r.Some? ==> RoleName(r.value) == s
    ensures forall x: Role :: RoleName(x) == s ==> r == Some(x)
  {
    if s == "ADMIN" then Some(ADMIN)
    else if s == "COORDINATOR" then Some(COORDINATOR)
    else if s == "LEADER" then Some(LEADER)
    else if s == "MEMBER" then Some(MEMBER)
    else None
  }

  function BlockStatusName(b: BlockStatus): string {
    match b
    case PENDING => "PENDING"
    case IN_PROGRESS => "IN_PROGRESS"
    case COMPLETED => "COMPLETED"
    case REVISIT => "REVISIT"
  }

  function ParseBlockStatus(s: string): (r: Option<BlockStatus>)
    ensures r.Some? ==> BlockStatusName(r.value) == s
    ensures forall x: BlockStatus :: BlockStatusName(x) == s ==> r == Some(x)
  {
    if s == "PENDING" then Some(BlockStatus.PENDING)
    else if s == "IN_PROGRESS" then Some(BlockStatus.IN_PROGRESS)
    else if s == "COMPLETED" then Some(BlockStatus.COMPLETED)
    else if s == "REVISIT" then Some(BlockStatus.REVISIT)
    else None
  }

  function DayStatusName(d: DayStatus): string {
    match d
    case SCHEDULED => "SCHEDULED"
    case CONFIRMED => "CONFIRMED"
    case IN_PROGRESS => "IN_PROGRESS"
    case COMPLETED => "COMPLETED"
    case CANCELLED => "CANCELLED"
  }

  function ParseDayStatus(s: string): (r: Option<DayStatus>)
    ensures r.Some? ==> DayStatusName(r.value) == s
    ensures forall x: DayStatus :: DayStatusName(x) == s ==> r == Some(x)
  {
    if s == "SCHEDULED" then Some(DayStatus.SCHEDULED)
    else if s == "CONFIRMED" then Some(DayStatus.CONFIRMED)
    else if s == "IN_PROGRESS" then Some(DayStatus.IN_PROGRESS)
    else if s == "COMPLETED" then Some(DayStatus.COMPLETED)
    else if s == "CANCELLED" then Some(DayStatus.CANCELLED)
    else None
  }

  function NotificationTypeName(t: NotificationType): string {
    match t
    case INFO => "INFO"
    case WARNING => "WARNING"
    case SUCCESS => "SUCCESS"
    case ERROR => "ERROR"
    case REMINDER => "REMINDER"
  }

  function ParseNotificationType(s: string): (r: Option<NotificationType>)
    ensures r.Some? ==> NotificationTypeName(r.value) == s
    ensures forall x: NotificationType :: NotificationTypeName(x) == s ==> r == Some(x)
  {
    if s == "INFO" then Some(INFO)
    else if s == "WARNING" then Some(WARNING)
    else if s == "SUCCESS" then Some(SUCCESS)
    else if s == "ERROR" then Some(ERROR)
    else if s == "REMINDER" then Some(REMINDER)
    else None
  }

  /** Every enum label parses back to its value, so each enum is exactly its
      listed labels. */
  lemma EnumLabelsRoundTrip(r: Role, b: BlockStatus, d: DayStatus, t: NotificationType)
    ensures ParseRole(RoleName(r)) == Some(r)
    ensures ParseBlockStatus(BlockStatusName(b)) == Some(b)
    ensures ParseDayStatus(DayStatusName(d)) == Some(d)
    ensures ParseNotificationType(NotificationTypeName(t)) == Some(t)
  {
  }

  // ---------------------------------------------------------------------------
  // Rows

  datatype User = User(
    id: Id,
    email: Option<string>,
    firstName: Option<string>,
    lastName: Option<string>,
    profileImageUrl: Option<string>,
    name: string,
    phone: Option<string>,
    avatar: Option<string>,
    role: Role,
    isActive: bool,
    createdAt: Instant,
    updatedAt: Instant)

  datatype Territory = Territory(
    id: Id,
    name: string,
    mapImageUrl: Option<string>,
    totalBlocks: int,
    completedBlocks: int,
    completionRate: int,
    lastWorkedAt: Option<Instant>,
    isActive: bool,
    description: Option<string>,
    coordinates: Option<string>,
    createdAt: Instant,
    updatedAt: Instant)

  datatype Block = Block(
    id: Id,
    number: string,
    status: BlockStatus,
    territoryId: Id,
    lastWorkedAt: Option<Instant>,
    notes: Option<string>,
    createdAt: Instant,
    updatedAt: Instant)

  datatype PreachingDay = PreachingDay(
    id: Id,
    date: Instant,
    departureTime: string,
    meetingPlace: string,
    leaderId: Id,
    territoryId: Option<Id>,
    status: DayStatus,
    notes: Option<string>,
    createdAt: Instant,
    updatedAt: Instant)

  datatype Participation = Participation(
    id: Id,
    userId: Id,
    preachingDayId: Id,
    attendedAt: Option<Instant>,
    leftAt: Option<Instant>,
    notes: Option<string>,
    createdAt: Instant,
    updatedAt: Instant)

  datatype WorkSession = WorkSession(
    id: Id,
    preachingDayId: Id,
    blockId: Id,
    startedAt: Instant,
    finishedAt: Option<Instant>,
    notes: Option<string>,
    housesVisited: int,
    contactsMade: int,
    materialsLeft: int,
    createdAt: Instant,
    updatedAt: Instant)

  datatype Notification = Notification(
    id: Id,
    title: string,
    message: string,
    kind: NotificationType,
    isGlobal: bool,
    expiresAt: Option<Instant>,
    createdAt: Instant,
    updatedAt: Instant)

  datatype UserNotification = UserNotification(
    id: Id,
    userId: Id,
    notificationId: Id,
    readAt: Option<Instant>,
    createdAt: Instant)

  // ---------------------------------------------------------------------------
  // Insert payloads. Columns with a default are `Option`s whose `None` means
  // "use the default"; nullable columns without a default are `Option`s whose
  // `None` means NULL. `id`, `createdAt` and `updatedAt` are not fields: the
  // insert schemas omit them, so the server always assigns them.

  datatype InsertUser = InsertUser(
    email: Option<string>,
    firstName: Option<string>,
    lastName: Option<string>,
    profileImageUrl: Option<string>,
    name: string,
    phone: Option<string>,
    avatar: Option<string>,
    role: Option<Role>,
    isActive: Option<bool>)

  datatype InsertTerritory = InsertTerritory(
    name: string,
    mapImageUrl: Option<string>,
    totalBlocks: Option<int>,
    completedBlocks: Option<int>,
    completionRate: Option<int>,
    lastWorkedAt: Option<Instant>,
    isActive: Option<bool>,
    description: Option<string>,
    coordinates: Option<string>)

  datatype InsertBlock = InsertBlock(
    number: string,
    status: Option<BlockStatus>,
    territoryId: Id,
    lastWorkedAt: Option<Instant>,
    notes: Option<string>)

  datatype InsertPreachingDay = InsertPreachingDay(
    date: Instant,
    departureTime: string,
    meetingPlace: string,
    leaderId: Id,
    territoryId: Option<Id>,
    status: Option<DayStatus>,
    notes: Option<string>)

  datatype InsertParticipation = InsertParticipation(
    userId: Id,
    preachingDayId: Id,
    attendedAt: Option<Instant>,
    leftAt: Option<Instant>,
    notes: Option<string>)

  datatype InsertWorkSession = InsertWorkSession(
    preachingDayId: Id,
    blockId: Id,
    startedAt: Option<Instant>,
    finishedAt: Option<Instant>,
    notes: Option<string>,
    housesVisited: Option<int>,
    contactsMade: Option<int>,
    materialsLeft: Option<int>)

  datatype InsertNotification = InsertNotification(
    title: string,
    message: string,
    kind: Option<NotificationType>,
    isGlobal: Option<bool>,
    expiresAt: Option<Instant>)

  /** User-notification inserts omit `id` and `createdAt` (the table has no `updatedAt`). */
  datatype InsertUserNotification = InsertUserNotification(
    userId: Id,
    notificationId: Id,
    readAt: Option<Instant>)

  /** The sign-in payload: exactly the identity claims the upsert takes. Each
      claim may be absent from the object (`Keep`: the key is undefined, so the
      conflict update leaves the column alone and the insert stores null) or
      present, possibly as null. */
  datatype UpsertUserData = UpsertUserData(
    id: Id,
    email: Field<Option<string>>,
    firstName: Field<Option<string>>,
    lastName: Field<Option<string>>,
    profileImageUrl: Field<Option<string>>)

  /** The value an insert stores for a claim: an absent claim takes the column
      default, null. */
  function Claim(f: Field<Option<string>>): (r: Option<string>)
    ensures r == Merge(f, None)
  {
    if f.Put? then f.value else None
  }

  // ---------------------------------------------------------------------------
  // Row construction with column defaults

  /** The row `createUser` inserts: role MEMBER and active unless given. */
  function NewUser(id: Id, d: InsertUser, now: Instant): (u: User)
    ensures u.id == id && u.createdAt == now && u.updatedAt == now
    ensures d.role.None? ==> u.role == MEMBER
    ensures d.isActive.None? ==> u.isActive
    ensures u.name == d.name && u.email == d.email
  {
    User(id, d.email, d.firstName, d.lastName, d.profileImageUrl, d.name, d.phone,
         d.avatar, d.role.GetOr(MEMBER), d.isActive.GetOr(true), now, now)
  }

  /** The row `createTerritory` inserts: counters 0 and active unless given. */
  function NewTerritory(id: Id, d: InsertTerritory, now: Instant): (t: Territory)
    ensures t.id == id && t.createdAt == now && t.updatedAt == now
    ensures t.name == d.name
    ensures d.totalBlocks.None? ==> t.totalBlocks == 0
    ensures d.completedBlocks.None? ==> t.completedBlocks == 0
    ensures d.completionRate.None? ==> t.completionRate == 0
    ensures d.isActive.None? ==> t.isActive
  {
    Territory(id, d.name, d.mapImageUrl, d.totalBlocks.GetOr(0), d.completedBlocks.GetOr(0),
              d.completionRate.GetOr(0), d.lastWorkedAt, d.isActive.GetOr(true),
              d.description, d.coordinates, now, now)
  }

  /** The row `createBlock` inserts: PENDING unless given. */
  function NewBlock(id: Id, d: InsertBlock, now: Instant): (b: Block)
    ensures b.id == id && b.createdAt == now && b.updatedAt == now
    ensures b.number == d.number && b.territoryId == d.territoryId
    ensures d.status.None? ==> b.status == BlockStatus.PENDING
  {
    Block(id, d.number, d.status.GetOr(BlockStatus.PENDING), d.territoryId, d.lastWorkedAt,
          d.notes, now, now)
  }

  /** The row `createPreachingDay` inserts: SCHEDULED unless given. */
  function NewPreachingDay(id: Id, d: InsertPreachingDay, now: Instant): (p: PreachingDay)
    ensures p.id == id && p.createdAt == now && p.updatedAt == now
    ensures p.date == d.date && p.leaderId == d.leaderId && p.territoryId == d.territoryId
    ensures d.status.None? ==> p.status == DayStatus.SCHEDULED
  {
    PreachingDay(id, d.date, d.departureTime, d.meetingPlace, d.leaderId, d.territoryId,
                 d.status.GetOr(DayStatus.SCHEDULED), d.notes, now, now)
  }

  function NewParticipation(id: Id, d: InsertParticipation, now: Instant): (p: Participation)
    ensures p.id == id && p.createdAt == now && p.updatedAt == now
    ensures p.userId == d.userId && p.preachingDayId == d.preachingDayId
  {
    Participation(id, d.userId, d.preachingDayId, d.attendedAt, d.leftAt, d.notes, now, now)
  }

  /** The row `createWorkSession` inserts: counters 0 and `startedAt` now unless given. */
  function NewWorkSession(id: Id, d: InsertWorkSession, now: Instant): (w: WorkSession)
    ensures w.id == id && w.createdAt == now && w.updatedAt == now
    ensures d.startedAt.None? ==> w.startedAt == now
    ensures d.housesVisited.None? ==> w.housesVisited == 0
    ensures d.contactsMade.None? ==> w.contactsMade == 0
    ensures d.materialsLeft.None? ==> w.materialsLeft == 0
  {
    WorkSession(id, d.preachingDayId, d.blockId, d.startedAt.GetOr(now), d.finishedAt, d.notes,
                d.housesVisited.GetOr(0), d.contactsMade.GetOr(0), d.materialsLeft.GetOr(0),
                now, now)
  }

  /** The row `createNotification` inserts: type INFO and not global unless given. */
  function NewNotification(id: Id, d: InsertNotification, now: Instant): (n: Notification)
    ensures n.id == id && n.createdAt == now && n.updatedAt == now
    ensures d.kind.None? ==> n.kind == INFO
    ensures d.isGlobal.None? ==> !n.isGlobal
    ensures n.expiresAt == d.expiresAt
  {
    Notification(id, d.title, d.message, d.kind.GetOr(INFO), d.isGlobal.GetOr(false),
                 d.expiresAt, now, now)
  }

  function NewUserNotification(id: Id, d: InsertUserNotification, now: Instant): (u: UserNotification)
    ensures u.id == id && u.createdAt == now
    ensures u.userId == d.userId && u.notificationId == d.notificationId && u.readAt == d.readAt
  {
    UserNotification(id, d.userId, d.notificationId, d.readAt, now)
  }

  // ---------------------------------------------------------------------------
  // Partial updates (`insertXSchema.partial()`): `Keep` leaves a column as it
  // is, `Put(v)` overwrites it. Server-assigned columns are absent, so an
  // update can never change `id` or `createdAt`.

  datatype Field<T> = Keep | Put(value: T)

  function Merge<T>(f: Field<T>, current: T): (r: T)
    ensures f.Keep? ==> r == current
    ensures f.Put? ==> r == f.value
  {
    match f
    case Keep => current
    case Put(v) => v
  }

  datatype TerritoryPatch = TerritoryPatch(
    name: Field<string>,
    mapImageUrl: Field<Option<string>>,
    totalBlocks: Field<int>,
    completedBlocks: Field<int>,
    completionRate: Field<int>,
    lastWorkedAt: Field<Option<Instant>>,
    isActive: Field<bool>,
    description: Field<Option<string>>,
    coordinates: Field<Option<string>>)

  datatype BlockPatch = BlockPatch(
    number: Field<string>,
    status: Field<BlockStatus>,
    territoryId: Field<Id>,
    lastWorkedAt: Field<Option<Instant>>,
    notes: Field<Option<string>>)

  datatype PreachingDayPatch = PreachingDayPatch(
    date: Field<Instant>,
    departureTime: Field<string>,
    meetingPlace: Field<string>,
    leaderId: Field<Id>,
    territoryId: Field<Option<Id>>,
    status: Field<DayStatus>,
    notes: Field<Option<string>>)

  datatype ParticipationPatch = ParticipationPatch(
    userId: Field<Id>,
    preachingDayId: Field<Id>,
    attendedAt: Field<Option<Instant>>,
    leftAt: Field<Option<Instant>>,
    notes: Field<Option<string>>)

  datatype WorkSessionPatch = WorkSessionPatch(
    preachingDayId: Field<Id>,
    blockId: Field<Id>,
    startedAt: Field<Instant>,
    finishedAt: Field<Option<Instant>>,
    notes: Field<Option<string>>,
    housesVisited: Field<int>,
    contactsMade: Field<int>,
    materialsLeft: Field<int>)

  /** `set({ ...patch, updatedAt: now })` on one territory row. */
  function PatchTerritory(t: Territory, p: TerritoryPatch, now: Instant): Territory {
    Territory(t.id, Merge(p.name, t.name), Merge(p.mapImageUrl, t.mapImageUrl),
              Merge(p.totalBlocks, t.totalBlocks), Merge(p.completedBlocks, t.completedBlocks),
              Merge(p.completionRate, t.completionRate), Merge(p.lastWorkedAt, t.lastWorkedAt),
              Merge(p.isActive, t.isActive), Merge(p.description, t.description),
              Merge(p.coordinates, t.coordinates), t.createdAt, now)
  }

  function PatchBlock(b: Block, p: BlockPatch, now: Instant): Block {
    Block(b.id, Merge(p.number, b.number), Merge(p.status, b.status),
          Merge(p.territoryId, b.territoryId), Merge(p.lastWorkedAt, b.lastWorkedAt),
          Merge(p.notes, b.notes), b.createdAt, now)
  }

  function PatchPreachingDay(d: PreachingDay, p: PreachingDayPatch, now: Instant): PreachingDay {
    PreachingDay(d.id, Merge(p.date, d.date), Merge(p.departureTime, d.departureTime),
                 Merge(p.meetingPlace, d.meetingPlace), Merge(p.leaderId, d.leaderId),
                 Merge(p.territoryId, d.territoryId), Merge(p.status, d.status),
                 Merge(p.notes, d.notes), d.createdAt, now)
  }

  function PatchParticipation(x: Participation, p: ParticipationPatch, now: Instant): Participation {
    Participation(x.id, Merge(p.userId, x.userId), Merge(p.preachingDayId, x.preachingDayId),
                  Merge(p.attendedAt, x.attendedAt), Merge(p.leftAt, x.leftAt),
                  Merge(p.notes, x.notes), x.createdAt, now)
  }

  function PatchWorkSession(w: WorkSession, p: WorkSessionPatch, now: Instant): WorkSession {
    WorkSession(w.id, Merge(p.preachingDayId, w.preachingDayId), Merge(p.blockId, w.blockId),
                Merge(p.startedAt, w.startedAt), Merge(p.finishedAt, w.finishedAt),
                Merge(p.notes, w.notes), Merge(p.housesVisited, w.housesVisited),
                Merge(p.contactsMade, w.contactsMade), Merge(p.materialsLeft, w.materialsLeft),
                w.createdAt, now)
  }

  /** An empty patch only restamps `updatedAt`; a patch keeps `id` and
      `createdAt`; applying the same patch twice is applying it once. */
  lemma PatchTerritoryLaws(t: Territory, p: TerritoryPatch, now: Instant)
    ensures PatchTerritory(t, TerritoryPatch(Keep, Keep, Keep, Keep, Keep, Keep, Keep, Keep, Keep), now)
            == t.(updatedAt := now)
    ensures PatchTerritory(t, p, now).id == t.id
    ensures PatchTerritory(t, p, now).createdAt == t.createdAt
    ensures PatchTerritory(PatchTerritory(t, p, now), p, now) == PatchTerritory(t, p, now)
  {
  }

  // ---------------------------------------------------------------------------
  // The store and its constraints

  datatype Db = Db(
    users: seq<User>,
    territories: seq<Territory>,
    blocks: seq<Block>,
    days: seq<PreachingDay>,
    participations: seq<Participation>,
    sessions: seq<WorkSession>,
    notifications: seq<Notification>,
    userNotifications: seq<UserNotification>)

  function UserId(u: User): Id { u.id }
  function UserEmail(u: User): Option<string> { u.email }
  function TerritoryId(t: Territory): Id { t.id }
  function TerritoryName(t: Territory): string { t.name }
  function BlockId(b: Block): Id { b.id }
  function BlockKey(b: Block): (Id, string) { (b.territoryId, b.number) }
  function DayId(d: PreachingDay): Id { d.id }
  function DayDate(d: PreachingDay): Instant { d.date }
  function ParticipationId(p: Participation): Id { p.id }
  function ParticipationKey(p: Participation): (Id, Id) { (p.userId, p.preachingDayId) }
  function SessionId(w: WorkSession): Id { w.id }
  function NotificationId(n: Notification): Id { n.id }
  function UserNotificationId(u: UserNotification): Id { u.id }
  function UserNotificationKey(u: UserNotification): (Id, Id) { (u.userId, u.notificationId) }

  /** The constraints the database enforces: primary keys and the declared
      unique columns. No foreign key is declared, so none is enforced. */
  predicate Valid(db: Db) {
    && UniqueKey(db.users, UserId)
    && UniqueWhenPresent(db.users, UserEmail)
    && UniqueKey(db.territories, TerritoryId)
    && UniqueKey(db.territories, TerritoryName)
    && UniqueKey(db.blocks, BlockId)
    && UniqueKey(db.blocks, BlockKey)
    && UniqueKey(db.days, DayId)
    && UniqueKey(db.days, DayDate)
    && UniqueKey(db.participations, ParticipationId)
    && UniqueKey(db.participations, ParticipationKey)
    && UniqueKey(db.sessions, SessionId)
    && UniqueKey(db.notifications, NotificationId)
    && UniqueKey(db.userNotifications, UserNotificationId)
    && UniqueKey(db.userNotifications, UserNotificationKey)
  }

  const EmptyDb: Db := Db([], [], [], [], [], [], [], [])

  lemma EmptyDbValid()
    ensures Valid(EmptyDb)
  {
  }
}

=== FILE: storage.dfy ===
/** The `DatabaseStorage` class of the server: each method is a pure function of
    the store state (and, for writes, the server-assigned id and the clock
    reading `now`), answering the rows the SQL statement returns and the new
    state. Writes that hit a unique or primary-key constraint answer a
    `StoreError`, which the routes turn into a 500. */
module Storage {
  import opened Common
  import opened Time
  import opened Tables
  import opened Schema

  // ---------------------------------------------------------------------------
  // Sort keys of the `orderBy` clauses

  function BlockNumber(b: Block): string { b.number }
  function ParticipationCreated(p: Participation): int { p.createdAt }
  function SessionStart(w: WorkSession): int { w.startedAt }
  function NotificationCreated(n: Notification): int { n.createdAt }
  function UserNotificationCreated(u: UserNotification): int { u.createdAt }

  // ---------------------------------------------------------------------------
  // Users

  /** `getUser`: the row with that id, if any. */
  function GetUser(db: Db, id: Id): (r: Option<User>)
    ensures r.Some? ==> r.value in db.users && r.value.id == id
    ensures r.None? <==> forall i :: 0 <= i < |db.users| ==> db.users[i].id != id
  {
    Lookup(db.users, UserId, id)
  }

  /** The display name `upsertUser` stores: "first last" when both name claims
      are non-empty, otherwise the e-mail claim when it is non-empty, otherwise
      "Usuário". An absent claim counts as empty, even when the stored row has
      that column. It is never empty. */
  function DisplayName(d: UpsertUserData): (name: string)
    ensures name != ""
    ensures Truthy(Claim(d.firstName)) && Truthy(Claim(d.lastName)) ==>
              name == d.firstName.value.value + " " + d.lastName.value.value
    ensures !(Truthy(Claim(d.firstName)) && Truthy(Claim(d.lastName))) && Truthy(Claim(d.email)) ==>
              name == d.email.value.value
    ensures !(Truthy(Claim(d.firstName)) && Truthy(Claim(d.lastName))) && !Truthy(Claim(d.email)) ==>
              name == "Usuário"
  {
    var first, last, email := Claim(d.firstName), Claim(d.lastName), Claim(d.email);
    if Truthy(first) && Truthy(last) then first.value + " " + last.value
    else if Truthy(email) then email.value
    else "Usuário"
  }

  /** Another user (a row with a different id) already has this e-mail. */
  predicate EmailTakenByOther(users: seq<User>, id: Id, email: Option<string>) {
    email.Some? && exists i :: 0 <= i < |users| && users[i].id != id && users[i].email == email
  }

  /** The columns the sign-in upsert writes on an existing row: the claims
      present in the payload, the name and `updatedAt`. */
  function SignInColumns(u: User, d: UpsertUserData, now: Instant): User {
    u.(email := Merge(d.email, u.email), firstName := Merge(d.firstName, u.firstName),
       lastName := Merge(d.lastName, u.lastName),
       profileImageUrl := Merge(d.profileImageUrl, u.profileImageUrl),
       name := DisplayName(d), updatedAt := now)
  }

  /** The e-mail the upserted row ends up with: the claim on insert, the claim
      merged into the stored column on conflict. */
  function UpsertedEmail(db: Db, d: UpsertUserData): Option<string> {
    match GetUser(db, d.id)
    case None => Claim(d.email)
    case Some(prev) => Merge(d.email, prev.email)
  }

  /** `upsertUser`: `insert ... on conflict (id) do update`. A new id inserts a
      MEMBER row with the claims (null where absent); a known id overwrites the
      claims present in the payload, keeps the columns of absent ones, rewrites
      the name and keeps role, activity, phone, avatar and creation time. An
      e-mail that ends up equal to another user's violates `users_email_unique`. */
  function UpsertUser(db: Db, d: UpsertUserData, now: Instant): (r: Result<(Db, User)>)
    ensures r.Err? <==> EmailTakenByOther(db.users, d.id, UpsertedEmail(db, d))
    ensures r.Ok? ==>
              var u := r.value.1;
              && u.id == d.id && u.email == UpsertedEmail(db, d)
              && u.name == DisplayName(d) && u.updatedAt == now
              && r.value.0 == db.(users := r.value.0.users)
    ensures r.Ok? && GetUser(db, d.id).None? ==>
              && r.value.0.users == db.users + [r.value.1]
              && r.value.1.email == Claim(d.email) && r.value.1.firstName == Claim(d.firstName)
              && r.value.1.lastName == Claim(d.lastName)
              && r.value.1.profileImageUrl == Claim(d.profileImageUrl)
              && r.value.1.role == MEMBER && r.value.1.isActive && r.value.1.createdAt == now
              && r.value.1.phone.None? && r.value.1.avatar.None?
    ensures r.Ok? && GetUser(db, d.id).Some? ==>
              var prev := GetUser(db, d.id).value;
              && |r.value.0.users| == |db.users|
              && (forall i :: 0 <= i < |db.users| ==>
                    r.value.0.users[i] == if db.users[i].id == d.id
                                          then SignInColumns(db.users[i], d, now) else db.users[i])
              && r.value.1.email == Merge(d.email, prev.email)
              && r.value.1.firstName == Merge(d.firstName, prev.firstName)
              && r.value.1.lastName == Merge(d.lastName, prev.lastName)
              && r.value.1.profileImageUrl == Merge(d.profileImageUrl, prev.profileImageUrl)
              && r.value.1.role == prev.role && r.value.1.isActive == prev.isActive
              && r.value.1.createdAt == prev.createdAt
              && r.value.1.phone == prev.phone && r.value.1.avatar == prev.avatar
  {
    if EmailTakenByOther(db.users, d.id, UpsertedEmail(db, d)) then Err(DuplicateKey("users_email_unique"))
    else
      match Lookup(db.users, UserId, d.id)
      case None =>
        var u := User(d.id, Claim(d.email), Claim(d.firstName), Claim(d.lastName),
                      Claim(d.profileImageUrl), DisplayName(d), None, None, MEMBER, true, now, now);
        Ok((db.(users := db.users + [u]), u))
      case Some(prev) =>
        Ok((db.(users := UpdateWhere(db.users, (x: User) => x.id == d.id, (x: User) => SignInColumns(x, d, now))),
            SignInColumns(prev, d, now)))
  }

  /** `createUser`: inserts a row with the column defaults. */
  function CreateUser(db: Db, d: InsertUser, id: Id, now: Instant): (r: Result<(Db, User)>)
    ensures r.Ok? <==> GetUser(db, id).None? && !EmailTakenByOther(db.users, id, d.email)
    ensures r.Ok? ==> r.value.1 == NewUser(id, d, now)
                      && r.value.0 == db.(users := db.users + [r.value.1])
  {
    var u := NewUser(id, d, now);
    if KeyTaken(db.users, UserId, id) then Err(DuplicateKey("primary key"))
    else if EmailTakenByOther(db.users, id, d.email) then Err(DuplicateKey("users_email_unique"))
    else Ok((db.(users := db.users + [u]), u))
  }

  // ---------------------------------------------------------------------------
  // Territories

  predicate ActiveTerritory(t: Territory) { t.isActive }

  /** `getTerritories`: the active territories (each as often as stored),
      ascending by name. */
  function GetTerritories(db: Db): (r: seq<Territory>)
    ensures forall t :: multiset(r)[t] == if t.isActive then multiset(db.territories)[t] else 0
    ensures forall t :: t in r <==> t in db.territories && t.isActive
    ensures forall i, j :: 0 <= i < j < |r| ==> LexLe(r[i].name, r[j].name)
  {
    LexByIsPreorder(TerritoryName);
    var r := Select(db.territories, ActiveTerritory, LexBy(TerritoryName));
    SortedLex(r, TerritoryName);
    r
  }

  /** `getTerritory`: the row with that id, active or not. */
  function GetTerritory(db: Db, id: Id): (r: Option<Territory>)
    ensures r.Some? ==> r.value in db.territories && r.value.id == id
    ensures r.None? <==> forall i :: 0 <= i < |db.territories| ==> db.territories[i].id != id
  {
    Lookup(db.territories, TerritoryId, id)
  }

  function CreateTerritory(db: Db, d: InsertTerritory, id: Id, now: Instant)
    : (r: Result<(Db, Territory)>)
    ensures r.Ok? <==> GetTerritory(db, id).None?
                       && forall i :: 0 <= i < |db.territories| ==> db.territories[i].name != d.name
    ensures r.Ok? ==> r.value.1 == NewTerritory(id, d, now)
                      && r.value.0 == db.(territories := db.territories + [r.value.1])
  {
    var t := NewTerritory(id, d, now);
    match InsertRow(db.territories, TerritoryId, TerritoryName, t, "territories_name_unique")
    case Ok(rows) => Ok((db.(territories := rows), t))
    case Err(e) => Err(e)
  }

  /** `updateTerritory`: rewrites the supplied columns and `updatedAt` of the
      row with that id; an unknown id changes nothing and answers nothing. */
  function UpdateTerritory(db: Db, id: Id, p: TerritoryPatch, now: Instant)
    : (r: Result<(Db, Option<Territory>)>)
    ensures GetTerritory(db, id).None? ==> r == Ok((db, None))
    ensures r.Err? <==> GetTerritory(db, id).Some?
                        && exists j :: 0 <= j < |db.territories| && db.territories[j].id != id
                                       && db.territories[j].name == Merge(p.name, GetTerritory(db, id).value.name)
    ensures r.Ok? ==>
              && r.value.0 == db.(territories := r.value.0.territories)
              && |r.value.0.territories| == |db.territories|
              && (forall i :: 0 <= i < |db.territories| ==>
                    r.value.0.territories[i] == if db.territories[i].id == id
                                                then PatchTerritory(db.territories[i], p, now)
                                                else db.territories[i])
    ensures r.Ok? && GetTerritory(db, id).Some? ==>
              r.value.1 == Some(PatchTerritory(GetTerritory(db, id).value, p, now))
  {
    match UpdateById(db.territories, TerritoryId, TerritoryName, id,
                     t => PatchTerritory(t, p, now), "territories_name_unique")
    case Ok((rows, t)) => Ok((db.(territories := rows), t))
    case Err(e) => Err(e)
  }

  /** `deleteTerritory`: a soft delete. No row goes away; the row with that id
      becomes inactive and is restamped. */
  function DeleteTerritory(db: Db, id: Id, now: Instant): (r: Db)
    ensures r == db.(territories := r.territories)
    ensures |r.territories| == |db.territories|
    ensures forall i :: 0 <= i < |db.territories| ==>
              r.territories[i] == if db.territories[i].id == id
                                  then db.territories[i].(isActive := false, updatedAt := now)
                                  else db.territories[i]
  {
    db.(territories := UpdateWhere(db.territories, (t: Territory) => t.id == id,
                                   (t: Territory) => t.(isActive := false, updatedAt := now)))
  }

  // ---------------------------------------------------------------------------
  // Blocks

  /** `getBlocks`: the blocks of one territory, ascending by number (as text). */
  function GetBlocks(db: Db, territoryId: Id): (r: seq<Block>)
    ensures forall b :: multiset(r)[b] == if b.territoryId == territoryId then multiset(db.blocks)[b] else 0
    ensures forall i, j :: 0 <= i < j < |r| ==> LexLe(r[i].number, r[j].number)
  {
    LexByIsPreorder(BlockNumber);
    var r := Select(db.blocks, (b: Block) => b.territoryId == territoryId, LexBy(BlockNumber));
    SortedLex(r, BlockNumber);
    r
  }

  function GetBlock(db: Db, id: Id): (r: Option<Block>)
    ensures r.Some? ==> r.value in db.blocks && r.value.id == id
    ensures r.None? <==> forall i :: 0 <= i < |db.blocks| ==> db.blocks[i].id != id
  {
    Lookup(db.blocks, BlockId, id)
  }

  function CreateBlock(db: Db, d: InsertBlock, id: Id, now: Instant): (r: Result<(Db, Block)>)
    ensures r.Ok? <==> GetBlock(db, id).None?
                       && forall i :: 0 <= i < |db.blocks| ==>
                            (db.blocks[i].territoryId, db.blocks[i].number) != (d.territoryId, d.number)
    ensures r.Ok? ==> r.value.1 == NewBlock(id, d, now)
                      && r.value.0 == db.(blocks := db.blocks + [r.value.1])
  {
    var b := NewBlock(id, d, now);
    match InsertRow(db.blocks, BlockId, BlockKey, b, "blocks_territory_id_number_unique")
    case Ok(rows) => Ok((db.(blocks := rows), b))
    case Err(e) => Err(e)
  }

  function UpdateBlock(db: Db, id: Id, p: BlockPatch, now: Instant): (r: Result<(Db, Option<Block>)>)
    ensures GetBlock(db, id).None? ==> r == Ok((db, None))
    ensures r.Err? <==> GetBlock(db, id).Some?
                        && exists j :: 0 <= j < |db.blocks| && db.blocks[j].id != id
                                       && BlockKey(db.blocks[j]) == BlockKey(PatchBlock(GetBlock(db, id).value, p, now))
    ensures r.Ok? ==>
              && r.value.0 == db.(blocks := r.value.0.blocks)
              && |r.value.0.blocks| == |db.blocks|
              && (forall i :: 0 <= i < |db.blocks| ==>
                    r.value.0.blocks[i] == if db.blocks[i].id == id
                                           then PatchBlock(db.blocks[i], p, now) else db.blocks[i])
    ensures r.Ok? && GetBlock(db, id).Some? ==> r.value.1 == Some(PatchBlock(GetBlock(db, id).value, p, now))
  {
    match UpdateById(db.blocks, BlockId, BlockKey, id, b => PatchBlock(b, p, now),
                     "blocks_territory_id_number_unique")
    case Ok((rows, b)) => Ok((db.(blocks := rows), b))
    case Err(e) => Err(e)
  }

  // ---------------------------------------------------------------------------
  // Preaching days

  /** The range filter of `getPreachingDays`: applied only when both bounds are given. */
  predicate InDateRange(t: Instant, start: Option<Instant>, end: Option<Instant>) {
    start.None? || end.None? || (start.value <= t && t <= end.value)
  }

  /** `getPreachingDays`: the days within [start, end] (all days unless both
      bounds are given), ascending by date. */
  function GetPreachingDays(db: Db, start: Option<Instant>, end: Option<Instant>): (r: seq<PreachingDay>)
    ensures forall d :: multiset(r)[d] == if InDateRange(d.date, start, end) then multiset(db.days)[d] else 0
    ensures forall i, j :: 0 <= i < j < |r| ==> r[i].date <= r[j].date
  {
    AscByIsPreorder(DayDate);
    var r := if start.Some? && end.Some? then
               Select(db.days, (d: PreachingDay) => start.value <= d.date <= end.value, AscBy(DayDate))
             else
               Select(db.days, (d: PreachingDay) => true, AscBy(DayDate));
    SortedAsc(r, DayDate);
    r
  }

  function GetPreachingDay(db: Db, id: Id): (r: Option<PreachingDay>)
    ensures r.Some? ==> r.value in db.days && r.value.id == id
    ensures r.None? <==> forall i :: 0 <= i < |db.days| ==> db.days[i].id != id
  {
    Lookup(db.days, DayId, id)
  }

  /** `getPreachingDayByDate`: a day whose date lies between local 00:00:00.000
      and 23:59:59.999 of the calendar day of `t`; nothing when there is none.
      Several days can share a calendar day; the first stored one is answered. */
  function GetPreachingDayByDate(db: Db, t: Instant, offset: int): (r: Option<PreachingDay>)
    ensures r.Some? ==> r.value in db.days && LocalDay(r.value.date, offset) == LocalDay(t, offset)
    ensures r.None? <==> forall i :: 0 <= i < |db.days| ==> LocalDay(db.days[i].date, offset) != LocalDay(t, offset)
  {
    SameDayWindowAll(t, offset);
    Find(db.days, (d: PreachingDay) => StartOfDay(t, offset) <= d.date <= EndOfDay(t, offset))
  }

  function CreatePreachingDay(db: Db, d: InsertPreachingDay, id: Id, now: Instant)
    : (r: Result<(Db, PreachingDay)>)
    ensures r.Ok? <==> GetPreachingDay(db, id).None?
                       && forall i :: 0 <= i < |db.days| ==> db.days[i].date != d.date
    ensures r.Ok? ==> r.value.1 == NewPreachingDay(id, d, now)
                      && r.value.0 == db.(days := db.days + [r.value.1])
  {
    var day := NewPreachingDay(id, d, now);
    match InsertRow(db.days, DayId, DayDate, day, "preaching_days_date_unique")
    case Ok(rows) => Ok((db.(days := rows), day))
    case Err(e) => Err(e)
  }

  function UpdatePreachingDay(db: Db, id: Id, p: PreachingDayPatch, now: Instant)
    : (r: Result<(Db, Option<PreachingDay>)>)
    ensures GetPreachingDay(db, id).None? ==> r == Ok((db, None))
    ensures r.Err? <==> GetPreachingDay(db, id).Some?
                        && exists j :: 0 <= j < |db.days| && db.days[j].id != id
                                       && db.days[j].date == Merge(p.date, GetPreachingDay(db, id).value.date)
    ensures r.Ok? ==>
              && r.value.0 == db.(days := r.value.0.days)
              && |r.value.0.days| == |db.days|
              && (forall i :: 0 <= i < |db.days| ==>
                    r.value.0.days[i] == if db.days[i].id == id
                                         then PatchPreachingDay(db.days[i], p, now) else db.days[i])
    ensures r.Ok? && GetPreachingDay(db, id).Some? ==>
              r.value.1 == Some(PatchPreachingDay(GetPreachingDay(db, id).value, p, now))
  {
    match UpdateById(db.days, DayId, DayDate, id, d => PatchPreachingDay(d, p, now),
                     "preaching_days_date_unique")
    case Ok((rows, d)) => Ok((db.(days := rows), d))
    case Err(e) => Err(e)
  }

  /** `deletePreachingDay`: a hard delete; the other days stay, in order. Rows
      that refer to the day are not touched (no foreign key is declared). */
  function DeletePreachingDay(db: Db, id: Id): (r: Db)
    ensures r == db.(days := r.days)
    ensures forall d :: d in r.days <==> d in db.days && d.id != id
    ensures IsSubsequence(r.days, db.days)
  {
    db.(days := DeleteById(db.days, DayId, id))
  }

  // ---------------------------------------------------------------------------
  // Participations

  /** `getParticipations`: the participations of one day, newest first. */
  function GetParticipations(db: Db, dayId: Id): (r: seq<Participation>)
    ensures forall p :: multiset(r)[p] == if p.preachingDayId == dayId then multiset(db.participations)[p] else 0
    ensures forall i, j :: 0 <= i < j < |r| ==> r[i].createdAt >= r[j].createdAt
  {
    DescByIsPreorder(ParticipationCreated);
    var r := Select(db.participations, (p: Participation) => p.preachingDayId == dayId, DescBy(ParticipationCreated));
    SortedDesc(r, ParticipationCreated);
    r
  }

  /** `getUserParticipations`: the participations of one user, newest first. */
  function GetUserParticipations(db: Db, userId: Id): (r: seq<Participation>)
    ensures forall p :: multiset(r)[p] == if p.userId == userId then multiset(db.participations)[p] else 0
    ensures forall i, j :: 0 <= i < j < |r| ==> r[i].createdAt >= r[j].createdAt
  {
    DescByIsPreorder(ParticipationCreated);
    var r := Select(db.participations, (p: Participation) => p.userId == userId, DescBy(ParticipationCreated));
    SortedDesc(r, ParticipationCreated);
    r
  }

  function GetParticipation(db: Db, id: Id): (r: Option<Participation>)
    ensures r.Some? ==> r.value in db.participations && r.value.id == id
    ensures r.None? <==> forall i :: 0 <= i < |db.participations| ==> db.participations[i].id != id
  {
    Lookup(db.participations, ParticipationId, id)
  }

  function CreateParticipation(db: Db, d: InsertParticipation, id: Id, now: Instant)
    : (r: Result<(Db, Participation)>)
    ensures r.Ok? <==> GetParticipation(db, id).None?
                       && forall i :: 0 <= i < |db.participations| ==>
                            (db.participations[i].userId, db.participations[i].preachingDayId)
                            != (d.userId, d.preachingDayId)
    ensures r.Ok? ==> r.value.1 == NewParticipation(id, d, now)
                      && r.value.0 == db.(participations := db.participations + [r.value.1])
  {
    var p := NewParticipation(id, d, now);
    match InsertRow(db.participations, ParticipationId, ParticipationKey, p,
                    "participations_user_id_preaching_day_id_unique")
    case Ok(rows) => Ok((db.(participations := rows), p))
    case Err(e) => Err(e)
  }

  function UpdateParticipation(db: Db, id: Id, p: ParticipationPatch, now: Instant)
    : (r: Result<(Db, Option<Participation>)>)
    ensures GetParticipation(db, id).None? ==> r == Ok((db, None))
    ensures r.Err? <==> GetParticipation(db, id).Some?
                        && exists j :: 0 <= j < |db.participations| && db.participations[j].id != id
                                       && ParticipationKey(db.participations[j])
                                          == ParticipationKey(PatchParticipation(GetParticipation(db, id).value, p, now))
    ensures r.Ok? ==>
              && r.value.0 == db.(participations := r.value.0.participations)
              && |r.value.0.participations| == |db.participations|
              && (forall i :: 0 <= i < |db.participations| ==>
                    r.value.0.participations[i] == if db.participations[i].id == id
                                                   then PatchParticipation(db.participations[i], p, now)
                                                   else db.participations[i])
    ensures r.Ok? && GetParticipation(db, id).Some? ==>
              r.value.1 == Some(PatchParticipation(GetParticipation(db, id).value, p, now))
  {
    match UpdateById(db.participations, ParticipationId, ParticipationKey, id,
                     x => PatchParticipation(x, p, now), "participations_user_id_preaching_day_id_unique")
    case Ok((rows, x)) => Ok((db.(participations := rows), x))
    case Err(e) => Err(e)
  }

  function DeleteParticipation(db: Db, id: Id): (r: Db)
    ensures r == db.(participations := r.participations)
    ensures forall p :: p in r.participations <==> p in db.participations && p.id != id
    ensures IsSubsequence(r.participations, db.participations)
  {
    db.(participations := DeleteById(db.participations, ParticipationId, id))
  }

  // ---------------------------------------------------------------------------
  // Work sessions

  /** The intended filter of `getWorkSessions`: each id that is given (non-empty)
      must match. */
  predicate SessionMatches(w: WorkSession, dayId: Option<Id>, blockId: Option<Id>) {
    && (!Truthy(dayId) || w.preachingDayId == dayId.value)
    && (!Truthy(blockId) || w.blockId == blockId.value)
  }

  /** `getWorkSessions`: filters on both ids, on whichever one is given, or not
      at all; newest start first. */
  function GetWorkSessions(db: Db, dayId: Option<Id>, blockId: Option<Id>): (r: seq<WorkSession>)
    ensures forall w :: multiset(r)[w] == if SessionMatches(w, dayId, blockId) then multiset(db.sessions)[w] else 0
    ensures forall i, j :: 0 <= i < j < |r| ==> r[i].startedAt >= r[j].startedAt
  {
    DescByIsPreorder(SessionStart);
    var r := if Truthy(dayId) && Truthy(blockId) then
               Select(db.sessions, (w: WorkSession) => w.preachingDayId == dayId.value && w.blockId == blockId.value,
                      DescBy(SessionStart))
             else if Truthy(dayId) then
               Select(db.sessions, (w: WorkSession) => w.preachingDayId == dayId.value, DescBy(SessionStart))
             else if Truthy(blockId) then
               Select(db.sessions, (w: WorkSession) => w.blockId == blockId.value, DescBy(SessionStart))
             else
               Select(db.sessions, (w: WorkSession) => true, DescBy(SessionStart));
    SortedDesc(r, SessionStart);
    r
  }

  function GetWorkSession(db: Db, id: Id): (r: Option<WorkSession>)
    ensures r.Some? ==> r.value in db.sessions && r.value.id == id
    ensures r.None? <==> forall i :: 0 <= i < |db.sessions| ==> db.sessions[i].id != id
  {
    Lookup(db.sessions, SessionId, id)
  }

  function CreateWorkSession(db: Db, d: InsertWorkSession, id: Id, now: Instant)
    : (r: Result<(Db, WorkSession)>)
    ensures r.Ok? <==> GetWorkSession(db, id).None?
    ensures r.Ok? ==> r.value.1 == NewWorkSession(id, d, now)
                      && r.value.0 == db.(sessions := db.sessions + [r.value.1])
  {
    var w := NewWorkSession(id, d, now);
    match InsertRow(db.sessions, SessionId, SessionId, w, "primary key")
    case Ok(rows) => Ok((db.(sessions := rows), w))
    case Err(e) => Err(e)
  }

  /** `updateWorkSession`: the table has no unique column besides the id, so an
      update is never rejected. */
  function UpdateWorkSession(db: Db, id: Id, p: WorkSessionPatch, now: Instant)
    : (r: Result<(Db, Option<WorkSession>)>)
    ensures r.Ok?
    ensures GetWorkSession(db, id).None? ==> r.value == (db, None)
    ensures r.value.0 == db.(sessions := r.value.0.sessions)
    ensures |r.value.0.sessions| == |db.sessions|
    ensures forall i :: 0 <= i < |db.sessions| ==>
              r.value.0.sessions[i] == if db.sessions[i].id == id
                                       then PatchWorkSession(db.sessions[i], p, now) else db.sessions[i]
    ensures GetWorkSession(db, id).Some? ==>
              r.value.1 == Some(PatchWorkSession(GetWorkSession(db, id).value, p, now))
  {
    match UpdateById(db.sessions, SessionId, SessionId, id, w => PatchWorkSession(w, p, now), "primary key")
    case Ok((rows, w)) => Ok((db.(sessions := rows), w))
    case Err(e) => Err(e)
  }

  // ---------------------------------------------------------------------------
  // Notifications

  /** `expiresAt IS NULL OR expiresAt > NOW()`. */
  predicate Unexpired(n: Notification, now: Instant) {
    n.expiresAt.None? || n.expiresAt.value > now
  }

  /** Some user-notification row links notification `n` to user `uid`. */
  predicate Linked(n: Notification, links: seq<UserNotification>, uid: Id) {
    exists i :: 0 <= i < |links| && links[i].notificationId == n.id && links[i].userId == uid
  }

  /** The visibility rule: unexpired, and global or linked to the caller. A
      missing or empty caller id sees the global notifications only. */
  predicate VisibleTo(n: Notification, uid: Option<Id>, links: seq<UserNotification>, now: Instant) {
    Unexpired(n, now) && (n.isGlobal || (Truthy(uid) && Linked(n, links, uid.value)))
  }

  /** The visibility rule for a caller id. */
  predicate LinkedVisible(n: Notification, links: seq<UserNotification>, uid: Id, now: Instant) {
    Unexpired(n, now) && (n.isGlobal || Linked(n, links, uid))
  }

  type JoinedRow = (Notification, Option<UserNotification>)

  /** The join condition: `notificationId = notifications.id and userId = uid`. */
  function LinkMatches(nid: Id, uid: Id): UserNotification -> bool {
    (l: UserNotification) => l.notificationId == nid && l.userId == uid
  }

  /** The left join for one notification: one joined row per matching link, or
      one row with NULLs when no link matches. */
  function JoinOne(n: Notification, links: seq<UserNotification>, uid: Id): seq<JoinedRow> {
    var m := Filter(links, LinkMatches(n.id, uid));
    if m == [] then [(n, None)] else Map(m, l => (n, Some(l)))
  }

  /** `notifications left join userNotifications on (...)`. */
  function LeftJoin(ns: seq<Notification>, links: seq<UserNotification>, uid: Id): seq<JoinedRow> {
    if ns == [] then [] else JoinOne(ns[0], links, uid) + LeftJoin(ns[1..], links, uid)
  }

  /** The `where` clause on a joined row; a NULL `userNotifications.userId`
      never equals the caller. */
  predicate KeepJoined(row: JoinedRow, uid: Id, now: Instant) {
    Unexpired(row.0, now) && (row.0.isGlobal || (row.1.Some? && row.1.value.userId == uid))
  }

  function KeepJoinedFor(uid: Id, now: Instant): JoinedRow -> bool {
    row => KeepJoined(row, uid, now)
  }

  function NotificationOf(row: JoinedRow): Notification { row.0 }

  /** The notification columns of the joined rows that pass the `where` clause,
      before ordering. */
  function JoinedVisible(ns: seq<Notification>, links: seq<UserNotification>, uid: Id, now: Instant)
    : seq<Notification>
  {
    Map(Filter(LeftJoin(ns, links, uid), KeepJoinedFor(uid, now)), NotificationOf)
  }

  /** `getNotifications`: with a caller id, the filtered left join; without
      one, the unexpired global notifications; newest first in both cases. */
  function GetNotifications(db: Db, uid: Option<Id>, now: Instant): (r: seq<Notification>)
    ensures forall n :: n in r <==> n in db.notifications && VisibleTo(n, uid, db.userNotifications, now)
    ensures forall i, j :: 0 <= i < j < |r| ==> r[i].createdAt >= r[j].createdAt
  {
    DescByIsPreorder(NotificationCreated);
    var r := if Truthy(uid) then
               var joined := JoinedVisible(db.notifications, db.userNotifications, uid.value, now);
               JoinedVisibleMembers(db.notifications, db.userNotifications, uid.value, now);
               SortBySorted(joined, DescBy(NotificationCreated));
               SameMembers(SortBy(joined, DescBy(NotificationCreated)), joined);
               SortBy(joined, DescBy(NotificationCreated))
             else
               Select(db.notifications, (n: Notification) => n.isGlobal && Unexpired(n, now),
                      DescBy(NotificationCreated));
    SortedDesc(r, NotificationCreated);
    r
  }

  /** The joined rows of one notification that pass the `where` clause. */
  lemma JoinOneVisible(n: Notification, links: seq<UserNotification>, uid: Id, now: Instant)
    ensures forall x :: x in JoinedVisible([n], links, uid, now) ==> x == n
    ensures JoinedVisible([n], links, uid, now) != []
            <==> LinkedVisible(n, links, uid, now)
    ensures UniqueKey(links, UserNotificationKey) ==>
              JoinedVisible([n], links, uid, now)
              == if LinkedVisible(n, links, uid, now) then [n] else []
  {
    var keep := KeepJoinedFor(uid, now);
    var m := Filter(links, LinkMatches(n.id, uid));
    assert LeftJoin([n], links, uid) == JoinOne(n, links, uid) + LeftJoin([], links, uid);
    assert [n][1..] == [];
    var rows := JoinOne(n, links, uid);
    assert LeftJoin([n], links, uid) == rows;
    var kept := Filter(rows, keep);
    assert JoinedVisible([n], links, uid, now) == Map(kept, NotificationOf);
    assert Linked(n, links, uid) <==> m != [] by {
      if Linked(n, links, uid) {
        var i :| 0 <= i < |links| && links[i].notificationId == n.id && links[i].userId == uid;
        assert LinkMatches(n.id, uid)(links[i]);
      }
      if m != [] {
        assert m[0] in m;
      }
    }
    assert forall k :: 0 <= k < |rows| ==> rows[k].0 == n;
    if m == [] {
      assert rows == [(n, None)];
    } else {
      forall k | 0 <= k < |rows| ensures keep(rows[k]) == Unexpired(n, now) {
        assert m[k] in m;
      }
      if Unexpired(n, now) {
        FilterAll(rows, keep);
      } else {
        FilterNone(rows, keep);
      }
      if UniqueKey(links, UserNotificationKey) {
        FilterOneKeyAtMostOne(links, UserNotificationKey, LinkMatches(n.id, uid), (uid, n.id));
      }
    }
  }

  lemma {:induction false} JoinedVisibleSplit(ns: seq<Notification>, links: seq<UserNotification>, uid: Id, now: Instant)
    requires ns != []
    ensures JoinedVisible(ns, links, uid, now)
            == JoinedVisible([ns[0]], links, uid, now) + JoinedVisible(ns[1..], links, uid, now)
  {
    var keep := KeepJoinedFor(uid, now);
    var head := JoinOne(ns[0], links, uid);
    var tail := LeftJoin(ns[1..], links, uid);
    assert [ns[0]][1..] == [];
    assert LeftJoin([ns[0]], links, uid) == head + LeftJoin([], links, uid) == head;
    FilterConcat(head, tail, keep);
    MapConcat(Filter(head, keep), Filter(tail, keep), NotificationOf);
  }

  /** Without any constraint, the filtered join holds exactly the visible notifications. */
  lemma {:induction false} JoinedVisibleMembers(ns: seq<Notification>, links: seq<UserNotification>, uid: Id, now: Instant)
    ensures forall x :: x in JoinedVisible(ns, links, uid, now)
                        <==> x in ns && LinkedVisible(x, links, uid, now)
  {
    if ns != [] {
      var one := JoinedVisible([ns[0]], links, uid, now);
      var rest := JoinedVisible(ns[1..], links, uid, now);
      JoinedVisibleSplit(ns, links, uid, now);
      JoinOneVisible(ns[0], links, uid, now);
      JoinedVisibleMembers(ns[1..], links, uid, now);
      assert ns == [ns[0]] + ns[1..];
      forall x ensures x in one + rest <==> x in ns && LinkedVisible(x, links, uid, now) {
        assert x in one <==> x == ns[0] && LinkedVisible(ns[0], links, uid, now) by {
          if one != [] {
            assert one[0] in one;
          }
        }
      }
    }
  }

  /** Under the (userId, notificationId) uniqueness constraint, the filtered join
      holds every visible notification exactly as often as it is stored. */
  lemma {:induction false} JoinedVisibleCounts(ns: seq<Notification>, links: seq<UserNotification>, uid: Id, now: Instant)
    requires UniqueKey(links, UserNotificationKey)
    ensures forall x :: multiset(JoinedVisible(ns, links, uid, now))[x]
                        == if LinkedVisible(x, links, uid, now) then multiset(ns)[x] else 0
  {
    if ns != [] {
      var one := JoinedVisible([ns[0]], links, uid, now);
      var rest := JoinedVisible(ns[1..], links, uid, now);
      JoinedVisibleSplit(ns, links, uid, now);
      JoinOneVisible(ns[0], links, uid, now);
      JoinedVisibleCounts(ns[1..], links, uid, now);
      assert ns == [ns[0]] + ns[1..];
      assert multiset(ns) == multiset{ns[0]} + multiset(ns[1..]);
      assert multiset(one) == if LinkedVisible(ns[0], links, uid, now) then multiset{ns[0]} else multiset{};
      forall x ensures multiset(one + rest)[x]
                       == if LinkedVisible(x, links, uid, now) then multiset(ns)[x] else 0
      {
        assert multiset(one + rest)[x] == multiset(one)[x] + multiset(rest)[x];
      }
    }
  }

  /** In a valid store, `getNotifications` answers each visible notification
      exactly once. */
  lemma NotificationsExactlyOnce(db: Db, uid: Option<Id>, now: Instant)
    requires Valid(db)
    ensures forall n :: multiset(GetNotifications(db, uid, now))[n]
                        == if VisibleTo(n, uid, db.userNotifications, now) then multiset(db.notifications)[n] else 0
    ensures NoDuplicates(GetNotifications(db, uid, now))
  {
    var r := GetNotifications(db, uid, now);
    if Truthy(uid) {
      JoinedVisibleCounts(db.notifications, db.userNotifications, uid.value, now);
    }
    UniqueKeyNoDuplicates(db.notifications, NotificationId);
    NoDuplicatesCounts(db.notifications);
    CountsNoDuplicates(r);
  }

  /** `getUserNotifications`: the caller's link rows, newest first. */
  function GetUserNotifications(db: Db, userId: Id): (r: seq<UserNotification>)
    ensures forall l :: multiset(r)[l] == if l.userId == userId then multiset(db.userNotifications)[l] else 0
    ensures forall i, j :: 0 <= i < j < |r| ==> r[i].createdAt >= r[j].createdAt
  {
    DescByIsPreorder(UserNotificationCreated);
    var r := Select(db.userNotifications, (l: UserNotification) => l.userId == userId,
                    DescBy(UserNotificationCreated));
    SortedDesc(r, UserNotificationCreated);
    r
  }

  function CreateNotification(db: Db, d: InsertNotification, id: Id, now: Instant)
    : (r: Result<(Db, Notification)>)
    ensures r.Ok? <==> forall i :: 0 <= i < |db.notifications| ==> db.notifications[i].id != id
    ensures r.Ok? ==> r.value.1 == NewNotification(id, d, now)
                      && r.value.0 == db.(notifications := db.notifications + [r.value.1])
  {
    var n := NewNotification(id, d, now);
    match InsertRow(db.notifications, NotificationId, NotificationId, n, "primary key")
    case Ok(rows) => Ok((db.(notifications := rows), n))
    case Err(e) => Err(e)
  }

  function CreateUserNotification(db: Db, d: InsertUserNotification, id: Id, now: Instant)
    : (r: Result<(Db, UserNotification)>)
    ensures r.Ok? <==> (forall i :: 0 <= i < |db.userNotifications| ==> db.userNotifications[i].id != id)
                       && forall i :: 0 <= i < |db.userNotifications| ==>
                            UserNotificationKey(db.userNotifications[i]) != (d.userId, d.notificationId)
    ensures r.Ok? ==> r.value.1 == NewUserNotification(id, d, now)
                      && r.value.0 == db.(userNotifications := db.userNotifications + [r.value.1])
  {
    var l := NewUserNotification(id, d, now);
    match InsertRow(db.userNotifications, UserNotificationId, UserNotificationKey, l,
                    "user_notifications_user_id_notification_id_unique")
    case Ok(rows) => Ok((db.(userNotifications := rows), l))
    case Err(e) => Err(e)
  }

  /** `markNotificationAsRead(u, n)`: stamps `readAt` on the link rows of user
      `u` and notification `n`, and on no other row. */
  function MarkNotificationAsRead(db: Db, userId: Id, notificationId: Id, now: Instant): (r: Db)
    ensures r == db.(userNotifications := r.userNotifications)
    ensures |r.userNotifications| == |db.userNotifications|
    ensures forall i :: 0 <= i < |db.userNotifications| ==>
              r.userNotifications[i]
              == if db.userNotifications[i].userId == userId && db.userNotifications[i].notificationId == notificationId
                 then db.userNotifications[i].(readAt := Some(now))
                 else db.userNotifications[i]
  {
    db.(userNotifications :=
          UpdateWhere(db.userNotifications, (l: UserNotification) => l.userId == userId && l.notificationId == notificationId,
                      (l: UserNotification) => l.(readAt := Some(now))))
  }
}

=== FILE: storage_laws.dfy ===
/** Laws of the storage operations: every write keeps the store's constraints,
    and what a write stores is what the matching read answers afterwards. */
module StorageLaws {
  import opened Common
  import opened Time
  import opened Tables
  import opened Schema
  import opened Storage

  // ---------------------------------------------------------------------------
  // Users

  lemma UpsertUserKeepsValid(db: Db, d: UpsertUserData, now: Instant)
    requires Valid(db)
    requires UpsertUser(db, d, now).Ok?
    ensures Valid(UpsertUser(db, d, now).value.0)
  {
    var (after, u) := UpsertUser(db, d, now).value;
    var us, vs := db.users, after.users;
    if GetUser(db, d.id).None? {
      AppendKeepsUnique(us, UserId, u);
      forall i, j | 0 <= i < j < |vs| && vs[i].email.Some? ensures vs[i].email != vs[j].email {
        if j == |us| {
          assert vs[i] == us[i] && us[i].id != d.id;
        } else {
          assert vs[i] == us[i] && vs[j] == us[j];
        }
      }
    } else {
      forall i, j | 0 <= i < j < |vs| ensures vs[i].id != vs[j].id {
        assert vs[i].id == us[i].id && vs[j].id == us[j].id;
      }
      forall i, j | 0 <= i < j < |vs| && vs[i].email.Some? ensures vs[i].email != vs[j].email {
        if us[i].id == d.id {
          assert us[j].id != d.id;
          assert vs[j] == us[j];
        } else if us[j].id == d.id {
          assert vs[i] == us[i];
        } else {
          assert vs[i] == us[i] && vs[j] == us[j];
        }
      }
    }
  }

  /** After signing in, `getUser` answers the row the upsert returned. */
  lemma UpsertUserThenGet(db: Db, d: UpsertUserData, now: Instant)
    requires Valid(db)
    requires UpsertUser(db, d, now).Ok?
    ensures GetUser(UpsertUser(db, d, now).value.0, d.id) == Some(UpsertUser(db, d, now).value.1)
  {
    var (after, u) := UpsertUser(db, d, now).value;
    if GetUser(db, d.id).None? {
      AppendThenLookup(db.users, UserId, u);
    } else {
      var prev := GetUser(db, d.id).value;
      var m :| 0 <= m < |db.users| && db.users[m] == prev;
      UpsertUserKeepsValid(db, d, now);
      assert after.users[m] == u;
      LookupUnique(after.users, UserId, m);
    }
  }

  lemma CreateUserKeepsValid(db: Db, d: InsertUser, id: Id, now: Instant)
    requires Valid(db)
    requires CreateUser(db, d, id, now).Ok?
    ensures Valid(CreateUser(db, d, id, now).value.0)
  {
    var (after, u) := CreateUser(db, d, id, now).value;
    AppendKeepsUnique(db.users, UserId, u);
    forall i, j | 0 <= i < j < |after.users| && after.users[i].email.Some?
      ensures after.users[i].email != after.users[j].email
    {
      assert after.users[i] == db.users[i];
      if j < |db.users| {
        assert after.users[j] == db.users[j];
      }
    }
  }

  // ---------------------------------------------------------------------------
  // Territories

  lemma CreateTerritoryKeepsValid(db: Db, d: InsertTerritory, id: Id, now: Instant)
    requires Valid(db)
    requires CreateTerritory(db, d, id, now).Ok?
    ensures Valid(CreateTerritory(db, d, id, now).value.0)
  {
    var t := CreateTerritory(db, d, id, now).value.1;
    AppendKeepsUnique(db.territories, TerritoryId, t);
    AppendKeepsUnique(db.territories, TerritoryName, t);
  }

  /** A created territory is found by its id, carries the submitted name and the
      defaults, and is listed unless it was created inactive. */
  lemma CreateTerritoryThenGet(db: Db, d: InsertTerritory, id: Id, now: Instant)
    requires CreateTerritory(db, d, id, now).Ok?
    ensures var (after, t) := CreateTerritory(db, d, id, now).value;
            && GetTerritory(after, id) == Some(t)
            && (d.isActive != Some(false) ==> t in GetTerritories(after))
  {
    var (after, t) := CreateTerritory(db, d, id, now).value;
    AppendThenLookup(db.territories, TerritoryId, t);
    assert after.territories[|db.territories|] == t;
  }

  lemma UpdateTerritoryKeepsValid(db: Db, id: Id, p: TerritoryPatch, now: Instant)
    requires Valid(db)
    requires UpdateTerritory(db, id, p, now).Ok?
    ensures Valid(UpdateTerritory(db, id, p, now).value.0)
  {
    if GetTerritory(db, id).Some? {
      LookupFindsEach(db.territories, TerritoryId, id);
      PatchedKeepsUnique(db.territories, UpdateTerritory(db, id, p, now).value.0.territories,
                         TerritoryId, TerritoryName, id);
    }
  }

  /** After an update, `getTerritory` answers the row the update returned. */
  lemma UpdateTerritoryThenGet(db: Db, id: Id, p: TerritoryPatch, now: Instant)
    requires Valid(db)
    requires UpdateTerritory(db, id, p, now).Ok?
    ensures GetTerritory(UpdateTerritory(db, id, p, now).value.0, id) == UpdateTerritory(db, id, p, now).value.1
  {
    var (after, t) := UpdateTerritory(db, id, p, now).value;
    if GetTerritory(db, id).Some? {
      var prev := GetTerritory(db, id).value;
      var m :| 0 <= m < |db.territories| && db.territories[m] == prev;
      UpdateTerritoryKeepsValid(db, id, p, now);
      assert after.territories[m] == t.value;
      LookupUnique(after.territories, TerritoryId, m);
    }
  }

  lemma DeleteTerritoryKeepsValid(db: Db, id: Id, now: Instant)
    requires Valid(db)
    ensures Valid(DeleteTerritory(db, id, now))
  {
    var after := DeleteTerritory(db, id, now);
    PatchedKeepsUnique(db.territories, after.territories, TerritoryId, TerritoryName, id);
  }

  /** A soft-deleted territory is still found by id, now inactive and restamped. */
  lemma DeleteTerritoryThenGet(db: Db, id: Id, now: Instant)
    requires Valid(db)
    ensures var after := DeleteTerritory(db, id, now);
            && (GetTerritory(db, id).None? ==> GetTerritory(after, id).None?)
            && (GetTerritory(db, id).Some? ==>
                  GetTerritory(after, id) == Some(GetTerritory(db, id).value.(isActive := false, updatedAt := now)))
  {
    var after := DeleteTerritory(db, id, now);
    if GetTerritory(db, id).Some? {
      var prev := GetTerritory(db, id).value;
      var m :| 0 <= m < |db.territories| && db.territories[m] == prev;
      DeleteTerritoryKeepsValid(db, id, now);
      LookupUnique(after.territories, TerritoryId, m);
    }
  }

  /** A soft-deleted territory is no longer listed. */
  lemma DeleteTerritoryUnlists(db: Db, id: Id, now: Instant)
    ensures forall t :: t in GetTerritories(DeleteTerritory(db, id, now)) ==> t.id != id
  {
    var after := DeleteTerritory(db, id, now);
    forall t | t in GetTerritories(after) ensures t.id != id {
      var k :| 0 <= k < |after.territories| && after.territories[k] == t;
      assert after.territories[k].isActive;
    }
  }

  // ---------------------------------------------------------------------------
  // Blocks

  lemma CreateBlockKeepsValid(db: Db, d: InsertBlock, id: Id, now: Instant)
    requires Valid(db)
    requires CreateBlock(db, d, id, now).Ok?
    ensures Valid(CreateBlock(db, d, id, now).value.0)
  {
    var b := CreateBlock(db, d, id, now).value.1;
    AppendKeepsUnique(db.blocks, BlockId, b);
    AppendKeepsUnique(db.blocks, BlockKey, b);
  }

  lemma UpdateBlockKeepsValid(db: Db, id: Id, p: BlockPatch, now: Instant)
    requires Valid(db)
    requires UpdateBlock(db, id, p, now).Ok?
    ensures Valid(UpdateBlock(db, id, p, now).value.0)
  {
    if GetBlock(db, id).Some? {
      LookupFindsEach(db.blocks, BlockId, id);
      PatchedKeepsUnique(db.blocks, UpdateBlock(db, id, p, now).value.0.blocks, BlockId, BlockKey, id);
    }
  }

  // ---------------------------------------------------------------------------
  // Preaching days

  lemma CreatePreachingDayKeepsValid(db: Db, d: InsertPreachingDay, id: Id, now: Instant)
    requires Valid(db)
    requires CreatePreachingDay(db, d, id, now).Ok?
    ensures Valid(CreatePreachingDay(db, d, id, now).value.0)
  {
    var day := CreatePreachingDay(db, d, id, now).value.1;
    AppendKeepsUnique(db.days, DayId, day);
    AppendKeepsUnique(db.days, DayDate, day);
  }

  /** A created day is found by its id and by its calendar day. */
  lemma CreatePreachingDayThenGet(db: Db, d: InsertPreachingDay, id: Id, now: Instant, offset: int)
    requires CreatePreachingDay(db, d, id, now).Ok?
    ensures var (after, day) := CreatePreachingDay(db, d, id, now).value;
            && GetPreachingDay(after, id) == Some(day)
            && GetPreachingDayByDate(after, d.date, offset).Some?
  {
    var (after, day) := CreatePreachingDay(db, d, id, now).value;
    AppendThenLookup(db.days, DayId, day);
    assert after.days[|db.days|] == day;
  }

  lemma UpdatePreachingDayKeepsValid(db: Db, id: Id, p: PreachingDayPatch, now: Instant)
    requires Valid(db)
    requires UpdatePreachingDay(db, id, p, now).Ok?
    ensures Valid(UpdatePreachingDay(db, id, p, now).value.0)
  {
    if GetPreachingDay(db, id).Some? {
      LookupFindsEach(db.days, DayId, id);
      PatchedKeepsUnique(db.days, UpdatePreachingDay(db, id, p, now).value.0.days, DayId, DayDate, id);
    }
  }

  lemma DeletePreachingDayKeepsValid(db: Db, id: Id)
    requires Valid(db)
    ensures Valid(DeletePreachingDay(db, id))
  {
    DeleteByIdKeepsUnique(db.days, DayId, DayId, id);
    DeleteByIdKeepsUnique(db.days, DayId, DayDate, id);
  }

  // ---------------------------------------------------------------------------
  // Participations

  lemma CreateParticipationKeepsValid(db: Db, d: InsertParticipation, id: Id, now: Instant)
    requires Valid(db)
    requires CreateParticipation(db, d, id, now).Ok?
    ensures Valid(CreateParticipation(db, d, id, now).value.0)
  {
    var x := CreateParticipation(db, d, id, now).value.1;
    AppendKeepsUnique(db.participations, ParticipationId, x);
    AppendKeepsUnique(db.participations, ParticipationKey, x);
  }

  /** A created participation is listed for its day and for its user. */
  lemma CreateParticipationThenList(db: Db, d: InsertParticipation, id: Id, now: Instant)
    requires CreateParticipation(db, d, id, now).Ok?
    ensures var (after, x) := CreateParticipation(db, d, id, now).value;
            && x in GetParticipations(after, d.preachingDayId)
            && x in GetUserParticipations(after, d.userId)
  {
    var (after, x) := CreateParticipation(db, d, id, now).value;
    assert after.participations[|db.participations|] == x;
    assert x in multiset(after.participations);
    assert x in multiset(GetParticipations(after, d.preachingDayId));
    assert x in multiset(GetUserParticipations(after, d.userId));
  }

  lemma UpdateParticipationKeepsValid(db: Db, id: Id, p: ParticipationPatch, now: Instant)
    requires Valid(db)
    requires UpdateParticipation(db, id, p, now).Ok?
    ensures Valid(UpdateParticipation(db, id, p, now).value.0)
  {
    if GetParticipation(db, id).Some? {
      LookupFindsEach(db.participations, ParticipationId, id);
      PatchedKeepsUnique(db.participations, UpdateParticipation(db, id, p, now).value.0.participations,
                         ParticipationId, ParticipationKey, id);
    }
  }

  lemma DeleteParticipationKeepsValid(db: Db, id: Id)
    requires Valid(db)
    ensures Valid(DeleteParticipation(db, id))
  {
    DeleteByIdKeepsUnique(db.participations, ParticipationId, ParticipationId, id);
    DeleteByIdKeepsUnique(db.participations, ParticipationId, ParticipationKey, id);
  }

  // ---------------------------------------------------------------------------
  // Work sessions

  lemma CreateWorkSessionKeepsValid(db: Db, d: InsertWorkSession, id: Id, now: Instant)
    requires Valid(db)
    requires CreateWorkSession(db, d, id, now).Ok?
    ensures Valid(CreateWorkSession(db, d, id, now).value.0)
  {
    AppendKeepsUnique(db.sessions, SessionId, CreateWorkSession(db, d, id, now).value.1);
  }

  lemma UpdateWorkSessionKeepsValid(db: Db, id: Id, p: WorkSessionPatch, now: Instant)
    requires Valid(db)
    ensures Valid(UpdateWorkSession(db, id, p, now).value.0)
  {
    var after := UpdateWorkSession(db, id, p, now).value.0;
    forall i, j | 0 <= i < j < |after.sessions| ensures after.sessions[i].id != after.sessions[j].id {
      assert after.sessions[i].id == db.sessions[i].id && after.sessions[j].id == db.sessions[j].id;
    }
  }

  // ---------------------------------------------------------------------------
  // Notifications

  lemma CreateNotificationKeepsValid(db: Db, d: InsertNotification, id: Id, now: Instant)
    requires Valid(db)
    requires CreateNotification(db, d, id, now).Ok?
    ensures Valid(CreateNotification(db, d, id, now).value.0)
  {
    AppendKeepsUnique(db.notifications, NotificationId, CreateNotification(db, d, id, now).value.1);
  }

  lemma CreateUserNotificationKeepsValid(db: Db, d: InsertUserNotification, id: Id, now: Instant)
    requires Valid(db)
    requires CreateUserNotification(db, d, id, now).Ok?
    ensures Valid(CreateUserNotification(db, d, id, now).value.0)
  {
    var l := CreateUserNotification(db, d, id, now).value.1;
    AppendKeepsUnique(db.userNotifications, UserNotificationId, l);
    AppendKeepsUnique(db.userNotifications, UserNotificationKey, l);
  }

  /** Linking an unexpired notification to a user makes it visible to that user. */
  lemma CreateUserNotificationMakesVisible(db: Db, d: InsertUserNotification, id: Id, now: Instant, n: Notification)
    requires CreateUserNotification(db, d, id, now).Ok?
    requires n in db.notifications && n.id == d.notificationId && Unexpired(n, now)
    requires d.userId != ""
    ensures n in GetNotifications(CreateUserNotification(db, d, id, now).value.0, Some(d.userId), now)
  {
    var after := CreateUserNotification(db, d, id, now).value.0;
    assert after.userNotifications[|db.userNotifications|].notificationId == n.id;
    assert Linked(n, after.userNotifications, d.userId);
  }

  lemma MarkNotificationAsReadKeepsValid(db: Db, userId: Id, notificationId: Id, now: Instant)
    requires Valid(db)
    ensures Valid(MarkNotificationAsRead(db, userId, notificationId, now))
  {
    var after := MarkNotificationAsRead(db, userId, notificationId, now);
    var ls, ms := db.userNotifications, after.userNotifications;
    forall i, j | 0 <= i < j < |ms|
      ensures ms[i].id != ms[j].id && UserNotificationKey(ms[i]) != UserNotificationKey(ms[j])
    {
      assert ms[i].id == ls[i].id && ms[j].id == ls[j].id;
      assert UserNotificationKey(ms[i]) == UserNotificationKey(ls[i]);
      assert UserNotificationKey(ms[j]) == UserNotificationKey(ls[j]);
    }
  }

  /** Marking as read twice at the same instant is marking once, and it never
      changes which notifications anybody sees. */
  lemma MarkNotificationAsReadLaws(db: Db, userId: Id, notificationId: Id, now: Instant, uid: Option<Id>, t: Instant)
    ensures var once := MarkNotificationAsRead(db, userId, notificationId, now);
            && MarkNotificationAsRead(once, userId, notificationId, now) == once
            && forall n :: n in GetNotifications(once, uid, t) <==> n in GetNotifications(db, uid, t)
  {
    var once := MarkNotificationAsRead(db, userId, notificationId, now);
    var twice := MarkNotificationAsRead(once, userId, notificationId, now);
    var ls, ms := db.userNotifications, once.userNotifications;
    assert twice.userNotifications == ms;
    forall n ensures VisibleTo(n, uid, ms, t) <==> VisibleTo(n, uid, ls, t) {
      if Truthy(uid) {
        if Linked(n, ls, uid.value) {
          var i :| 0 <= i < |ls| && ls[i].notificationId == n.id && ls[i].userId == uid.value;
          assert ms[i].notificationId == n.id && ms[i].userId == uid.value;
        }
        if Linked(n, ms, uid.value) {
          var i :| 0 <= i < |ms| && ms[i].notificationId == n.id && ms[i].userId == uid.value;
          assert ls[i].notificationId == n.id && ls[i].userId == uid.value;
        }
      }
    }
  }
}

=== FILE: tables.dfy ===
/** A table is a sequence of rows in physical order. This module gives the few
    statement shapes the store issues (`select ... where key = k`, `insert`,
    `update ... where id = k returning`, `delete ... where id = k`), the
    uniqueness constraints a table can carry, and the fact that each statement
    keeps those constraints. */
module Tables {
  import opened Common

  /** A statement rejected by the database (a unique or primary-key violation). */
  datatype StoreError = DuplicateKey(constraint: string)

  datatype Result<+T> = Ok(value: T) | Err(error: StoreError)

  // ---------------------------------------------------------------------------
  // Constraints

  /** `key` takes pairwise distinct values on the rows of a table. */
  predicate UniqueKey<R, K(==)>(rows: seq<R>, key: R -> K) {
    forall i, j :: 0 <= i < j < |rows| ==> key(rows[i]) != key(rows[j])
  }

  /** A unique nullable column: PostgreSQL lets any number of rows hold NULL. */
  predicate UniqueWhenPresent<R, K(==)>(rows: seq<R>, key: R -> Option<K>) {
    forall i, j :: 0 <= i < j < |rows| && key(rows[i]).Some? ==> key(rows[i]) != key(rows[j])
  }

  /** Some row of the table has key `k`. */
  predicate KeyTaken<R, K(==)>(rows: seq<R>, key: R -> K, k: K) {
    exists i :: 0 <= i < |rows| && key(rows[i]) == k
  }

  /** Under a unique key at most one row carries a given key value. */
  lemma UniqueKeyAtMostOne<R, K>(rows: seq<R>, key: R -> K, i: int, j: int)
    requires UniqueKey(rows, key)
    requires 0 <= i < |rows| && 0 <= j < |rows| && key(rows[i]) == key(rows[j])
    ensures i == j
  {
  }

  /** Deleting rows (any filter) keeps a key unique. */
  lemma {:induction false} FilterKeepsUnique<R, K>(rows: seq<R>, key: R -> K, p: R -> bool)
    requires UniqueKey(rows, key)
    ensures UniqueKey(Filter(rows, p), key)
  {
    if rows != [] {
      var tail := rows[1..];
      assert UniqueKey(tail, key) by {
        forall i, j | 0 <= i < j < |tail| ensures key(tail[i]) != key(tail[j]) {
          assert tail[i] == rows[i + 1] && tail[j] == rows[j + 1];
        }
      }
      FilterKeepsUnique(tail, key, p);
      if p(rows[0]) {
        var f := Filter(tail, p);
        var s := [rows[0]] + f;
        forall i, j | 0 <= i < j < |s| ensures key(s[i]) != key(s[j]) {
          if i == 0 {
            assert s[j] == f[j - 1] && f[j - 1] in tail;
            var m :| 0 <= m < |tail| && tail[m] == f[j - 1];
            assert rows[m + 1] == s[j];
          } else {
            assert s[i] == f[i - 1] && s[j] == f[j - 1];
          }
        }
      }
    }
  }

  /** Distinct keys make distinct rows. */
  lemma UniqueKeyNoDuplicates<R, K>(rows: seq<R>, key: R -> K)
    requires UniqueKey(rows, key)
    ensures NoDuplicates(rows)
  {
  }

  /** Under a unique key, a filter that only admits key `k` keeps at most one row. */
  lemma {:induction false} FilterOneKeyAtMostOne<R, K>(rows: seq<R>, key: R -> K, p: R -> bool, k: K)
    requires UniqueKey(rows, key)
    requires forall x :: p(x) ==> key(x) == k
    ensures |Filter(rows, p)| <= 1
  {
    if rows != [] {
      var tail := rows[1..];
      assert UniqueKey(tail, key) by {
        forall i, j | 0 <= i < j < |tail| ensures key(tail[i]) != key(tail[j]) {
          assert tail[i] == rows[i + 1] && tail[j] == rows[j + 1];
        }
      }
      if p(rows[0]) {
        forall i | 0 <= i < |tail| ensures !p(tail[i]) {
          assert key(tail[i]) == key(rows[i + 1]) != key(rows[0]);
        }
        FilterNone(tail, p);
      } else {
        FilterOneKeyAtMostOne(tail, key, p, k);
      }
    }
  }

  // ---------------------------------------------------------------------------
  // Statements

  /** `select ... where key = k` taking the first row (`const [row] = ...`). */
  function Lookup<R, K(==)>(rows: seq<R>, key: R -> K, k: K): (r: Option<R>)
    ensures r.None? <==> !KeyTaken(rows, key, k)
    ensures r.Some? ==> r.value in rows && key(r.value) == k
  {
    Find(rows, x => key(x) == k)
  }

  /** Under a unique key, looking up a row's key finds that very row. */
  lemma LookupUnique<R, K>(rows: seq<R>, key: R -> K, i: int)
    requires UniqueKey(rows, key)
    requires 0 <= i < |rows|
    ensures Lookup(rows, key, key(rows[i])) == Some(rows[i])
  {
    var r := Lookup(rows, key, key(rows[i]));
    var m :| 0 <= m < |rows| && rows[m] == r.value;
    UniqueKeyAtMostOne(rows, key, i, m);
  }

  /** `update ... set f(row) where sel(row)`: every selected row is rewritten,
      every other row is kept, in place. */
  function UpdateWhere<R>(rows: seq<R>, sel: R -> bool, f: R -> R): (r: seq<R>)
    ensures |r| == |rows|
    ensures forall i :: 0 <= i < |rows| && sel(rows[i]) ==> r[i] == f(rows[i])
    ensures forall i :: 0 <= i < |rows| && !sel(rows[i]) ==> r[i] == rows[i]
  {
    Map(rows, x => if sel(x) then f(x) else x)
  }

  /** A rewrite that keeps a key keeps it unique. */
  lemma UpdateWhereKeepsUnique<R, K>(rows: seq<R>, sel: R -> bool, f: R -> R, key: R -> K)
    requires UniqueKey(rows, key)
    requires forall x :: key(f(x)) == key(x)
    ensures UniqueKey(UpdateWhere(rows, sel, f), key)
  {
    var r := UpdateWhere(rows, sel, f);
    forall i, j | 0 <= i < j < |r| ensures key(r[i]) != key(r[j]) {
      assert key(r[i]) == key(rows[i]) && key(r[j]) == key(rows[j]);
    }
  }

  /** `insert ... returning` into a table with primary key `idOf` and one more
      unique key `key` (tables without one pass `idOf` twice). The statement is
      rejected when either key value is already present. */
  function InsertRow<R, I(==), K(==)>(rows: seq<R>, idOf: R -> I, key: R -> K, row: R,
                                      constraint: string): (r: Result<seq<R>>)
    ensures r.Ok? <==> !KeyTaken(rows, idOf, idOf(row)) && !KeyTaken(rows, key, key(row))
    ensures r.Ok? ==> r.value == rows + [row]
  {
    if exists i :: 0 <= i < |rows| && idOf(rows[i]) == idOf(row) then Err(DuplicateKey("primary key"))
    else if exists i :: 0 <= i < |rows| && key(rows[i]) == key(row) then Err(DuplicateKey(constraint))
    else Ok(rows + [row])
  }

  lemma InsertRowKeepsUnique<R, I, K>(rows: seq<R>, idOf: R -> I, key: R -> K, row: R, c: string)
    requires UniqueKey(rows, idOf) && UniqueKey(rows, key)
    requires InsertRow(rows, idOf, key, row, c).Ok?
    ensures UniqueKey(InsertRow(rows, idOf, key, row, c).value, idOf)
    ensures UniqueKey(InsertRow(rows, idOf, key, row, c).value, key)
  {
    AppendKeepsUnique(rows, idOf, row);
    AppendKeepsUnique(rows, key, row);
  }

  /** A row appended under a fresh key is what a lookup of that key finds. */
  lemma AppendThenLookup<R, K>(rows: seq<R>, key: R -> K, row: R)
    requires !KeyTaken(rows, key, key(row))
    ensures Lookup(rows + [row], key, key(row)) == Some(row)
  {
    var s := rows + [row];
    var found := Lookup(s, key, key(row)).value;
    assert s[|rows|] == row;
    assert forall i :: 0 <= i < |rows| ==> s[i] == rows[i];
  }

  /** Under a unique key, every row carrying key `k` is the one a lookup finds. */
  lemma LookupFindsEach<R, K>(rows: seq<R>, key: R -> K, k: K)
    requires UniqueKey(rows, key)
    ensures forall i :: 0 <= i < |rows| && key(rows[i]) == k ==> Lookup(rows, key, k) == Some(rows[i])
  {
    forall i | 0 <= i < |rows| && key(rows[i]) == k ensures Lookup(rows, key, k) == Some(rows[i]) {
      LookupUnique(rows, key, i);
    }
  }

  /** A table rewritten in place, where rows keep their ids, rows of other ids
      are untouched and the rewritten rows' `key` clashes with no row of another
      id, keeps both keys unique. */
  lemma PatchedKeepsUnique<R, I, K>(rows: seq<R>, after: seq<R>, idOf: R -> I, key: R -> K, id: I)
    requires UniqueKey(rows, idOf) && UniqueKey(rows, key)
    requires |after| == |rows|
    requires forall i :: 0 <= i < |rows| ==> idOf(after[i]) == idOf(rows[i])
    requires forall i :: 0 <= i < |rows| && idOf(rows[i]) != id ==> after[i] == rows[i]
    requires forall i, j :: 0 <= i < |rows| && 0 <= j < |rows| && idOf(rows[i]) == id && idOf(rows[j]) != id
                           ==> key(after[i]) != key(rows[j])
    ensures UniqueKey(after, idOf) && UniqueKey(after, key)
  {
    forall i, j | 0 <= i < j < |after| ensures key(after[i]) != key(after[j]) {
      if idOf(rows[i]) == id {
        assert idOf(rows[j]) != id;
      } else if idOf(rows[j]) == id {
        assert after[i] == rows[i];
      }
    }
  }

  lemma AppendKeepsUnique<R, K>(rows: seq<R>, key: R -> K, r: R)
    requires UniqueKey(rows, key)
    requires !KeyTaken(rows, key, key(r))
    ensures UniqueKey(rows + [r], key)
  {
    var s := rows + [r];
    forall i, j | 0 <= i < j < |s| ensures key(s[i]) != key(s[j]) {
      if j == |rows| {
        assert s[i] == rows[i];
      } else {
        assert s[i] == rows[i] && s[j] == rows[j];
      }
    }
  }

  /** `update ... set patch(row) where id = k returning`: rewrites the rows with
      that id and answers the first of them, or changes nothing and answers
      nothing when no row has that id. It is rejected when the rewritten row's
      `key` collides with a row of another id. */
  function UpdateById<R, I(==), K(==)>(rows: seq<R>, idOf: R -> I, key: R -> K, id: I,
                                       patch: R -> R, constraint: string)
    : (r: Result<(seq<R>, Option<R>)>)
    ensures !KeyTaken(rows, idOf, id) ==> r == Ok((rows, None))
    ensures r.Ok? && KeyTaken(rows, idOf, id) ==>
              r.value.0 == UpdateWhere(rows, x => idOf(x) == id, patch)
              && r.value.1.Some? && r.value.1.value == patch(Lookup(rows, idOf, id).value)
    ensures r.Err? <==> KeyTaken(rows, idOf, id)
                        && exists j :: 0 <= j < |rows| && idOf(rows[j]) != id
                                       && key(rows[j]) == key(patch(Lookup(rows, idOf, id).value))
  {
    match Lookup(rows, idOf, id)
    case None => Ok((rows, None))
    case Some(current) =>
      var row := patch(current);
      if exists j :: 0 <= j < |rows| && idOf(rows[j]) != id && key(rows[j]) == key(row) then
        Err(DuplicateKey(constraint))
      else
        Ok((UpdateWhere(rows, x => idOf(x) == id, patch), Some(row)))
  }

  /** An accepted update keeps both keys unique, provided the patch keeps the id. */
  lemma UpdateByIdKeepsUnique<R, I, K>(rows: seq<R>, idOf: R -> I, key: R -> K, id: I,
                                       patch: R -> R, c: string)
    requires UniqueKey(rows, idOf) && UniqueKey(rows, key)
    requires forall x :: idOf(patch(x)) == idOf(x)
    requires UpdateById(rows, idOf, key, id, patch, c).Ok?
    ensures UniqueKey(UpdateById(rows, idOf, key, id, patch, c).value.0, idOf)
    ensures UniqueKey(UpdateById(rows, idOf, key, id, patch, c).value.0, key)
  {
    if KeyTaken(rows, idOf, id) {
      var sel := x => idOf(x) == id;
      var r := UpdateWhere(rows, sel, patch);
      var current := Lookup(rows, idOf, id).value;
      UpdateWhereKeepsUnique(rows, sel, patch, idOf);
      forall i, j | 0 <= i < j < |r| ensures key(r[i]) != key(r[j]) {
        if sel(rows[i]) && sel(rows[j]) {
          UniqueKeyAtMostOne(rows, idOf, i, j);
        } else if sel(rows[i]) {
          var m :| 0 <= m < |rows| && rows[m] == current;
          UniqueKeyAtMostOne(rows, idOf, i, m);
        } else if sel(rows[j]) {
          var m :| 0 <= m < |rows| && rows[m] == current;
          UniqueKeyAtMostOne(rows, idOf, j, m);
        }
      }
    }
  }

  /** `delete ... where id = k`. */
  function DeleteById<R(!new), I(==)>(rows: seq<R>, idOf: R -> I, id: I): (r: seq<R>)
    ensures !KeyTaken(r, idOf, id)
    ensures forall x :: x in r <==> x in rows && idOf(x) != id
    ensures IsSubsequence(r, rows)
  {
    var r := Filter(rows, OtherId(idOf, id));
    assert forall i :: 0 <= i < |r| ==> r[i] in r;
    FilterIsSubsequence(rows, OtherId(idOf, id));
    r
  }

  /** The `where id <> k` selector of a delete. */
  function OtherId<R, I(==)>(idOf: R -> I, id: I): R -> bool {
    x => idOf(x) != id
  }

  lemma DeleteByIdKeepsUnique<R(!new), I, K>(rows: seq<R>, idOf: R -> I, key: R -> K, id: I)
    requires UniqueKey(rows, key)
    ensures UniqueKey(DeleteById(rows, idOf, id), key)
  {
    FilterKeepsUnique(rows, key, OtherId(idOf, id));
  }
}

=== FILE: territories_page.dfy ===
/** The territory list page: the search box and status filter over the
    territories the server returns, and the figures each card derives from a
    territory's completion rate (badge, progress colour, remaining blocks and
    the action button's label). */
module TerritoriesPage {
  import opened Common
  import opened Text
  import opened Schema

  // ---------------------------------------------------------------------------
  // Filters

  /** The search box: the lower-cased name contains the lower-cased term. */
  predicate MatchesSearch(name: string, term: string) {
    Contains(Lower(name), Lower(term))
  }

  /** The status drop-down. "all" and any value the switch does not list keep
      every territory. */
  predicate MatchesStatus(filter: string, rate: int) {
    if filter == "not_started" then rate == 0
    else if filter == "in_progress" then 0 < rate < 100
    else if filter == "completed" then rate == 100
    else true
  }

  function Keeps(term: string, filter: string): Territory -> bool {
    (t: Territory) => MatchesSearch(t.name, term) && MatchesStatus(filter, t.completionRate)
  }

  /** The list shown: the territories passing both filters, in server order. */
  function FilterTerritories(ts: seq<Territory>, term: string, filter: string): (r: seq<Territory>)
    ensures IsSubsequence(r, ts)
    ensures forall t :: t in r <==> t in ts && MatchesSearch(t.name, term) && MatchesStatus(filter, t.completionRate)
    ensures forall t :: multiset(r)[t] == if Keeps(term, filter)(t) then multiset(ts)[t] else 0
  {
    FilterIsSubsequence(ts, Keeps(term, filter));
    FilterMultisetAll(ts, Keeps(term, filter));
    Filter(ts, Keeps(term, filter))
  }

  /** An empty search term matches every name, and the search ignores the case
      of the term. */
  lemma SearchLaws(name: string, term: string)
    ensures MatchesSearch(name, "")
    ensures MatchesSearch(name, Upper(term)) <==> MatchesSearch(name, term)
    ensures MatchesSearch(name, term) <==> exists i :: OccursAt(Lower(name), Lower(term), i)
  {
    ContainsEmpty(Lower(name));
    LowerIdempotent(term);
    assert Lower(Upper(term)) == Lower(term);
  }

  /** With an empty term and the "all" filter the page shows every territory. */
  lemma {:induction false} NoFilterShowsAll(ts: seq<Territory>)
    ensures FilterTerritories(ts, "", "all") == ts
  {
    forall i | 0 <= i < |ts| ensures Keeps("", "all")(ts[i]) {
      SearchLaws(ts[i].name, "");
    }
    FilterAll(ts, Keeps("", "all"));
  }

  // ---------------------------------------------------------------------------
  // Card figures

  datatype Badge = Pending | InProgress | Completed

  function BadgeLabel(b: Badge): string {
    match b
    case Pending => "PENDENTE"
    case InProgress => "EM PROGRESSO"
    case Completed => "CONCLUÍDO"
  }

  /** How a badge is drawn: a variant of the badge component, or explicit
      Tailwind classes. */
  datatype BadgeStyle = Variant(name: string) | Classes(classes: string)

  /** The style of each badge: the theme's `secondary` variant while pending,
      light green when completed, light yellow in between. */
  function BadgeStyleOf(b: Badge): (s: BadgeStyle)
    ensures s.Variant? <==> b == Pending
  {
    match b
    case Pending => Variant("secondary")
    case InProgress => Classes("bg-yellow-100 text-yellow-800")
    case Completed => Classes("bg-green-100 text-green-800")
  }

  /** Colour families, to compare the badge with the progress bar. */
  datatype Hue = Grey | Green | Yellow

  /** The family of a class list, read from its leading background class;
      anything else counts as grey. */
  function ClassHue(c: string): Hue {
    if StartsWith(c, "bg-green-") then Green
    else if StartsWith(c, "bg-yellow-") then Yellow
    else Grey
  }

  /** The families of the classes the page uses. */
  lemma ClassHues()
    ensures ClassHue("bg-gray-400") == Grey
    ensures ClassHue("bg-green-500") == Green && ClassHue("bg-green-100 text-green-800") == Green
    ensures ClassHue("bg-yellow-500") == Yellow && ClassHue("bg-yellow-100 text-yellow-800") == Yellow
  {
    assert "bg-green-500"[..9] == "bg-green-";
    assert "bg-green-100 text-green-800"[..9] == "bg-green-";
    assert "bg-yellow-500"[..9][3] != "bg-green-"[3];
    assert "bg-yellow-500"[..10] == "bg-yellow-";
    assert "bg-yellow-100 text-yellow-800"[..9][3] != "bg-green-"[3];
    assert "bg-yellow-100 text-yellow-800"[..10] == "bg-yellow-";
    assert "bg-gray-400"[..9][5] != "bg-green-"[5];
    assert "bg-gray-400"[..10][3] != "bg-yellow-"[3];
  }

  /** The `secondary` variant is the theme's neutral grey. */
  function StyleHue(s: BadgeStyle): Hue {
    match s
    case Variant(_) => Grey
    case Classes(c) => ClassHue(c)
  }

  /** The badge of a card, from its completion rate. */
  function StatusBadge(rate: int): (b: Badge)
    ensures b == Pending <==> rate == 0
    ensures b == Completed <==> rate == 100
  {
    if rate == 0 then Pending else if rate == 100 then Completed else InProgress
  }

  /** The progress bar's colour class. */
  function ProgressColor(rate: int): (c: string)
    ensures c == "bg-gray-400" <==> rate == 0
    ensures c == "bg-green-500" <==> rate == 100
    ensures c in {"bg-gray-400", "bg-green-500", "bg-yellow-500"}
  {
    if rate == 0 then "bg-gray-400"
    else if rate == 100 then "bg-green-500"
    else "bg-yellow-500"
  }

  /** Blocks still to be worked. Nothing clamps it: a territory whose completed
      count exceeds its total shows a negative number. */
  function RemainingBlocks(t: Territory): (n: int)
    ensures n + t.completedBlocks == t.totalBlocks
    ensures n >= 0 <==> t.completedBlocks <= t.totalBlocks
  {
    t.totalBlocks - t.completedBlocks
  }

  /** The card's button: start a territory nobody has worked, update otherwise. */
  function ActionLabel(rate: int): (s: string)
    ensures s == "Iniciar" <==> rate == 0
    ensures s == "Iniciar" || s == "Atualizar"
  {
    if rate == 0 then "Iniciar" else "Atualizar"
  }

  function Holds(b: bool): nat { if b then 1 else 0 }

  /** For a rate in 0..100 exactly one of the three status filters holds; it is
      the one named by the badge, whose colour family is the progress bar's, and the
      button offers to start exactly the pending territories. */
  lemma StatusFiltersPartition(rate: int)
    requires 0 <= rate <= 100
    ensures MatchesStatus("not_started", rate) <==> StatusBadge(rate) == Pending
    ensures MatchesStatus("in_progress", rate) <==> StatusBadge(rate) == InProgress
    ensures MatchesStatus("completed", rate) <==> StatusBadge(rate) == Completed
    ensures Holds(MatchesStatus("not_started", rate)) + Holds(MatchesStatus("in_progress", rate))
            + Holds(MatchesStatus("completed", rate)) == 1
    ensures ClassHue(ProgressColor(rate)) == StyleHue(BadgeStyleOf(StatusBadge(rate)))
    ensures ActionLabel(rate) == "Iniciar" <==> StatusBadge(rate) == Pending
  {
    ClassHues();
  }

  /** Outside 0..100 no specific status filter keeps a territory, although its
      badge reads "EM PROGRESSO". */
  lemma OutOfRangeRate(rate: int)
    requires rate < 0 || rate > 100
    ensures !MatchesStatus("not_started", rate) && !MatchesStatus("in_progress", rate)
            && !MatchesStatus("completed", rate)
    ensures StatusBadge(rate) == InProgress
  {
  }
}

=== FILE: text.dfy ===
/** String helpers the client pages rely on: ASCII case mapping (the model of
    `toLowerCase`/`toUpperCase`), substring and prefix tests (`includes`,
    `startsWith`), splitting on a separator (`split`) and decimal rendering
    of a counter (template-literal interpolation of a number). */
module Text {

  // ---------------------------------------------------------------------------
  // ASCII case mapping

  predicate IsUpper(c: char) { 'A' <= c <= 'Z' }
  predicate IsLower(c: char) { 'a' <= c <= 'z' }

  function LowerChar(c: char): (r: char)
    ensures !IsUpper(r)
    ensures IsUpper(c) || r == c
    ensures IsUpper(c) ==> IsLower(r) && r as int == c as int + 32
  {
    if IsUpper(c) then (c as int + 32) as char else c
  }

  function UpperChar(c: char): (r: char)
    ensures !IsLower(r)
    ensures IsLower(c) || r == c
    ensures IsLower(c) ==> IsUpper(r) && r as int == c as int - 32
  {
    if IsLower(c) then (c as int - 32) as char else c
  }

  /** `String.prototype.toLowerCase` restricted to ASCII letters. */
  function Lower(s: string): (r: string)
    ensures |r| == |s|
    ensures forall i :: 0 <= i < |s| ==> r[i] == LowerChar(s[i])
  {
    if s == [] then [] else [LowerChar(s[0])] + Lower(s[1..])
  }

  /** `String.prototype.toUpperCase` restricted to ASCII letters. */
  function Upper(s: string): (r: string)
    ensures |r| == |s|
    ensures forall i :: 0 <= i < |s| ==> r[i] == UpperChar(s[i])
  {
    if s == [] then [] else [UpperChar(s[0])] + Upper(s[1..])
  }

  /** Lower-casing is idempotent and forgets the original case. */
  lemma LowerIdempotent(s: string)
    ensures Lower(Lower(s)) == Lower(s)
    ensures Lower(Upper(s)) == Lower(s)
  {
  }

  // ---------------------------------------------------------------------------
  // Substrings and prefixes

  /** `t` occurs in `s` starting at index `i`. */
  predicate OccursAt(s: string, t: string, i: int) {
    0 <= i && i + |t| <= |s| && s[i..i + |t|] == t
  }

  /** `s.startsWith(p)`: a raw code-unit prefix test. */
  predicate StartsWith(s: string, p: string) {
    |p| <= |s| && s[..|p|] == p
  }

  /** `s.includes(t)`, computed by trying every start position in turn. */
  function Contains(s: string, t: string): (r: bool)
    ensures r <==> exists i :: OccursAt(s, t, i)
    decreases |s|
  {
    if StartsWith(s, t) then
      assert OccursAt(s, t, 0);
      true
    else if s == [] then
      false
    else
      var r := Contains(s[1..], t);
      assert r ==> exists i :: OccursAt(s, t, i) by {
        if r {
          var i :| OccursAt(s[1..], t, i);
          assert s[i + 1..i + 1 + |t|] == s[1..][i..i + |t|];
          assert OccursAt(s, t, i + 1);
        }
      }
      assert (exists i :: OccursAt(s, t, i)) ==> r by {
        if exists i :: OccursAt(s, t, i) {
          var i :| OccursAt(s, t, i);
          assert i != 0;
          assert s[1..][i - 1..i - 1 + |t|] == s[i..i + |t|];
          assert OccursAt(s[1..], t, i - 1);
        }
      }
      r
  }

  /** The empty string occurs in every string. */
  lemma ContainsEmpty(s: string)
    ensures Contains(s, "")
  {
    assert OccursAt(s, "", 0);
  }

  /** A string contains itself. */
  lemma ContainsSelf(s: string)
    ensures Contains(s, s)
  {
    assert OccursAt(s, s, 0);
  }

  // ---------------------------------------------------------------------------
  // Splitting

  /** Number of occurrences of `c` in `s`. */
  function Occurrences(s: string, c: char): nat {
    if s == [] then 0 else (if s[0] == c then 1 else 0) + Occurrences(s[1..], c)
  }

  /** `s.split(sep)` for a one-character separator: the pieces between
      separators, including empty pieces between adjacent separators and at
      either end, so there is always one more piece than separators. */
  function Split(s: string, sep: char): (r: seq<string>)
    ensures |r| == Occurrences(s, sep) + 1
    ensures forall i :: 0 <= i < |r| ==> sep !in r[i]
    decreases |s|
  {
    if s == [] then [""]
    else
      var rest := Split(s[1..], sep);
      if s[0] == sep then [""] + rest
      else [[s[0]] + rest[0]] + rest[1..]
  }

  /** `pieces.join(sep)`. */
  function Join(pieces: seq<string>, sep: char): string {
    if |pieces| == 0 then ""
    else if |pieces| == 1 then pieces[0]
    else pieces[0] + [sep] + Join(pieces[1..], sep)
  }

  /** Splitting and joining with the same separator gives the string back. */
  lemma {:induction false} JoinSplit(s: string, sep: char)
    ensures Join(Split(s, sep), sep) == s
    decreases |s|
  {
    if s != [] {
      var rest := Split(s[1..], sep);
      JoinSplit(s[1..], sep);
      if s[0] == sep {
        assert Split(s, sep) == [""] + rest;
        assert s == [sep] + s[1..];
      } else {
        var r := Split(s, sep);
        assert r == [[s[0]] + rest[0]] + rest[1..];
        if |rest| == 1 {
          assert Join(rest, sep) == rest[0];
        } else {
          assert Join(rest, sep) == rest[0] + [sep] + Join(rest[1..], sep);
          assert r[1..] == rest[1..];
        }
      }
    }
  }

  // ---------------------------------------------------------------------------
  // Decimal rendering

  function Digit(d: int): (c: char)
    requires 0 <= d < 10
    ensures '0' <= c <= '9'
  {
    ('0' as int + d) as char
  }

  /** The decimal form of `n`, without leading zeros (`${n}`). */
  function NatToString(n: nat): (s: string)
    ensures |s| >= 1
    ensures forall i :: 0 <= i < |s| ==> '0' <= s[i] <= '9'
    ensures n < 10 <==> |s| == 1
    decreases n
  {
    if n < 10 then [Digit(n)] else NatToString(n / 10) + [Digit(n % 10)]
  }

  /** Different numbers render differently. */
  lemma {:induction false} NatToStringInjective(n: nat, m: nat)
    requires NatToString(n) == NatToString(m)
    ensures n == m
    decreases n
  {
    var s := NatToString(n);
    if n < 10 {
      assert m < 10;
      assert Digit(n) == Digit(m);
    } else {
      assert m >= 10;
      var a, b := NatToString(n / 10), NatToString(m / 10);
      assert s == a + [Digit(n % 10)] == b + [Digit(m % 10)];
      assert s[|s| - 1] == Digit(n % 10) == Digit(m % 10);
      assert a == s[..|s| - 1] == b;
      NatToStringInjective(n / 10, m / 10);
    }
  }
}

=== FILE: time.dfy ===
/** Time as the application sees it: instants are JavaScript `Date` values
    (integer milliseconds since the Unix epoch), calendar days are local day
    numbers, and the local zone is a fixed offset from UTC (no daylight saving).
    The civil calendar is the proleptic Gregorian one that `Date` and date-fns
    use; day numbers are computed with the usual days-from-civil formula on a
    year that starts in March. */
module Time {

  /** Milliseconds since 1970-01-01T00:00:00Z. */
  type Instant = int

  /** Days since 1970-01-01 in local time. */
  type DayNumber = int

  const DayMs: int := 86_400_000

  // ---------------------------------------------------------------------------
  // Local days

  /** The local calendar day of an instant, for a zone `offset` ms ahead of UTC. */
  function LocalDay(t: Instant, offset: int): DayNumber {
    (t + offset) / DayMs
  }

  /** Local 00:00:00.000 of day `d`. */
  function Midnight(d: DayNumber, offset: int): Instant {
    d * DayMs - offset
  }

  /** An instant lies between the midnight of `a` and the last millisecond of `b`
      exactly when its local day lies between `a` and `b`. */
  lemma DayWindow(t: Instant, offset: int, a: DayNumber, b: DayNumber)
    ensures Midnight(a, offset) <= t <= Midnight(b, offset) + DayMs - 1
            <==> a <= LocalDay(t, offset) <= b
  {
    var q := (t + offset) / DayMs;
    var r := (t + offset) % DayMs;
    assert t + offset == q * DayMs + r && 0 <= r < DayMs;
    if a <= q {
      assert a * DayMs <= q * DayMs;
    } else {
      assert q * DayMs + DayMs <= a * DayMs;
    }
    if q <= b {
      assert q * DayMs <= b * DayMs;
    } else {
      assert b * DayMs + DayMs <= q * DayMs;
    }
  }

  /** `date.setHours(0, 0, 0, 0)`: the start of the instant's local day. */
  function StartOfDay(t: Instant, offset: int): (r: Instant)
    ensures r <= t
    ensures LocalDay(r, offset) == LocalDay(t, offset)
    ensures t - r < DayMs
  {
    DayWindow(t, offset, LocalDay(t, offset), LocalDay(t, offset));
    var r := Midnight(LocalDay(t, offset), offset);
    DayWindow(r, offset, LocalDay(t, offset), LocalDay(t, offset));
    r
  }

  /** `date.setHours(23, 59, 59, 999)`: the last millisecond of the local day. */
  function EndOfDay(t: Instant, offset: int): (r: Instant)
    ensures t <= r
    ensures LocalDay(r, offset) == LocalDay(t, offset)
    ensures r - t < DayMs
  {
    DayWindow(t, offset, LocalDay(t, offset), LocalDay(t, offset));
    var r := Midnight(LocalDay(t, offset), offset) + DayMs - 1;
    DayWindow(r, offset, LocalDay(t, offset), LocalDay(t, offset));
    r
  }

  /** The inclusive window [StartOfDay(t), EndOfDay(t)] holds exactly the instants
      of the same local calendar day as `t`. */
  lemma SameDayWindow(t: Instant, u: Instant, offset: int)
    ensures StartOfDay(t, offset) <= u <= EndOfDay(t, offset)
            <==> LocalDay(u, offset) == LocalDay(t, offset)
  {
    DayWindow(u, offset, LocalDay(t, offset), LocalDay(t, offset));
  }

  lemma SameDayWindowAll(t: Instant, offset: int)
    ensures forall u :: StartOfDay(t, offset) <= u <= EndOfDay(t, offset)
                        <==> LocalDay(u, offset) == LocalDay(t, offset)
  {
    forall u ensures StartOfDay(t, offset) <= u <= EndOfDay(t, offset)
                     <==> LocalDay(u, offset) == LocalDay(t, offset)
    {
      SameDayWindow(t, u, offset);
    }
  }

  /** date-fns `subDays` in a zone without daylight saving. */
  function SubDays(t: Instant, n: int): (r: Instant)
    ensures forall offset :: LocalDay(r, offset) == LocalDay(t, offset) - n
  {
    t - n * DayMs
  }

  /** `Date.prototype.getDay()` of a local day: 0 is Sunday, 6 is Saturday.
      Day 0, 1970-01-01, was a Thursday (4), and the weekday advances by one
      each day. */
  function Weekday(d: DayNumber): (w: int)
    ensures 0 <= w < 7
    ensures (d + 4 - w) % 7 == 0
  {
    (d + 4) % 7
  }

  // ---------------------------------------------------------------------------
  // Civil calendar

  predicate IsLeapYear(y: int) {
    y % 4 == 0 && (y % 100 != 0 || y % 400 == 0)
  }

  function DaysInMonth(y: int, m: int): (n: int)
    requires 1 <= m <= 12
    ensures 28 <= n <= 31
    ensures n == 29 <==> m == 2 && IsLeapYear(y)
  {
    if m == 2 then (if IsLeapYear(y) then 29 else 28)
    else if m == 4 || m == 6 || m == 9 || m == 11 then 30
    else 31
  }

  /** A civil date in the local calendar (what a `Date` shows through
      `getFullYear()`, `getMonth() + 1` and `getDate()`). */
  datatype Date = Date(year: int, month: int, day: int)

  predicate ValidDate(d: Date) {
    1 <= d.month <= 12 && 1 <= d.day <= DaysInMonth(d.year, d.month)
  }

  /** Running day count of the March-based year `Y` (leap days included). */
  function YearBase(Y: int): int {
    365 * Y + Y / 4 - Y / 100 + Y / 400
  }

  /** Day number of a civil date: 1970-01-01 is day 0. */
  function DaysFromCivil(y: int, m: int, d: int): DayNumber
    requires 1 <= m <= 12
  {
    var Y := if m <= 2 then y - 1 else y;
    var mp := if m > 2 then m - 3 else m + 9;
    YearBase(Y) + (153 * mp + 2) / 5 + d - 1 - 719468
  }

  function DayOf(d: Date): DayNumber
    requires 1 <= d.month <= 12
  {
    DaysFromCivil(d.year, d.month, d.day)
  }

  lemma YearBaseStep(y: int)
    ensures YearBase(y) - YearBase(y - 1) == 365 + (if IsLeapYear(y) then 1 else 0)
  {
    DivStep4(y);
  }

  lemma DivStep4(y: int)
    ensures y / 4 - (y - 1) / 4 == if y % 4 == 0 then 1 else 0
    ensures y / 100 - (y - 1) / 100 == if y % 100 == 0 then 1 else 0
    ensures y / 400 - (y - 1) / 400 == if y % 400 == 0 then 1 else 0
  {
  }

  /** The month after (y, m). */
  function NextMonth(y: int, m: int): (r: (int, int))
    requires 1 <= m <= 12
    ensures 1 <= r.1 <= 12
  {
    if m == 12 then (y + 1, 1) else (y, m + 1)
  }

  /** Months tile the day line: the first day of the next month follows the last
      day of this one. */
  lemma {:induction false} MonthsTile(y: int, m: int)
    requires 1 <= m <= 12
    ensures DaysFromCivil(NextMonth(y, m).0, NextMonth(y, m).1, 1)
            == DaysFromCivil(y, m, 1) + DaysInMonth(y, m)
  {
    if m == 2 {
      YearBaseStep(y);
    }
  }

  function MonthFirstDay(y: int, m: int): DayNumber
    requires 1 <= m <= 12
  {
    DaysFromCivil(y, m, 1)
  }

  function MonthLastDay(y: int, m: int): (r: DayNumber)
    requires 1 <= m <= 12
    ensures r == MonthFirstDay(y, m) + DaysInMonth(y, m) - 1
    ensures r + 1 == MonthFirstDay(NextMonth(y, m).0, NextMonth(y, m).1)
  {
    MonthsTile(y, m);
    MonthFirstDay(y, m) + DaysInMonth(y, m) - 1
  }

  /** date-fns `isSameMonth(day, date)` for a local day and a civil date. */
  predicate InMonth(day: DayNumber, y: int, m: int)
    requires 1 <= m <= 12
  {
    MonthFirstDay(y, m) <= day <= MonthLastDay(y, m)
  }

  /** Every valid date of a month has its day number inside that month. */
  lemma DateInItsMonth(d: Date)
    requires ValidDate(d)
    ensures InMonth(DayOf(d), d.year, d.month)
    ensures DayOf(d) == MonthFirstDay(d.year, d.month) + d.day - 1
  {
  }

  // ---------------------------------------------------------------------------
  // Month arithmetic (date-fns addMonths / subMonths)

  /** Months counted from year 0: January of year y is 12 * y. */
  function MonthIndex(y: int, m: int): int {
    12 * y + m - 1
  }

  /** date-fns `addMonths(date, n)`: moves the month by `n` and clamps the day
      to the length of the target month. */
  function AddMonths(d: Date, n: int): (r: Date)
    requires ValidDate(d)
    ensures ValidDate(r)
    ensures MonthIndex(r.year, r.month) == MonthIndex(d.year, d.month) + n
    ensures r.day <= d.day
    ensures r.day == d.day || r.day == DaysInMonth(r.year, r.month)
  {
    var i := MonthIndex(d.year, d.month) + n;
    var y := i / 12;
    var m := i % 12 + 1;
    var dim := DaysInMonth(y, m);
    Date(y, m, if d.day <= dim then d.day else dim)
  }

  /** Month indices identify the month. */
  lemma MonthIndexInjective(y1: int, m1: int, y2: int, m2: int)
    requires 1 <= m1 <= 12 && 1 <= m2 <= 12
    requires MonthIndex(y1, m1) == MonthIndex(y2, m2)
    ensures y1 == y2 && m1 == m2
  {
  }

  /** Going forward a month and back again returns to the same month; the day can
      only have been clamped down. */
  lemma AddMonthsBack(d: Date, n: int)
    requires ValidDate(d)
    ensures AddMonths(AddMonths(d, n), -n).year == d.year
    ensures AddMonths(AddMonths(d, n), -n).month == d.month
    ensures AddMonths(AddMonths(d, n), -n).day <= d.day
  {
    var r := AddMonths(AddMonths(d, n), -n);
    MonthIndexInjective(r.year, r.month, d.year, d.month);
  }

  // ---------------------------------------------------------------------------
  // Clock readings in local time

  /** A local wall-clock reading: a civil date and the milliseconds since its
      local midnight. */
  datatype LocalDateTime = LocalDateTime(date: Date, msOfDay: int)

  predicate ValidDateTime(t: LocalDateTime) {
    ValidDate(t.date) && 0 <= t.msOfDay < DayMs
  }

  /** The instant a local reading denotes. */
  function ToInstant(t: LocalDateTime, offset: int): (r: Instant)
    requires ValidDateTime(t)
    ensures LocalDay(r, offset) == DayOf(t.date)
  {
    var r := Midnight(DayOf(t.date), offset) + t.msOfDay;
    DayWindow(r, offset, DayOf(t.date), DayOf(t.date));
    r
  }

  /** date-fns `startOfMonth`: local midnight of the first day of the month. */
  function StartOfMonth(y: int, m: int, offset: int): Instant
    requires 1 <= m <= 12
  {
    Midnight(MonthFirstDay(y, m), offset)
  }

  /** date-fns `endOfMonth`: 23:59:59.999 of the last day of the month. */
  function EndOfMonth(y: int, m: int, offset: int): Instant
    requires 1 <= m <= 12
  {
    Midnight(MonthLastDay(y, m), offset) + DayMs - 1
  }

  /** [startOfMonth, endOfMonth] holds exactly the instants whose local day lies
      in the month. */
  lemma MonthWindow(y: int, m: int, offset: int, t: Instant)
    requires 1 <= m <= 12
    ensures StartOfMonth(y, m, offset) <= t <= EndOfMonth(y, m, offset)
            <==> InMonth(LocalDay(t, offset), y, m)
  {
    DayWindow(t, offset, MonthFirstDay(y, m), MonthLastDay(y, m));
  }

  /** An inclusive window of instants. */
  datatype Window = Window(start: Instant, end: Instant)

  predicate InWindow(t: Instant, w: Window) {
    w.start <= t <= w.end
  }

  /** The whole local month (y, m), as date-fns `startOfMonth`/`endOfMonth` give it. */
  function MonthRange(y: int, m: int, offset: int): (w: Window)
    requires 1 <= m <= 12
    ensures forall t :: InWindow(t, w) <==> InMonth(LocalDay(t, offset), y, m)
  {
    var w := Window(StartOfMonth(y, m, offset), EndOfMonth(y, m, offset));
    assert forall t :: InWindow(t, w) <==> InMonth(LocalDay(t, offset), y, m) by {
      forall t ensures InWindow(t, w) <==> InMonth(LocalDay(t, offset), y, m) {
        MonthWindow(y, m, offset, t);
      }
    }
    w
  }
}

=== FILE: toasts.dfy ===
/** The toast notifications: a module-level list of toasts and a counter that
    numbers them. `showToast` appends a toast with a fresh id and, for a
    positive duration, arms a timer; `removeToast` drops the toasts with an id.
    Timers and listeners are not modelled as such: a timer is returned as data
    and its firing is an explicit call to `Remove`. */
module Toasts {
  import opened Common
  import opened Text

  datatype Kind = Success | Error | Warning | Info

  datatype Toast = Toast(id: string, message: string, kind: Kind, duration: int)

  /** The module's state: the toasts on screen, oldest first, and how many ids
      have been handed out. */
  datatype Queue = Queue(toasts: seq<Toast>, counter: nat)

  /** Page load: no toasts, counter at 0. */
  const Initial: Queue := Queue([], 0)

  /** `toast-${n}`. */
  function ToastId(n: nat): string {
    "toast-" + NatToString(n)
  }

  /** Different counter values give different ids. */
  lemma ToastIdInjective(a: nat, b: nat)
    requires ToastId(a) == ToastId(b)
    ensures a == b
  {
    assert NatToString(a) == ToastId(a)[6..] == ToastId(b)[6..] == NatToString(b);
    NatToStringInjective(a, b);
  }

  /** A request to call `removeToast(id)` after `delay` milliseconds. */
  datatype Timer = Timer(id: string, delay: int)

  /** What `showToast` leaves behind: the new state, the returned id and the
      timer it armed, if any. */
  datatype Shown = Shown(queue: Queue, id: string, timer: Option<Timer>)

  const DefaultKind: Kind := Info
  const DefaultDuration: int := 5000

  /** `showToast(message, type?, duration?)`. An absent argument takes its
      default; the counter is bumped before the id is formed, so the first id
      is "toast-1". */
  function Show(q: Queue, message: string, kind: Option<Kind>, duration: Option<int>): (r: Shown)
    ensures r.queue.counter == q.counter + 1
    ensures r.id == ToastId(r.queue.counter)
    ensures |r.queue.toasts| == |q.toasts| + 1
    ensures r.queue.toasts[..|q.toasts|] == q.toasts
    ensures r.queue.toasts[|q.toasts|] == Toast(r.id, message, kind.GetOr(Info), duration.GetOr(5000))
    ensures r.timer.Some? <==> duration.GetOr(5000) > 0
    ensures r.timer.Some? ==> r.timer.value == Timer(r.id, duration.GetOr(5000))
  {
    var n := q.counter + 1;
    var id := ToastId(n);
    var d := duration.GetOr(DefaultDuration);
    var t := Toast(id, message, kind.GetOr(DefaultKind), d);
    Shown(Queue(q.toasts + [t], n), id, if d > 0 then Some(Timer(id, d)) else None)
  }

  function NotId(id: string): Toast -> bool {
    (t: Toast) => t.id != id
  }

  /** `removeToast(id)`: the toasts with another id, in their order. */
  function Remove(q: Queue, id: string): (r: Queue)
    ensures r.counter == q.counter
    ensures IsSubsequence(r.toasts, q.toasts)
    ensures forall t :: t in r.toasts <==> t in q.toasts && t.id != id
    ensures (forall i :: 0 <= i < |q.toasts| ==> q.toasts[i].id != id) ==> r == q
  {
    FilterIsSubsequence(q.toasts, NotId(id));
    assert (forall i :: 0 <= i < |q.toasts| ==> q.toasts[i].id != id) ==> Filter(q.toasts, NotId(id)) == q.toasts by {
      if forall i :: 0 <= i < |q.toasts| ==> q.toasts[i].id != id {
        FilterAll(q.toasts, NotId(id));
      }
    }
    Queue(Filter(q.toasts, NotId(id)), q.counter)
  }

  /** Removing twice is removing once. */
  lemma RemoveIdempotent(q: Queue, id: string)
    ensures Remove(Remove(q, id), id) == Remove(q, id)
  {
    var r := Remove(q, id);
    forall i | 0 <= i < |r.toasts| ensures r.toasts[i].id != id {
      assert r.toasts[i] in r.toasts;
    }
  }

  // ---------------------------------------------------------------------------
  // Invariant

  /** Every toast on screen carries an id handed out so far, and no two carry
      the same id. */
  predicate WellFormed(q: Queue) {
    && (forall i :: 0 <= i < |q.toasts| ==> exists k :: 1 <= k <= q.counter && q.toasts[i].id == ToastId(k))
    && (forall i, j :: 0 <= i < j < |q.toasts| ==> q.toasts[i].id != q.toasts[j].id)
  }

  lemma InitialWellFormed()
    ensures WellFormed(Initial)
  {
  }

  /** The id `showToast` hands out is on no toast already shown. */
  lemma FreshId(q: Queue)
    requires WellFormed(q)
    ensures forall i :: 0 <= i < |q.toasts| ==> q.toasts[i].id != ToastId(q.counter + 1)
  {
    forall i | 0 <= i < |q.toasts| ensures q.toasts[i].id != ToastId(q.counter + 1) {
      var k :| 1 <= k <= q.counter && q.toasts[i].id == ToastId(k);
      if ToastId(k) == ToastId(q.counter + 1) {
        ToastIdInjective(k, q.counter + 1);
      }
    }
  }

  lemma ShowKeepsWellFormed(q: Queue, message: string, kind: Option<Kind>, duration: Option<int>)
    requires WellFormed(q)
    ensures WellFormed(Show(q, message, kind, duration).queue)
  {
    var r := Show(q, message, kind, duration).queue;
    FreshId(q);
    forall i | 0 <= i < |r.toasts|
      ensures exists k :: 1 <= k <= r.counter && r.toasts[i].id == ToastId(k)
    {
      if i < |q.toasts| {
        assert r.toasts[i] == q.toasts[i];
        var k :| 1 <= k <= q.counter && q.toasts[i].id == ToastId(k);
      } else {
        assert r.toasts[i].id == ToastId(r.counter);
      }
    }
    forall i, j | 0 <= i < j < |r.toasts| ensures r.toasts[i].id != r.toasts[j].id {
      assert r.toasts[i] == q.toasts[i];
      if j < |q.toasts| {
        assert r.toasts[j] == q.toasts[j];
      }
    }
  }

  lemma RemoveKeepsWellFormed(q: Queue, id: string)
    requires WellFormed(q)
    ensures WellFormed(Remove(q, id))
  {
    var r := Remove(q, id);
    forall i | 0 <= i < |r.toasts|
      ensures exists k :: 1 <= k <= r.counter && r.toasts[i].id == ToastId(k)
    {
      assert r.toasts[i] in q.toasts;
      var m :| 0 <= m < |q.toasts| && q.toasts[m] == r.toasts[i];
      var k :| 1 <= k <= q.counter && q.toasts[m].id == ToastId(k);
    }
    SubsequenceDistinctIds(r.toasts, q.toasts);
  }

  /** A subsequence of a list with distinct ids has distinct ids. */
  lemma {:induction false} SubsequenceDistinctIds(a: seq<Toast>, b: seq<Toast>)
    requires IsSubsequence(a, b)
    requires forall i, j :: 0 <= i < j < |b| ==> b[i].id != b[j].id
    ensures forall i, j :: 0 <= i < j < |a| ==> a[i].id != a[j].id
    decreases |b|
  {
    if a != [] && b != [] {
      var b' := b[1..];
      assert forall i, j :: 0 <= i < j < |b'| ==> b'[i].id != b'[j].id by {
        forall i, j | 0 <= i < j < |b'| ensures b'[i].id != b'[j].id {
          assert b'[i] == b[i + 1] && b'[j] == b[j + 1];
        }
      }
      if a[0] == b[0] {
        SubsequenceDistinctIds(a[1..], b');
        SubsequenceMembers(a[1..], b');
        forall j | 0 < j < |a| ensures a[0].id != a[j].id {
          assert a[j] == a[1..][j - 1] && a[j] in a[1..];
          assert a[j] in b';
          var m :| 0 <= m < |b'| && b'[m] == a[j];
          assert b[m + 1] == a[j];
        }
        forall i, j | 0 < i < j < |a| ensures a[i].id != a[j].id {
          assert a[i] == a[1..][i - 1] && a[j] == a[1..][j - 1];
        }
      } else {
        SubsequenceDistinctIds(a, b');
      }
    }
  }

  /** The elements of a subsequence are elements of the whole. */
  lemma {:induction false} SubsequenceMembers<T>(a: seq<T>, b: seq<T>)
    requires IsSubsequence(a, b)
    ensures forall x :: x in a ==> x in b
    decreases |b|
  {
    if a != [] && b != [] {
      if a[0] == b[0] {
        SubsequenceMembers(a[1..], b[1..]);
        assert a == [a[0]] + a[1..];
      } else {
        SubsequenceMembers(a, b[1..]);
      }
    }
  }

  // ---------------------------------------------------------------------------
  // Round trip

  /** When the timer of a toast fires, the list goes back to what it was before
      the toast was shown: exactly that toast disappears. */
  lemma ShowThenRemove(q: Queue, message: string, kind: Option<Kind>, duration: Option<int>)
    requires WellFormed(q)
    ensures var s := Show(q, message, kind, duration);
      Remove(s.queue, s.id) == Queue(q.toasts, q.counter + 1)
  {
    var s := Show(q, message, kind, duration);
    var t := s.queue.toasts[|q.toasts|];
    assert s.queue.toasts == q.toasts + [t];
    FreshId(q);
    FilterConcat(q.toasts, [t], NotId(s.id));
    FilterAll(q.toasts, NotId(s.id));
    assert Filter([t], NotId(s.id)) == [];
  }
}
